=== FILE: README.md ===
# Homecare management: a Dafny model of the API routes and form logic

This project models the core of a home-care management system. The system has two parts:

- A FastAPI back end that stores the following, each per organization and care recipient:
  - visits;
  - tasks;
  - care relationships, which link a recipient to a related user;
  - care arrangements, a mode of care effective over a date range;
  - visit notes;
  - persons;
  - memberships;
  - locations.
- A React front end with two registration forms, a paged caregiver list, the dashboard shell, a people list and a visit checklist.

Tables are maps from primary key to row. Each route handler is a pure function:

- A handler that can fail returns `Result<Saved<Row>>`.
- A handler that cannot fail returns `Saved<Row>` directly.
- `Saved` holds the table after the commit, the key and the row.
- An error carries no table, which is how "nothing is committed" is stated.
- Request validation is modelled by `Parse*` functions in the schema modules. These cover enum coercion, defaults, length bounds and the date-order validators, and an invalid body gives 422.
- A list route is a method over the generic sorted query `Listing.Query`.
- The current user, the current organization, the new row's UUID and the clock's reading are parameters, bundled as `Ctx`.

On the front end:

- A component's state is a datatype and each event handler is a function from state to state.
- `fetch`, `alert` and the server's reply are replaced by parameters and results. `Submit` returns the next form, whether a request was sent, and the alert text.
- JavaScript semantics are written out where they matter: what `trim` and `\s` treat as whitespace, that `\d` means ASCII digits, that the email pattern is unanchored, and which values are falsy.

## Model

| member | source | states |
|---|---|---|
| VisitSchema.ParseVisitType | backend/apis/schemas/visit.py:13-18 | a string coerces to a visit type iff it is one of the five enum values, and the result prints back as that string |
| VisitSchema.ParseVisitStatus | backend/apis/schemas/visit.py:21-26 | a string coerces to a visit status iff it is one of the five enum values, and the result prints back as that string |
| VisitSchema.ValidateTimeWindow | backend/apis/schemas/visit.py:51-57 | the window validator passes iff the end is strictly after the start, and fails with 422 otherwise |
| VisitSchema.ParseVisitCreate | backend/apis/schemas/visit.py:29-63 | a create body is accepted iff its type and status coerce and its window is non-empty; on acceptance the payload is the body itself (`CarriesCreateBody`): the ids, caregiver, window, timezone, address, recurrence, parent visit and notes as given, each enum the member whose value is the body's string, and the status scheduled when absent |
| VisitSchema.ParseVisitUpdate | backend/apis/schemas/visit.py:66-82 | an update body is accepted iff its enums coerce; there is no window check, so an inverted window in the body passes to the route; on acceptance every field is the body's (`CarriesUpdateBody`), null stays null, and a present type or status is the member whose value is the body's string |
| Visits.CreateVisit | backend/apis/routes/visits.py:54-92 | 400 with nothing stored iff the end is not after the start; otherwise the new row carries every payload column (recipient, caregiver, type, window, timezone, address, recurrence, parent visit, status, notes), the creator is the current user, and there is no check-in or check-out |
| Visits.UpdateVisit | backend/apis/routes/visits.py:95-156 | 404 for an unknown id; otherwise success iff the patched window is non-empty; on success exactly the non-null payload fields change, and the owner, recipient, creator and check times stay |
| Visits.StartVisit | backend/apis/routes/visits.py:159-184 | succeeds iff the visit exists and is scheduled or in progress (404, then 400 otherwise); it sets in_progress, keeps an existing check-in or records `now`, and changes nothing else |
| Visits.EndVisit | backend/apis/routes/visits.py:187-214 | succeeds iff the visit exists and is scheduled or in progress; it sets completed, sets check-out to `now`, keeps an existing check-in or records `now`, and changes nothing else |
| Visits.StartVisitIdempotent | backend/apis/routes/visits.py:177-179 | a second start leaves the table and row exactly as the first start left them, whatever the clock says |
| Visits.EndVisitTwiceFails | backend/apis/routes/visits.py:199-208 | after a successful end, ending again is refused with 400 |
| Visits.StartThenEndKeepsCheckIn | backend/apis/routes/visits.py:177-179 | a started visit can be ended; it ends completed with the start's check-in time and check-out at the end's time |
| Visits.EndVisitOrdersCheckTimes | backend/apis/routes/visits.py:205-207 | under a clock that has not run backwards, an ended visit was checked in no later than it was checked out |
| Visits.VisitRoutesKeepCheckTimesOrdered | backend/apis/routes/visits.py:54-214 | every visit route keeps "checked out implies checked in no later" true of the whole table, given a clock that has not run backwards |
| Visits.VisitRoutesKeepWindowsValid | backend/apis/routes/visits.py:83-87 | every visit route keeps every stored window non-empty |
| Visits.UpdateVisitSetsAnyStatus | backend/apis/routes/visits.py:142-143 | a status-only patch succeeds with any target status, even on a completed visit: the update route has no transition rule |
| Visits.ValidatedCreateSucceeds | backend/apis/routes/visits.py:83-87 | a body that passed schema validation is never refused by the route's own window check |
| Visits.ListVisits | backend/apis/routes/visits.py:27-39 | lists exactly the organization's visits (of one recipient when given), each once, with the earliest scheduled start first |
| TaskSchema.ParseTaskCategory | backend/apis/schemas/task.py:13-18 | a string coerces to a category iff it is one of the five enum values |
| TaskSchema.ParseTaskStatus | backend/apis/schemas/task.py:21-25 | a string coerces to a task status iff it is one of the four enum values |
| TaskSchema.ParseTaskCreate | backend/apis/schemas/task.py:28-51 | a create body is accepted iff title ≤ 200, description ≤ 1000 and notes ≤ 500 characters and its enums coerce; on acceptance the payload is the body itself (`CarriesCreateBody`): ids, scope, date, title, description, frequency, notes and sort order as given, a present category the member named by the body, and the status pending when absent |
| TaskSchema.ParseTaskUpdate | backend/apis/schemas/task.py:54-67 | an update body is accepted iff its enums coerce; strings of any length pass; on acceptance every field is the body's (`CarriesUpdateBody`), null stays null, and a present category or status is the member named by the body |
| Tasks.ValidateScope | backend/apis/routes/tasks.py:26-42 | passes iff exactly one of visit and 24/7 assignment is set; each failure has its own 400 message |
| Tasks.CreateTask | backend/apis/routes/tasks.py:78-110 | succeeds iff exactly one scope key is set; the stored row carries every payload column (scope, date, title, description, category, frequency, status, notes, sort order) and no completion stamp |
| Tasks.UpdateTask | backend/apis/routes/tasks.py:113-175 | 404 for an unknown id; success iff the patched row has exactly one scope and, if completed, both stamps; a patch to completed fills only the missing stamps with `now` and the current user |
| Tasks.SecondScopeRejected | backend/apis/routes/tasks.py:133-136 | a patch that adds the other scope key to a scoped task is refused with 400, because a patch can set a key but never clear one |
| Tasks.CreatedCompletedTaskBlocksPatches | backend/apis/routes/tasks.py:100-104 | a task created as completed has no stamp, and every later patch that does not set the status is refused with 400 |
| Tasks.UpdateTaskKeepsStamps | backend/apis/routes/tasks.py:152-170 | when every completed task is stamped before an update, every completed task is stamped after it |
| Tasks.TaskOrderIsTotalPreorder | backend/apis/routes/tasks.py:63 | ordering by date, then by sort order with nulls last, is a total preorder |
| Tasks.ListTasks | backend/apis/routes/tasks.py:45-63 | lists exactly the organization's tasks that match every given filter, each once, by date and then by sort order with nulls last |
| CareRelationshipSchema.ParseRole | backend/apis/schemas/care_relationship.py:13-20 | a string coerces to a role iff it is one of the seven enum values |
| CareRelationshipSchema.ParseRelationshipStatus | backend/apis/schemas/care_relationship.py:23-26 | a string coerces to a status iff it is active, inactive or ended |
| CareRelationshipSchema.ValidateDateRange | backend/apis/schemas/care_relationship.py:45-51 | fails iff both dates are given and the end is before the start; equal dates pass |
| CareRelationshipSchema.ParseCreate | backend/apis/schemas/care_relationship.py:29-57 | a create body is accepted iff role and status coerce and the dates are ordered; on acceptance the payload is the body itself (`CarriesCreateBody`): recipient, related user, organization, dates and notes as given, the role named by the body, the 24/7 flag false and the status active when absent |
| CareRelationshipSchema.ParseUpdate | backend/apis/schemas/care_relationship.py:60-76 | an update body is accepted iff its enums coerce and its own dates are ordered; on acceptance every field is the body's (`CarriesUpdateBody`), null stays null, and a present role or status is the member named by the body |
| CareRelationships.Clear24x7 | backend/apis/routes/care_relationships.py:130-142 | exactly the pair's active 24/7 rows other than the skipped one lose the flag; nothing else changes |
| CareRelationships.CreateCareRelationship | backend/apis/routes/care_relationships.py:56-98 | the new row carries every payload field; when it is flagged 24/7, exactly the active 24/7 rows of its pair lose the flag, and every other row, inactive 24/7 rows of the pair included, is left as it was |
| CareRelationships.UpdateCareRelationship | backend/apis/routes/care_relationships.py:101-148 | 404 for an unknown id; otherwise the non-null fields are copied and the pair and related user stay; a true 24/7 flag clears the flag on exactly the pair's other active 24/7 rows, and every other row, inactive ones included, is left as it was |
| CareRelationships.CreateKeepsSingle24x7 | backend/apis/routes/care_relationships.py:64-81 | create keeps at most one active 24/7 caregiver per (recipient, organization) |
| CareRelationships.UpdateKeepsSingle24x7 | backend/apis/routes/care_relationships.py:110-143 | update keeps at most one active 24/7 caregiver per pair when the patch sets the 24/7 flag or does not make the row active |
| CareRelationships.StatusOnlyPatchCanBreakSingle24x7 | backend/apis/routes/care_relationships.py:125-128 | a status-only patch to active on an inactive 24/7 row leaves two active 24/7 caregivers for one pair |
| CareArrangementSchema.ParseMode | backend/apis/schemas/care_arrangement.py:13-16 | a string coerces to a mode iff it is one of the three enum values |
| CareArrangementSchema.ValidateEffectiveRange | backend/apis/schemas/care_arrangement.py:32-38 | fails iff both dates are given and the end is before the start; equal dates pass |
| CareArrangementSchema.ParseCreate | backend/apis/schemas/care_arrangement.py:19-44 | a create body is accepted iff its mode coerces and its range is ordered; on acceptance the payload is the body itself (`CarriesCreateBody`): recipient, organization, range and notes as given and the mode named by the body |
| CareArrangementSchema.ParseUpdate | backend/apis/schemas/care_arrangement.py:47-61 | an update body is accepted iff its mode coerces and its own dates are ordered; on acceptance every field is the body's (`CarriesUpdateBody`), null stays null, and a present mode is the member named by the body |
| CareArrangements.GetCareArrangement | backend/apis/routes/care_arrangements.py:44-53 | the row for a known id, 404 "Care arrangement not found" otherwise |
| CareArrangements.CloseOpen | backend/apis/routes/care_arrangements.py:67-78 | every open-ended arrangement of the pair gets the given end date; no other row or field changes |
| CareArrangements.CreateCareArrangement | backend/apis/routes/care_arrangements.py:56-92 | the pair's open-ended arrangements are closed at the new start date and no other row changes; the new row carries the payload's pair, mode, range and notes with the creation time `now`, and afterwards it is the pair's only possible open one |
| CareArrangements.UpdateCareArrangement | backend/apis/routes/care_arrangements.py:95-123 | 404 for an unknown id; otherwise the non-null fields are copied, the pair never changes, and a closed arrangement is never reopened |
| CareArrangements.CreateKeepsAtMostOneOpen | backend/apis/routes/care_arrangements.py:64-78 | create keeps at most one open-ended arrangement per (recipient, organization) |
| CareArrangements.UpdateKeepsAtMostOneOpen | backend/apis/routes/care_arrangements.py:111-118 | update keeps at most one open-ended arrangement per pair |
| CareArrangements.CreateCanInvertClosedRange | backend/apis/routes/care_arrangements.py:77-78 | closing at a new start date earlier than an open arrangement's own start leaves that arrangement ending before it starts |
| CareArrangements.CreateKeepsRangesOrdered | backend/apis/routes/care_arrangements.py:67-87 | create keeps every range ordered when the new range is ordered and no open arrangement of the pair starts after the new start |
| CareArrangements.UpdateCanInvertRange | backend/apis/routes/care_arrangements.py:113-116 | moving only the start date past the stored end date is accepted and stores an inverted range |
| CareArrangements.ListCareArrangements | backend/apis/routes/care_arrangements.py:29-41 | lists exactly the organization's arrangements (of one recipient when given), each once, newest first |
| VisitNotes.GetVisitNote | backend/apis/routes/visit_notes.py:36-45 | the row for a known id, 404 "Visit note not found" otherwise |
| VisitNotes.CreateVisitNote | backend/apis/routes/visit_notes.py:48-80 | 409 with nothing stored iff the visit already has a note; otherwise the payload is stored with the payload's author |
| VisitNotes.UpdateVisitNote | backend/apis/routes/visit_notes.py:83-106 | 404 for an unknown id; otherwise the non-null text fields are copied, and the visit and author stay |
| VisitNotes.CreateKeepsOneNotePerVisit | backend/apis/routes/visit_notes.py:57-64 | create keeps at most one note per visit |
| VisitNotes.UpdateKeepsOneNotePerVisit | backend/apis/routes/visit_notes.py:94-101 | update keeps at most one note per visit |
| VisitNotes.SecondNoteRefused | backend/apis/routes/visit_notes.py:59-64 | after a note is created for a visit, any second note for it is refused with 409, whoever writes it |
| VisitNotes.ListVisitNotes | backend/apis/routes/visit_notes.py:25-33 | lists every note exactly once, newest first |
| Listing.Query | backend/apis/routes/visits.py:36-39 | a query returns exactly the rows that pass the filter, each once, sorted by the given total preorder |
| Listing.UnfilteredQuerySize | backend/apis/routes/persons.py:37-43 | a query without a filter lists as many rows as the table holds, one per key |
| Persons.ListPersons | backend/apis/routes/persons.py:22-44 | 422 unless 1 ≤ limit ≤ 100 and offset ≥ 0, with defaults 50 and 0; otherwise the page is the slice of the newest-first listing from offset, at most limit long |
| Persons.CreatePerson | backend/apis/routes/persons.py:47-76 | 409 with nothing stored iff the email is taken; otherwise a new user with the payload's names and status invited |
| Persons.GetPerson | backend/apis/routes/persons.py:79-85 | the row for a known id, 404 "Person not found" otherwise |
| Persons.UpdatePerson | backend/apis/routes/persons.py:88-109 | 404 for an unknown id; otherwise the non-null name fields are copied, and the email, status and creation time stay |
| Persons.CreateKeepsUniqueEmails | backend/apis/routes/persons.py:58-63 | create keeps emails unique across users |
| Persons.UpdateKeepsUniqueEmails | backend/apis/routes/persons.py:99-104 | update keeps emails unique, since it cannot change an email |
| Memberships.ParseMembershipRole | backend/apis/schemas/membership.py:13-19 | a string coerces to a role iff it is one of the six enum values |
| Memberships.ParseMembershipStatus | backend/apis/schemas/membership.py:22-25 | a string coerces to a status iff it is active, inactive or invited |
| Memberships.ParseCreate | backend/apis/schemas/membership.py:28-45 | a create body is accepted iff role and status coerce; on acceptance user, organization, title and location are the body's, the role is the member named by the body, and the status is invited when absent |
| Memberships.CreateMembership | backend/apis/routes/memberships.py:57-89 | 409 with nothing stored iff the user already has a membership in the organization; otherwise the payload is stored with the current user as inviter |
| Memberships.GetMembership | backend/apis/routes/memberships.py:45-54 | the row for a known id, 404 "Membership not found" otherwise |
| Memberships.UpdateMembership | backend/apis/routes/memberships.py:92-115 | 404 for an unknown id; otherwise role, title, location and status are patched, and user, organization and inviter stay |
| Memberships.CreateKeepsUniquePairs | backend/apis/routes/memberships.py:66-86 | create keeps (user, organization) pairs unique |
| Memberships.UpdateKeepsUniquePairs | backend/apis/routes/memberships.py:103-110 | update keeps (user, organization) pairs unique |
| Memberships.ListMemberships | backend/apis/routes/memberships.py:30-42 | lists exactly the organization's memberships, each once, newest first |
| Locations.GetLocation | backend/apis/routes/locations.py:46-63 | succeeds iff the location exists and belongs to the current organization; 404 otherwise |
| Locations.CreateLocation | backend/apis/routes/locations.py:66-93 | the new location belongs to the current organization, whatever the payload says |
| Locations.UpdateLocation | backend/apis/routes/locations.py:96-135 | 404 unless the location is the current organization's; otherwise the non-null fields are copied and the organization stays |
| Locations.WritesStayInOrganization | backend/apis/routes/locations.py:72-79 | neither write route adds, removes or changes a location of any other organization |
| Locations.CreateIgnoresPayloadOrganization | backend/apis/routes/locations.py:75-79 | the organization in a create payload makes no difference to the result |
| Locations.ListLocations | backend/apis/routes/locations.py:29-43 | lists exactly the current organization's locations, each once, newest first |
| FormRules.LeadingSpace | frontend/src/components/NewCaregiver.tsx:70 | counts the whitespace characters the string starts with |
| FormRules.Trim | frontend/src/components/NewCaregiver.tsx:70-71 | the trim is the slice between leading and trailing whitespace; it is empty iff the string is all whitespace, and otherwise starts and ends with a non-space |
| FormRules.TrimIdempotent | frontend/src/components/NewCaregiver.tsx:70-71 | trimming twice is trimming once |
| FormRules.PhoneValid | frontend/src/components/NewCaregiver.tsx:72 | `/^\d{7,15}$/`: the whole phone is 7 to 15 characters, each an ASCII digit |
| FormRules.EmailPatternMatches | frontend/src/components/NewCaregiver.tsx:73 | `/\S+@\S+\.\S+/` unanchored: some `@` has a non-space before it and is followed by a run of non-spaces holding a `.` with a non-space after it; `MatchesEmailPattern` is proved to decide exactly this |
| FormRules.MatchesEmailPattern | frontend/src/components/NewCaregiver.tsx:73 | the scanner answers true iff some substring matches the unanchored pattern: non-spaces, `@`, non-spaces, `.`, non-spaces |
| FormRules.Validate | frontend/src/components/NewCaregiver.tsx:69-76 | returns the first failing check's message in the order first name, last name, phone, email (an empty email is not checked), equal to the reference definition `FirstError` that uses the existential email pattern, and none iff every check passes |
| FormRules.ToggleLanguage | frontend/src/components/NewCaregiver.tsx:216-222 | after a toggle the language is chosen iff it was not, and no other language changes |
| FormRules.RemoveKeepsDistinct | frontend/src/components/NewCaregiver.tsx:220 | removing a language keeps the list free of repeats |
| FormRules.ToggleKeepsDistinct | frontend/src/components/NewCaregiver.tsx:219-221 | toggling never creates a repeated language |
| FormRules.ToggleTwiceWhenAbsent | frontend/src/components/NewCaregiver.tsx:219-221 | toggling an unchosen language on and off restores the list exactly |
| FormRules.ToggleTwiceSameLanguages | frontend/src/components/NewCaregiver.tsx:219-221 | toggling any language twice restores which languages are chosen |
| FormRules.ToggleTwiceCanReorder | frontend/src/components/NewCaregiver.tsx:219-221 | toggling a chosen language that is not last off and on moves it to the end, so the list itself is not restored |
| NewCaregiver.InitialForm | frontend/src/components/NewCaregiver.tsx:26-45 | every text field is empty and no language is chosen |
| NewCaregiver.HandleChange | frontend/src/components/NewCaregiver.tsx:53-67 | the languages select replaces the list with its selection; any other input sets exactly the field it names |
| NewCaregiver.ClickLanguage | frontend/src/components/NewCaregiver.tsx:216-222 | a language button flips whether its language is chosen, and nothing else |
| NewCaregiver.Submit | frontend/src/components/NewCaregiver.tsx:78-102 | a request is sent iff validation passes; otherwise the form is kept and the alert is the message of the first failing check (first name, last name, phone, email); success resets the form, and a failed request alerts "Error: " and the message |
| NewCaregiver.ClickLanguageKeepsDistinct | frontend/src/components/NewCaregiver.tsx:216-222 | language buttons never create a repeated language |
| NewPatient.InitialForm | frontend/src/components/NewPatient.tsx:28-49 | text fields empty, no language chosen, every requirement unanswered |
| NewPatient.RequirementKey | frontend/src/components/NewPatient.tsx:63 | the key is the text after `requirements.` up to the next dot |
| NewPatient.HandleChange | frontend/src/components/NewPatient.tsx:57-75 | a `requirements.<key>` input records whether the answer is "yes" and touches nothing else; any other input sets exactly the field it names |
| NewPatient.RequirementAnswerIsLocal | frontend/src/components/NewPatient.tsx:62-71 | answering a requirement sets that requirement only, leaving other requirements, fields and languages as they were |
| NewPatient.ToggleLanguage | frontend/src/components/NewPatient.tsx:77-84 | a toggle flips whether its language is chosen, and nothing else |
| NewPatient.ToggleLanguageTwice | frontend/src/components/NewPatient.tsx:77-84 | toggling an unchosen language on and off restores the form |
| NewPatient.Submit | frontend/src/components/NewPatient.tsx:86-120 | as for the caregiver form, with the patient phone message and success text: the alert on an aborted submit is the first failing check's message |
| CaregiverList.NatToString | frontend/src/components/ViewModifyCaregivers.tsx:30 | a non-negative number prints as one or more decimal digits with no leading zero |
| CaregiverList.IntToString | frontend/src/components/ViewModifyCaregivers.tsx:30 | `String(page)`: at least one character, led by a minus sign exactly for a negative number; `IntToStringRoundTrip` reads it back |
| CaregiverList.IntToStringRoundTrip | frontend/src/components/ViewModifyCaregivers.tsx:30 | reading back a printed page number gives the number |
| CaregiverList.QueryOf | frontend/src/components/ViewModifyCaregivers.tsx:29-32 | the query always carries the page and `per_page=20`, and carries the trimmed search iff it is not blank |
| CaregiverList.QueryCarriesPage | frontend/src/components/ViewModifyCaregivers.tsx:30 | the receiver of a request reads back exactly the page it was built for |
| CaregiverList.PrevPage | frontend/src/components/ViewModifyCaregivers.tsx:160 | Prev goes back one page and never below 1 |
| CaregiverList.NextPage | frontend/src/components/ViewModifyCaregivers.tsx:163 | Next goes on one page; with a known non-zero page count it never passes the count, and from the count or beyond it goes to exactly the count |
| CaregiverList.ShowPagination | frontend/src/components/ViewModifyCaregivers.tsx:156 | the bar renders iff the page count is known and above 1; `InitialPageInRange` shows it starts hidden |
| CaregiverList.PrevDisabled | frontend/src/components/ViewModifyCaregivers.tsx:160 | Prev is disabled iff the page is at most 1; `EnabledButtonsMoveOnePage` shows an enabled Prev moves back exactly one |
| CaregiverList.NextDisabled | frontend/src/components/ViewModifyCaregivers.tsx:163 | Next is disabled iff the page count is known and the page has reached it; `EnabledButtonsMoveOnePage` shows an enabled Next moves on exactly one |
| CaregiverList.GoTo | frontend/src/components/ViewModifyCaregivers.tsx:48-51 | a page change fetches the new page once; setting the same page fetches nothing |
| CaregiverList.Step | frontend/src/components/ViewModifyCaregivers.tsx:21-51 | each event's effect: typing sets the search, Search sets page 1 after fetching the current page, a hidden or disabled button does nothing, and a response sets the page count |
| CaregiverList.ClicksKeepPageInRange | frontend/src/components/ViewModifyCaregivers.tsx:156-163 | no click or keystroke takes the page below 1 or past a page count it was within |
| CaregiverList.EnabledButtonsMoveOnePage | frontend/src/components/ViewModifyCaregivers.tsx:160-163 | with the bar shown, an enabled Prev or Next moves exactly one page and fetches it, so the clamps never bind |
| CaregiverList.InitialPageInRange | frontend/src/components/ViewModifyCaregivers.tsx:21-22 | the page starts at 1 with no page count, and the bar is hidden |
| CaregiverList.SearchFetches | frontend/src/components/ViewModifyCaregivers.tsx:96 | a search from page 1 fetches once; from another page it fetches the stale page, then page 1 |
| DashboardLayout.Kept | frontend/src/components/DashboardLayout.tsx:19-21 | the kept classes are exactly the non-empty string arguments |
| DashboardLayout.Cn | frontend/src/components/DashboardLayout.tsx:19-21 | `cn`: the truthy class strings joined by single spaces; `CnEmpty`, `CnAppend` and `CnSplits` characterise it |
| DashboardLayout.CnAppend | frontend/src/components/DashboardLayout.tsx:19-21 | `cn` of two argument lists is their results joined by one space, an empty side adding nothing |
| DashboardLayout.CnEmpty | frontend/src/components/DashboardLayout.tsx:19-21 | `cn` is empty iff every argument is falsy |
| DashboardLayout.SplitJoin | frontend/src/components/DashboardLayout.tsx:20 | splitting a join at its spaces gives the parts back when no part is empty or holds a space |
| DashboardLayout.CnSplits | frontend/src/components/DashboardLayout.tsx:19-21 | splitting the class list at spaces gives the truthy arguments back, in order |
| DashboardLayout.PrefixesComparable | frontend/src/components/DashboardLayout.tsx:72 | two prefixes of one path are prefixes of each other |
| DashboardLayout.IsActive | frontend/src/components/DashboardLayout.tsx:69-72 | the root entry is active only on `/`, any other entry on every path that starts with its href; `AtMostOneActive` and `PrefixRuleIgnoresSegments` characterise it |
| DashboardLayout.HrefsIncomparable | frontend/src/components/DashboardLayout.tsx:23-31 | apart from `/`, no nav href is a prefix of another |
| DashboardLayout.AtMostOneActive | frontend/src/components/DashboardLayout.tsx:23-72 | for every path, at most one nav item is highlighted |
| DashboardLayout.PrefixRuleIgnoresSegments | frontend/src/components/DashboardLayout.tsx:69-72 | the prefix rule ignores segment boundaries (`/peoplex` highlights People), and the empty path highlights nothing |
| PeopleList.WithRole | frontend/src/pages/people/PeopleList.tsx:18 | the result holds only people with the role and is never longer than the input |
| PeopleList.WithRoleCount | frontend/src/pages/people/PeopleList.tsx:18 | the filter drops no one with the role: each such person appears as often as in the input, and no one else appears |
| PeopleList.WithRoleAppend | frontend/src/pages/people/PeopleList.tsx:18 | filtering keeps order: filtering a concatenation concatenates the filtered parts |
| PeopleList.Filtered | frontend/src/pages/people/PeopleList.tsx:15-18 | "All" gives the list unchanged; any other filter gives people with that role only, dropping none of them |
| PeopleList.EmptyIffNoMatch | frontend/src/pages/people/PeopleList.tsx:15-78 | the "No people found" message shows iff nobody has the chosen role |
| PeopleList.EveryOptionShowsSomeone | frontend/src/pages/people/PeopleList.tsx:5-54 | every select option shows someone; a role nobody has shows the message |
| VisitInProgress.ToggleTask | frontend/src/pages/visits/VisitInProgress.tsx:9-13 | length, order, ids and names stay; exactly the tasks with the id flip their done flag |
| VisitInProgress.ToggleTwice | frontend/src/pages/visits/VisitInProgress.tsx:9-13 | toggling one id twice restores the list |
| VisitInProgress.ToggleAbsent | frontend/src/pages/visits/VisitInProgress.tsx:10-12 | toggling an id no task has changes nothing |
| VisitInProgress.ToggleChangesOneTask | frontend/src/pages/visits/VisitInProgress.tsx:10-12 | with distinct ids, a toggle flips the named task and leaves every other task equal |

## Where the model follows the code over its description

- **Visit note author.** `create_visit_note` writes the payload's author or, failing that, the current user (backend/apis/routes/visit_notes.py:66). The schema makes `author_id` a required UUID, and a UUID is never falsy, so the fallback never fires. `VisitNotes.CreateVisitNote` always stores the payload's author.
- **Language toggle.** Toggling a language twice restores the list only when the language was absent. When it was present, it comes back at the end. `FormRules.ToggleTwiceWhenAbsent` proves the first case, `FormRules.ToggleTwiceSameLanguages` proves that the set of chosen languages is always restored, and `FormRules.ToggleTwiceCanReorder` exhibits the reordering.
- **Single 24/7 caregiver.** `update_care_relationship` clears the other 24/7 flags only when the patch itself sets the flag to true. A status-only patch back to active can leave two active 24/7 caregivers for one pair (`CareRelationships.StatusOnlyPatchCanBreakSingle24x7`). The preservation lemma carries that condition as its precondition.
- **Arrangement ranges.**
  - `create_care_arrangement` closes open arrangements at the new start date even when that date is before their own start (`CareArrangements.CreateCanInvertClosedRange`).
  - The update route applies the range validator to the payload's dates only, so it can store an inverted range (`CareArrangements.UpdateCanInvertRange`).
  - Neither is listed as a defect: the routes make no promise about ranges beyond the validator.
- **Search request.** The Search button calls `fetchCaregivers()` while the component still holds the old page. The page effect then fetches page 1 when the page changed. `CaregiverList.SearchFetches` states both requests.
- **Completed tasks.** A task created with status completed is stored without a completion stamp. The update route then refuses every patch that does not itself set the status (`Tasks.CreatedCompletedTaskBlocksPatches`).

## Left out

- VisitSchema.ValidateTimeWindow, CareRelationshipSchema.ValidateDateRange and CareArrangementSchema.ValidateEffectiveRange model the comparison each validator states, not what it does. Each is a Pydantic 2 `field_validator` whose second parameter, though named `values: dict`, receives a `ValidationInfo`, which has no `get` method. So `values.get(...)` raises `AttributeError` whenever the validated field is supplied (backend/apis/schemas/visit.py:54, care_relationship.py:48 and 73, care_arrangement.py:35 and 58). Pydantic does not turn that error into a 422, so such a request ends in a server error (500). `scheduled_end` is required, so every visit create body hits it. The model instead accepts or refuses the body by the stated date comparison, with 422 on failure. The response models inherit the same validators: `VisitResponse` (backend/apis/schemas/visit.py:85), `CareRelationshipResponse` (care_relationship.py:79) and `CareArrangementResponse` (care_arrangement.py:64). FastAPI validates every row a route returns against its response model, and a stored row always carries the validated field. So as written, every visit, care relationship and care arrangement route that returns a row answers 500, after any commit, where the model answers with the row.
- Visits.CreateVisit, Visits.UpdateVisit, Tasks.CreateTask, Tasks.UpdateTask, Persons.CreatePerson, Persons.UpdatePerson, VisitNotes.CreateVisitNote, VisitNotes.UpdateVisitNote, Memberships.CreateMembership, Memberships.UpdateMembership, Locations.CreateLocation, Locations.UpdateLocation, CareRelationships.CreateCareRelationship, CareRelationships.UpdateCareRelationship, CareArrangements.CreateCareArrangement and CareArrangements.UpdateCareArrangement do not model the database column widths. PostgreSQL enforces each `String(n)` column at commit (backend/database/session.py:16-19), for example task `title` 200 (database/entities/task.py:36), visit `address_country` 2 (database/entities/visit.py:35) and user `first_name` 100 (database/entities/user.py:21). Several request schemas have no matching bound, task updates included. A longer string makes the commit fail with a server error and nothing stored, where the model answers with the row. The model stores strings of any length.
- Database sessions, commits, refreshes and rollbacks: each handler's result is one atomic commit or none.
- Concurrency: the check-then-insert of persons and visit notes is modelled sequentially, so the races that the unique constraints would catch are not modelled.
- Foreign-key violations: every integrity error of `create_membership` becomes 409, but only the (user, organization) uniqueness is modelled.
- The clock and timezones: times are integers, and `now` is a parameter.
- Header-based identity with fallback IDs: the current user and organization are parameters.
- UUID generation: the new key is a fresh parameter (`ctx.newId`).
- `EmailStr` and other format validation of emails, dates and UUIDs: emails are opaque strings.
- The exact 422 detail strings that pydantic produces: the model gives the status code and a descriptive message.
- The get/list routes outside the named operations: `get_visit`, `get_task`, `list_care_relationships` and `get_care_relationship` have the same shape as the modelled get and list routes.
- `organizations.py`, `health.py`, the router wiring, and the `backend/models` dataclasses.
- The location schema's length limits: the location schema is not part of this model.
- JSX rendering, styling, loading flags, `alert`/`confirm`, the delete button of the caregiver list, and the list's display of each caregiver.
- URL encoding of query values: the query is modelled as its (name, value) list.
- The parsing of the caregiver list's response body: the model takes a successful response's page count, or `null`.
- NewPatient.HandleChange: requires that the input's name is neither `languages` nor `requirements`, because the form has no input with either name and writing a string over them is outside what the component can do.
- NewCaregiver.Submit and NewPatient.Submit: the server's reply is a parameter (`Created` or `Failed` with its text), so network errors and non-2xx replies are one case.
- Persons.ListPersons: the slice it returns is stated against a ghost ordered listing, because the order among users created at the same instant is not fixed by the route.

=== FILE: care_arrangement_schema.dfy ===
/** Care arrangement request schemas and the `care_arrangement` table row: how
    care is delivered to a recipient within an organization, from a date on. */
module CareArrangementSchema {
  import opened Common

  datatype Mode = VisitsOnly | Caregiver24x7Only | Caregiver24x7PlusVisits {
    function Value(): string {
      match this
      case VisitsOnly => "visits_only"
      case Caregiver24x7Only => "caregiver_24x7_only"
      case Caregiver24x7PlusVisits => "caregiver_24x7_plus_visits"
    }
  }

  /** Enum coercion of a `mode` string. */
  function ParseMode(s: string): (r: Option<Mode>)
    ensures r.Some? <==> s in {"visits_only", "caregiver_24x7_only", "caregiver_24x7_plus_visits"}
    ensures r.Some? ==> r.value.Value() == s
    ensures forall m: Mode :: m.Value() == s ==> r == Some(m)
  {
    if s == "visits_only" then Some(VisitsOnly)
    else if s == "caregiver_24x7_only" then Some(Caregiver24x7Only)
    else if s == "caregiver_24x7_plus_visits" then Some(Caregiver24x7PlusVisits)
    else None
  }

  /** A row of the `care_arrangement` table. Dates and times are integers;
      `effectiveTo` null means open-ended. */
  datatype CareArrangement = CareArrangement(
    careRecipientId: Id,
    organizationId: Id,
    mode: Mode,
    effectiveFrom: int,
    effectiveTo: Option<int>,
    notes: Option<string>,
    createdAt: int)

  /** A create body before enum coercion. */
  datatype CreateBody = CreateBody(
    careRecipientId: Id,
    organizationId: Id,
    mode: string,
    effectiveFrom: int,
    effectiveTo: Option<int>,
    notes: Option<string>)

  /** A validated `CareArrangementCreate` payload. */
  datatype CareArrangementCreate = CareArrangementCreate(
    careRecipientId: Id,
    organizationId: Id,
    mode: Mode,
    effectiveFrom: int,
    effectiveTo: Option<int>,
    notes: Option<string>)

  /** A `CareArrangementUpdate` payload: every field may be null. */
  datatype CareArrangementUpdate = CareArrangementUpdate(
    mode: Option<Mode>,
    effectiveFrom: Option<int>,
    effectiveTo: Option<int>,
    notes: Option<string>)

  /** An update body before enum coercion. */
  datatype UpdateBody = UpdateBody(
    mode: Option<string>,
    effectiveFrom: Option<int>,
    effectiveTo: Option<int>,
    notes: Option<string>)

  const EffectiveRangeDetail := "effective_to cannot be before effective_from"

  /** `validate_effective_range`: an end before the start is rejected; an
      end equal to the start, or a missing date, passes. */
  function ValidateEffectiveRange(start: Option<int>, end: Option<int>): (r: Outcome)
    ensures r.Pass? <==> end.None? || start.None? || start.value <= end.value
    ensures r.Fail? ==> r.error == Unprocessable(EffectiveRangeDetail)
  {
    if end.Some? && start.Some? && end.value < start.value then Fail(Unprocessable(EffectiveRangeDetail)) else Pass
  }

  /** `c` is what Pydantic builds from `b`: every plain field as given and
      the mode the member whose value is the body's string. */
  ghost predicate CarriesCreateBody(b: CreateBody, c: CareArrangementCreate) {
    && c.careRecipientId == b.careRecipientId
    && c.organizationId == b.organizationId
    && c.mode.Value() == b.mode
    && c.effectiveFrom == b.effectiveFrom
    && c.effectiveTo == b.effectiveTo
    && c.notes == b.notes
  }

  /** Validation of a create body: mode coercion and the range check. */
  function ParseCreate(b: CreateBody): (r: Result<CareArrangementCreate>)
    ensures r.Ok? <==> ParseMode(b.mode).Some? && (b.effectiveTo.None? || b.effectiveFrom <= b.effectiveTo.value)
    ensures r.Err? ==> r.error.Code() == 422
    ensures r.Ok? ==> r.value.mode.Value() == b.mode
    ensures r.Ok? ==> r.value.effectiveFrom == b.effectiveFrom && r.value.effectiveTo == b.effectiveTo
    ensures r.Ok? ==> CarriesCreateBody(b, r.value)
  {
    match ParseMode(b.mode)
    case None => Err(Unprocessable("mode: not a valid enumeration member"))
    case Some(mode) =>
      match ValidateEffectiveRange(Some(b.effectiveFrom), b.effectiveTo)
      case Fail(e) => Err(e)
      case Pass => Ok(CareArrangementCreate(b.careRecipientId, b.organizationId, mode, b.effectiveFrom, b.effectiveTo, b.notes))
  }

  /** `u` is what Pydantic builds from `b`: every field as given, null where
      the body has null, and a present mode the member whose value is the
      body's string. */
  ghost predicate CarriesUpdateBody(b: UpdateBody, u: CareArrangementUpdate) {
    && (u.mode.None? <==> b.mode.None?)
    && (u.mode.Some? ==> u.mode.value.Value() == b.mode.value)
    && u.effectiveFrom == b.effectiveFrom
    && u.effectiveTo == b.effectiveTo
    && u.notes == b.notes
  }

  /** Validation of an update body: mode coercion and the range check on the
      dates in the payload only. */
  function ParseUpdate(b: UpdateBody): (r: Result<CareArrangementUpdate>)
    ensures r.Ok? <==>
      && (b.mode.None? || ParseMode(b.mode.value).Some?)
      && !(b.effectiveFrom.Some? && b.effectiveTo.Some? && b.effectiveTo.value < b.effectiveFrom.value)
    ensures r.Err? ==> r.error.Code() == 422
    ensures r.Ok? ==> (r.value.mode.None? <==> b.mode.None?)
    ensures r.Ok? && b.mode.Some? ==> r.value.mode.value.Value() == b.mode.value
    ensures r.Ok? ==> r.value.effectiveFrom == b.effectiveFrom && r.value.effectiveTo == b.effectiveTo
    ensures r.Ok? ==> CarriesUpdateBody(b, r.value)
  {
    var mode := if b.mode.None? then Some(None)
      else if ParseMode(b.mode.value).Some? then Some(ParseMode(b.mode.value)) else None;
    if mode.None? then Err(Unprocessable("mode: not a valid enumeration member"))
    else
      match ValidateEffectiveRange(b.effectiveFrom, b.effectiveTo)
      case Fail(e) => Err(e)
      case Pass => Ok(CareArrangementUpdate(mode.value, b.effectiveFrom, b.effectiveTo, b.notes))
  }
}

=== FILE: care_arrangements.dfy ===
/** The care arrangement routes. Creating an arrangement ends every open-ended
    arrangement of the same recipient and organization on the new one's start
    date, so each pair keeps at most one open-ended arrangement. */
module CareArrangements {
  import opened Common
  import opened CareArrangementSchema
  import Listing

  const NotFoundDetail := "Care arrangement not found"

  /** An arrangement with no end date. */
  predicate Open(a: CareArrangement) {
    a.effectiveTo.None?
  }

  /** The row belongs to the (recipient, organization) pair. */
  predicate OfPair(a: CareArrangement, recipientId: Id, orgId: Id) {
    a.careRecipientId == recipientId && a.organizationId == orgId
  }

  /** At most one open-ended arrangement per (recipient, organization). */
  ghost predicate AtMostOneOpen(table: map<Id, CareArrangement>) {
    forall a, b ::
      (a in table && b in table && Open(table[a]) && Open(table[b]) &&
       OfPair(table[b], table[a].careRecipientId, table[a].organizationId)) ==> a == b
  }

  /** The end date, when there is one, is not before the start date. */
  predicate RangeOrdered(a: CareArrangement) {
    a.effectiveTo.None? || a.effectiveFrom <= a.effectiveTo.value
  }

  ghost predicate AllRangesOrdered(table: map<Id, CareArrangement>) {
    forall k :: k in table ==> RangeOrdered(table[k])
  }

  /** `get_care_arrangement`. */
  function GetCareArrangement(table: map<Id, CareArrangement>, id: Id): (r: Result<CareArrangement>)
    ensures r.Ok? <==> id in table
    ensures r.Ok? ==> r.value == table[id]
    ensures r.Err? ==> r.error == NotFound(NotFoundDetail)
  {
    Fetch(table, id, "Care arrangement")
  }

  /** The closing step of `create_care_arrangement`: every open-ended
      arrangement of the pair gets `at` as its end date. */
  function CloseOpen(table: map<Id, CareArrangement>, recipientId: Id, orgId: Id, at: int): (t: map<Id, CareArrangement>)
    ensures t.Keys == table.Keys
    ensures forall k :: k in table ==> t[k].(effectiveTo := table[k].effectiveTo) == table[k]
    ensures forall k :: k in table && OfPair(table[k], recipientId, orgId) ==>
      t[k].effectiveTo == (if Open(table[k]) then Some(at) else table[k].effectiveTo)
    ensures forall k :: k in table && !OfPair(table[k], recipientId, orgId) ==> t[k] == table[k]
    ensures forall k :: k in table && OfPair(table[k], recipientId, orgId) ==> !Open(t[k])
  {
    map k | k in table ::
      if Open(table[k]) && OfPair(table[k], recipientId, orgId) then table[k].(effectiveTo := Some(at)) else table[k]
  }

  /** `create_care_arrangement`: ends the pair's open-ended arrangements at the
      new start date, then inserts the new arrangement. */
  function CreateCareArrangement(table: map<Id, CareArrangement>, p: CareArrangementCreate, ctx: Ctx): (s: Saved<CareArrangement>)
    requires ctx.newId !in table
    ensures s.id == ctx.newId && s.table.Keys == table.Keys + {ctx.newId} && s.table[ctx.newId] == s.row
    ensures OfPair(s.row, p.careRecipientId, p.organizationId) && s.row.mode == p.mode
    ensures s.row.effectiveFrom == p.effectiveFrom && s.row.effectiveTo == p.effectiveTo && s.row.createdAt == ctx.now
    ensures s.row.notes == p.notes
    ensures forall k :: k in s.table && OfPair(s.table[k], p.careRecipientId, p.organizationId) && Open(s.table[k]) ==>
      k == ctx.newId
    ensures forall k :: k in table && OfPair(table[k], p.careRecipientId, p.organizationId) && Open(table[k]) ==>
      s.table[k] == table[k].(effectiveTo := Some(p.effectiveFrom))
    ensures forall k :: k in table && !(OfPair(table[k], p.careRecipientId, p.organizationId) && Open(table[k])) ==>
      s.table[k] == table[k]
  {
    var closed := CloseOpen(table, p.careRecipientId, p.organizationId, p.effectiveFrom);
    var arr := CareArrangement(p.careRecipientId, p.organizationId, p.mode, p.effectiveFrom, p.effectiveTo, p.notes, ctx.now);
    Saved(closed[ctx.newId := arr], ctx.newId, arr)
  }

  /** `update_care_arrangement`: copies each non-null field. A null end date
      in the payload keeps the stored one, so an ended arrangement cannot be
      reopened; the pair never changes. */
  function UpdateCareArrangement(table: map<Id, CareArrangement>, id: Id, p: CareArrangementUpdate): (r: Result<Saved<CareArrangement>>)
    ensures r.Ok? <==> id in table
    ensures r.Err? ==> r.error == NotFound(NotFoundDetail)
    ensures r.Ok? ==> r.value.id == id && r.value.table == table[id := r.value.row]
    ensures r.Ok? ==>
      && OfPair(r.value.row, table[id].careRecipientId, table[id].organizationId)
      && r.value.row.createdAt == table[id].createdAt
      && r.value.row.mode == Patch(table[id].mode, p.mode)
      && r.value.row.effectiveFrom == Patch(table[id].effectiveFrom, p.effectiveFrom)
      && r.value.row.effectiveTo == (if p.effectiveTo.Some? then p.effectiveTo else table[id].effectiveTo)
      && r.value.row.notes == (if p.notes.Some? then p.notes else table[id].notes)
    ensures r.Ok? && Open(r.value.row) ==> Open(table[id])
  {
    match Fetch(table, id, "Care arrangement")
    case Err(e) => Err(e)
    case Ok(arr) =>
      var row := arr.(
        mode := Patch(arr.mode, p.mode),
        effectiveFrom := Patch(arr.effectiveFrom, p.effectiveFrom),
        effectiveTo := Patch(arr.effectiveTo, if p.effectiveTo.Some? then Some(p.effectiveTo) else None),
        notes := Patch(arr.notes, OptionOf(p.notes)));
      Ok(Saved(table[id := row], id, row))
  }

  /** Creating an arrangement keeps at most one open-ended arrangement per pair. */
  lemma CreateKeepsAtMostOneOpen(table: map<Id, CareArrangement>, p: CareArrangementCreate, ctx: Ctx)
    requires ctx.newId !in table
    requires AtMostOneOpen(table)
    ensures AtMostOneOpen(CreateCareArrangement(table, p, ctx).table)
  {
    var t := CreateCareArrangement(table, p, ctx).table;
    forall a, b | a in t && b in t && Open(t[a]) && Open(t[b]) && OfPair(t[b], t[a].careRecipientId, t[a].organizationId)
      ensures a == b
    {
      if a != ctx.newId && b != ctx.newId {
        assert t[a] == table[a] && t[b] == table[b];
      }
    }
  }

  /** Updating an arrangement keeps at most one open-ended arrangement per
      pair: the update cannot reopen an arrangement or move it to another pair. */
  lemma UpdateKeepsAtMostOneOpen(table: map<Id, CareArrangement>, id: Id, p: CareArrangementUpdate)
    requires AtMostOneOpen(table)
    requires UpdateCareArrangement(table, id, p).Ok?
    ensures AtMostOneOpen(UpdateCareArrangement(table, id, p).value.table)
  {
    var t := UpdateCareArrangement(table, id, p).value.table;
    forall a, b | a in t && b in t && Open(t[a]) && Open(t[b]) && OfPair(t[b], t[a].careRecipientId, t[a].organizationId)
      ensures a == b
    {
      assert Open(table[a]) && Open(table[b]);
    }
  }

  /** Closing takes the new start date as the end date even when an open
      arrangement starts later, which leaves that arrangement ending before
      it starts. */
  lemma CreateCanInvertClosedRange()
    ensures var table := map[1 := CareArrangement(7, 9, VisitsOnly, 100, None, None, 0)];
      var p := CareArrangementCreate(7, 9, Caregiver24x7Only, 50, None, None);
      var ctx := Ctx(3, 9, 10, 2);
      && AllRangesOrdered(table)
      && RangeOrdered(CreateCareArrangement(table, p, ctx).row)
      && !RangeOrdered(CreateCareArrangement(table, p, ctx).table[1])
  {
    var table := map[1 := CareArrangement(7, 9, VisitsOnly, 100, None, None, 0)];
    var p := CareArrangementCreate(7, 9, Caregiver24x7Only, 50, None, None);
    var s := CreateCareArrangement(table, p, Ctx(3, 9, 10, 2));
    assert s.table[1].effectiveTo == Some(50);
  }

  /** Closing keeps every range ordered when no open arrangement of the pair
      starts after the new start date. */
  lemma CreateKeepsRangesOrdered(table: map<Id, CareArrangement>, p: CareArrangementCreate, ctx: Ctx)
    requires ctx.newId !in table
    requires AllRangesOrdered(table)
    requires RangeOrdered(CareArrangement(p.careRecipientId, p.organizationId, p.mode, p.effectiveFrom, p.effectiveTo, p.notes, ctx.now))
    requires forall k :: k in table && OfPair(table[k], p.careRecipientId, p.organizationId) && Open(table[k]) ==>
      table[k].effectiveFrom <= p.effectiveFrom
    ensures AllRangesOrdered(CreateCareArrangement(table, p, ctx).table)
  {
    var t := CreateCareArrangement(table, p, ctx).table;
    forall k | k in t
      ensures RangeOrdered(t[k])
    {
      if k != ctx.newId && OfPair(table[k], p.careRecipientId, p.organizationId) && Open(table[k]) {
        assert t[k].effectiveTo == Some(p.effectiveFrom);
      }
    }
  }

  /** The update's range check sees the payload only, so moving the start
      date past the stored end date is accepted. */
  lemma UpdateCanInvertRange()
    ensures var table := map[1 := CareArrangement(7, 9, VisitsOnly, 10, Some(20), None, 0)];
      var p := CareArrangementUpdate(None, Some(30), None, None);
      && ParseUpdate(UpdateBody(None, Some(30), None, None)) == Ok(p)
      && AllRangesOrdered(table)
      && UpdateCareArrangement(table, 1, p).Ok?
      && !RangeOrdered(UpdateCareArrangement(table, 1, p).value.row)
  {
  }

  /** The filter of `list_care_arrangements`. */
  predicate ListedArrangement(a: CareArrangement, orgId: Id, careRecipientId: Option<Id>) {
    a.organizationId == orgId && (careRecipientId.None? || a.careRecipientId == careRecipientId.value)
  }

  /** `list_care_arrangements`: the organization's arrangements (of one
      recipient if given), newest first. */
  method ListCareArrangements(table: map<Id, CareArrangement>, orgId: Id, careRecipientId: Option<Id>)
    returns (rows: seq<(Id, CareArrangement)>)
    ensures forall i :: 0 <= i < |rows| ==>
      rows[i].0 in table && table[rows[i].0] == rows[i].1 && ListedArrangement(rows[i].1, orgId, careRecipientId)
    ensures forall k :: k in table && ListedArrangement(table[k], orgId, careRecipientId) ==> k in Listing.Ids(rows)
    ensures forall i, j :: 0 <= i < j < |rows| ==> rows[i].0 != rows[j].0
    ensures forall i, j :: 0 <= i < j < |rows| ==> rows[i].1.createdAt >= rows[j].1.createdAt
  {
    var keep := (a: CareArrangement) => ListedArrangement(a, orgId, careRecipientId);
    var newestFirst := (a: CareArrangement, b: CareArrangement) => a.createdAt >= b.createdAt;
    rows := Listing.Query(table, keep, newestFirst);
  }
}

=== FILE: care_relationship_schema.dfy ===
/** Care relationship request schemas and the `care_relationship` table row:
    a link between a care recipient and a related person within an
    organization, possibly marked as the recipient's 24/7 caregiver. */
module CareRelationshipSchema {
  import opened Common

  datatype Role = PrimaryContact | BackupContact | FamilyViewer | Nurse | Aide | Companion | Other {
    function Value(): string {
      match this
      case PrimaryContact => "primary_contact"
      case BackupContact => "backup_contact"
      case FamilyViewer => "family_viewer"
      case Nurse => "nurse"
      case Aide => "aide"
      case Companion => "companion"
      case Other => "other"
    }
  }

  datatype RelationshipStatus = Active | Inactive | Ended {
    function Value(): string {
      match this
      case Active => "active"
      case Inactive => "inactive"
      case Ended => "ended"
    }
  }

  /** Enum coercion of a `role` string. */
  function ParseRole(s: string): (r: Option<Role>)
    ensures r.Some? <==>
      s in {"primary_contact", "backup_contact", "family_viewer", "nurse", "aide", "companion", "other"}
    ensures r.Some? ==> r.value.Value() == s
    ensures forall x: Role :: x.Value() == s ==> r == Some(x)
  {
    if s == "primary_contact" then Some(PrimaryContact)
    else if s == "backup_contact" then Some(BackupContact)
    else if s == "family_viewer" then Some(FamilyViewer)
    else if s == "nurse" then Some(Nurse)
    else if s == "aide" then Some(Aide)
    else if s == "companion" then Some(Companion)
    else if s == "other" then Some(Other)
    else None
  }

  /** Enum coercion of a `status` string. */
  function ParseRelationshipStatus(s: string): (r: Option<RelationshipStatus>)
    ensures r.Some? <==> s in {"active", "inactive", "ended"}
    ensures r.Some? ==> r.value.Value() == s
    ensures forall x: RelationshipStatus :: x.Value() == s ==> r == Some(x)
  {
    if s == "active" then Some(Active)
    else if s == "inactive" then Some(Inactive)
    else if s == "ended" then Some(Ended)
    else None
  }

  /** A row of the `care_relationship` table. Dates are integers. */
  datatype CareRelationship = CareRelationship(
    careRecipientId: Id,
    relatedUserId: Id,
    organizationId: Id,
    role: Role,
    is24x7: bool,
    startDate: Option<int>,
    endDate: Option<int>,
    notes: Option<string>,
    status: RelationshipStatus)

  /** A create body before validation: enums are raw strings, and the 24/7
      flag and status may be absent. */
  datatype CreateBody = CreateBody(
    careRecipientId: Id,
    relatedUserId: Id,
    organizationId: Id,
    role: string,
    is24x7: Option<bool>,
    startDate: Option<int>,
    endDate: Option<int>,
    notes: Option<string>,
    status: Option<string>)

  /** A validated `CareRelationshipCreate` payload. */
  datatype CareRelationshipCreate = CareRelationshipCreate(
    careRecipientId: Id,
    relatedUserId: Id,
    organizationId: Id,
    role: Role,
    is24x7: bool,
    startDate: Option<int>,
    endDate: Option<int>,
    notes: Option<string>,
    status: RelationshipStatus)

  /** A `CareRelationshipUpdate` payload: every field may be null. */
  datatype CareRelationshipUpdate = CareRelationshipUpdate(
    role: Option<Role>,
    is24x7: Option<bool>,
    startDate: Option<int>,
    endDate: Option<int>,
    notes: Option<string>,
    status: Option<RelationshipStatus>)

  /** An update body before enum coercion. */
  datatype UpdateBody = UpdateBody(
    role: Option<string>,
    is24x7: Option<bool>,
    startDate: Option<int>,
    endDate: Option<int>,
    notes: Option<string>,
    status: Option<string>)

  const DateRangeDetail := "end_date cannot be before start_date"

  /** `validate_date_range`: an end date before the start date is rejected;
      equal dates, or a missing date, pass. */
  function ValidateDateRange(start: Option<int>, end: Option<int>): (r: Outcome)
    ensures r.Fail? <==> start.Some? && end.Some? && end.value < start.value
    ensures r.Fail? ==> r.error == Unprocessable(DateRangeDetail)
  {
    if end.Some? && start.Some? && end.value < start.value then Fail(Unprocessable(DateRangeDetail)) else Pass
  }

  /** The defaults of `CareRelationshipCreate`. */
  const DefaultIs24x7 := false
  const DefaultRelationshipStatus := Active

  /** `c` is what Pydantic builds from `b`: every plain field as given, the
      role the member whose value is the body's string, and the defaults for
      an absent 24/7 flag or status. */
  ghost predicate CarriesCreateBody(b: CreateBody, c: CareRelationshipCreate) {
    && c.careRecipientId == b.careRecipientId
    && c.relatedUserId == b.relatedUserId
    && c.organizationId == b.organizationId
    && c.role.Value() == b.role
    && c.is24x7 == (if b.is24x7.None? then DefaultIs24x7 else b.is24x7.value)
    && c.startDate == b.startDate
    && c.endDate == b.endDate
    && c.notes == b.notes
    && (if b.status.None? then c.status == DefaultRelationshipStatus else c.status.Value() == b.status.value)
  }

  /** Validation of a create body: role and status coercion, defaults for the
      24/7 flag (false) and status (active), and the date-range check. */
  function ParseCreate(b: CreateBody): (r: Result<CareRelationshipCreate>)
    ensures r.Ok? <==>
      && ParseRole(b.role).Some?
      && (b.status.None? || ParseRelationshipStatus(b.status.value).Some?)
      && !(b.startDate.Some? && b.endDate.Some? && b.endDate.value < b.startDate.value)
    ensures r.Err? ==> r.error.Code() == 422
    ensures r.Ok? ==> r.value.is24x7 == (b.is24x7 == Some(true))
    ensures r.Ok? && b.status.None? ==> r.value.status == Active
    ensures r.Ok? && b.status.Some? ==> r.value.status.Value() == b.status.value
    ensures r.Ok? ==> r.value.role.Value() == b.role
    ensures r.Ok? ==> CarriesCreateBody(b, r.value)
  {
    match ParseRole(b.role)
    case None => Err(Unprocessable("role: not a valid enumeration member"))
    case Some(role) =>
      var status := if b.status.None? then Some(DefaultRelationshipStatus) else ParseRelationshipStatus(b.status.value);
      if status.None? then Err(Unprocessable("status: not a valid enumeration member"))
      else
        match ValidateDateRange(b.startDate, b.endDate)
        case Fail(e) => Err(e)
        case Pass =>
          Ok(CareRelationshipCreate(
            b.careRecipientId, b.relatedUserId, b.organizationId, role,
            Patch(DefaultIs24x7, b.is24x7), b.startDate, b.endDate, b.notes, status.value))
  }

  /** `u` is what Pydantic builds from `b`: every field as given, null where
      the body has null, and each present enum the member whose value is the
      body's string. */
  ghost predicate CarriesUpdateBody(b: UpdateBody, u: CareRelationshipUpdate) {
    && (u.role.None? <==> b.role.None?)
    && (u.role.Some? ==> u.role.value.Value() == b.role.value)
    && u.is24x7 == b.is24x7
    && u.startDate == b.startDate
    && u.endDate == b.endDate
    && u.notes == b.notes
    && (u.status.None? <==> b.status.None?)
    && (u.status.Some? ==> u.status.value.Value() == b.status.value)
  }

  /** Validation of an update body: enum coercion and the same date-range
      check, applied to the dates in the payload only. */
  function ParseUpdate(b: UpdateBody): (r: Result<CareRelationshipUpdate>)
    ensures r.Ok? <==>
      && (b.role.None? || ParseRole(b.role.value).Some?)
      && (b.status.None? || ParseRelationshipStatus(b.status.value).Some?)
      && !(b.startDate.Some? && b.endDate.Some? && b.endDate.value < b.startDate.value)
    ensures r.Err? ==> r.error.Code() == 422
    ensures r.Ok? ==> r.value.is24x7 == b.is24x7 && r.value.startDate == b.startDate && r.value.endDate == b.endDate
    ensures r.Ok? ==> (r.value.status.None? <==> b.status.None?)
    ensures r.Ok? && b.status.Some? ==> r.value.status.value.Value() == b.status.value
    ensures r.Ok? ==> CarriesUpdateBody(b, r.value)
  {
    var role := if b.role.None? then Some(None)
      else if ParseRole(b.role.value).Some? then Some(ParseRole(b.role.value)) else None;
    var status := if b.status.None? then Some(None)
      else if ParseRelationshipStatus(b.status.value).Some? then Some(ParseRelationshipStatus(b.status.value)) else None;
    if role.None? then Err(Unprocessable("role: not a valid enumeration member"))
    else if status.None? then Err(Unprocessable("status: not a valid enumeration member"))
    else
      match ValidateDateRange(b.startDate, b.endDate)
      case Fail(e) => Err(e)
      case Pass => Ok(CareRelationshipUpdate(role.value, b.is24x7, b.startDate, b.endDate, b.notes, status.value))
  }
}

=== FILE: care_relationships.dfy ===
/** The care relationship routes. Creating or updating a relationship as the
    24/7 caregiver clears the flag on the other active 24/7 relationships of
    the same recipient and organization. */
module CareRelationships {
  import opened Common
  import opened CareRelationshipSchema

  /** A relationship that currently counts as its recipient's 24/7 caregiver. */
  predicate Active24x7(r: CareRelationship) {
    r.is24x7 && r.status == Active
  }

  /** The row belongs to the (recipient, organization) pair. */
  predicate OfPair(r: CareRelationship, recipientId: Id, orgId: Id) {
    r.careRecipientId == recipientId && r.organizationId == orgId
  }

  /** At most one active 24/7 caregiver per (recipient, organization). */
  ghost predicate Single24x7(table: map<Id, CareRelationship>) {
    forall a, b ::
      (a in table && b in table && Active24x7(table[a]) && Active24x7(table[b]) &&
       OfPair(table[b], table[a].careRecipientId, table[a].organizationId)) ==> a == b
  }

  /** The clearing query of both routes: every active 24/7 relationship of
      the pair, other than `skip`, loses its 24/7 flag. */
  function Clear24x7(table: map<Id, CareRelationship>, recipientId: Id, orgId: Id, skip: Option<Id>): (t: map<Id, CareRelationship>)
    ensures t.Keys == table.Keys
    ensures forall k :: k in table ==> t[k].(is24x7 := table[k].is24x7) == table[k]
    ensures forall k :: k in table ==>
      (t[k].is24x7 <==> table[k].is24x7 && !(Active24x7(table[k]) && OfPair(table[k], recipientId, orgId) && skip != Some(k)))
    ensures forall k :: k in table && OfPair(table[k], recipientId, orgId) && skip != Some(k) ==> !Active24x7(t[k])
  {
    map k | k in table ::
      if Active24x7(table[k]) && OfPair(table[k], recipientId, orgId) && skip != Some(k)
      then table[k].(is24x7 := false) else table[k]
  }

  /** `create_care_relationship`: clears the pair's other 24/7 caregivers
      when the new relationship is flagged 24/7, then inserts it. */
  function CreateCareRelationship(table: map<Id, CareRelationship>, p: CareRelationshipCreate, ctx: Ctx): (s: Saved<CareRelationship>)
    requires ctx.newId !in table
    ensures s.id == ctx.newId && s.table.Keys == table.Keys + {ctx.newId} && s.table[ctx.newId] == s.row
    ensures s.row.is24x7 == p.is24x7 && s.row.status == p.status && OfPair(s.row, p.careRecipientId, p.organizationId)
    ensures s.row.relatedUserId == p.relatedUserId && s.row.role == p.role
    ensures s.row.startDate == p.startDate && s.row.endDate == p.endDate && s.row.notes == p.notes
    ensures p.is24x7 ==> forall k :: k in table && OfPair(table[k], p.careRecipientId, p.organizationId) ==> !Active24x7(s.table[k])
    ensures forall k :: k in table && !(p.is24x7 && Active24x7(table[k]) && OfPair(table[k], p.careRecipientId, p.organizationId)) ==>
      s.table[k] == table[k]
    ensures forall k :: k in table ==> s.table[k].(is24x7 := table[k].is24x7) == table[k]
  {
    var cleared := if p.is24x7 then Clear24x7(table, p.careRecipientId, p.organizationId, None) else table;
    var rel := CareRelationship(
      p.careRecipientId, p.relatedUserId, p.organizationId, p.role, p.is24x7,
      p.startDate, p.endDate, p.notes, p.status);
    Saved(cleared[ctx.newId := rel], ctx.newId, rel)
  }

  /** `update_care_relationship`: patches the non-null fields; when the
      payload sets the 24/7 flag to true, first clears it on every other
      active 24/7 relationship of the same pair. */
  function UpdateCareRelationship(table: map<Id, CareRelationship>, id: Id, p: CareRelationshipUpdate): (r: Result<Saved<CareRelationship>>)
    ensures id !in table ==> r == Err(NotFound("Care relationship not found"))
    ensures r.Ok? <==> id in table
    ensures r.Ok? ==> r.value.id == id && r.value.table.Keys == table.Keys && r.value.table[id] == r.value.row
    ensures r.Ok? ==> OfPair(r.value.row, table[id].careRecipientId, table[id].organizationId)
    ensures r.Ok? ==> r.value.row.relatedUserId == table[id].relatedUserId
    ensures r.Ok? ==>
      && r.value.row.role == Patch(table[id].role, p.role)
      && r.value.row.is24x7 == Patch(table[id].is24x7, p.is24x7)
      && r.value.row.startDate == (if p.startDate.Some? then p.startDate else table[id].startDate)
      && r.value.row.endDate == (if p.endDate.Some? then p.endDate else table[id].endDate)
      && r.value.row.notes == (if p.notes.Some? then p.notes else table[id].notes)
      && r.value.row.status == Patch(table[id].status, p.status)
    ensures r.Ok? && p.is24x7 == Some(true) ==> forall k ::
      (k in table && k != id && OfPair(table[k], table[id].careRecipientId, table[id].organizationId)) ==>
      !Active24x7(r.value.table[k])
    ensures r.Ok? ==> forall k ::
      (k in table && k != id &&
       !(p.is24x7 == Some(true) && Active24x7(table[k]) && OfPair(table[k], table[id].careRecipientId, table[id].organizationId))) ==>
      r.value.table[k] == table[k]
    ensures r.Ok? ==> forall k :: k in table && k != id ==> r.value.table[k].(is24x7 := table[k].is24x7) == table[k]
  {
    if id !in table then Err(NotFound("Care relationship not found"))
    else
      var rel := table[id];
      var rel1 := rel.(
        role := Patch(rel.role, p.role),
        startDate := Patch(rel.startDate, OptionOf(p.startDate)),
        endDate := Patch(rel.endDate, OptionOf(p.endDate)),
        notes := Patch(rel.notes, OptionOf(p.notes)),
        status := Patch(rel.status, p.status));
      var others := if p.is24x7 == Some(true)
        then Clear24x7(table, rel.careRecipientId, rel.organizationId, Some(id)) else table;
      var rel2 := rel1.(is24x7 := Patch(rel1.is24x7, p.is24x7));
      Ok(Saved(others[id := rel2], id, rel2))
  }

  /** Creating a relationship keeps at most one active 24/7 caregiver per pair. */
  lemma CreateKeepsSingle24x7(table: map<Id, CareRelationship>, p: CareRelationshipCreate, ctx: Ctx)
    requires ctx.newId !in table
    requires Single24x7(table)
    ensures Single24x7(CreateCareRelationship(table, p, ctx).table)
  {
    var s := CreateCareRelationship(table, p, ctx);
    forall a, b | a in s.table && b in s.table && Active24x7(s.table[a]) && Active24x7(s.table[b]) &&
      OfPair(s.table[b], s.table[a].careRecipientId, s.table[a].organizationId)
      ensures a == b
    {
      if a != ctx.newId && b != ctx.newId {
        assert Active24x7(table[a]) && Active24x7(table[b]);
      }
    }
  }

  /** Updating a relationship keeps at most one active 24/7 caregiver per
      pair, provided the payload carries the 24/7 flag or does not set the
      status to active. */
  lemma UpdateKeepsSingle24x7(table: map<Id, CareRelationship>, id: Id, p: CareRelationshipUpdate)
    requires Single24x7(table)
    requires p.is24x7.Some? || p.status != Some(Active)
    requires UpdateCareRelationship(table, id, p).Ok?
    ensures Single24x7(UpdateCareRelationship(table, id, p).value.table)
  {
    var t := UpdateCareRelationship(table, id, p).value.table;
    forall a, b | a in t && b in t && Active24x7(t[a]) && Active24x7(t[b]) &&
      OfPair(t[b], t[a].careRecipientId, t[a].organizationId)
      ensures a == b
    {
      if a != id && b != id {
        assert t[a].(is24x7 := table[a].is24x7) == table[a];
        assert t[b].(is24x7 := table[b].is24x7) == table[b];
        assert Active24x7(table[a]) && Active24x7(table[b]);
      } else if a == id && b != id {
        UpdateCase(table, id, p, b);
      } else if b == id && a != id {
        UpdateCase(table, id, p, a);
      }
    }
  }

  /** The updated row and another row of its pair are not both active 24/7
      caregivers afterwards. */
  lemma UpdateCase(table: map<Id, CareRelationship>, id: Id, p: CareRelationshipUpdate, other: Id)
    requires Single24x7(table)
    requires p.is24x7.Some? || p.status != Some(Active)
    requires UpdateCareRelationship(table, id, p).Ok?
    requires other in table && other != id
    ensures var t := UpdateCareRelationship(table, id, p).value.table;
      !(Active24x7(t[id]) && Active24x7(t[other]) && OfPair(t[other], t[id].careRecipientId, t[id].organizationId))
  {
    var t := UpdateCareRelationship(table, id, p).value.table;
    if p.is24x7.None? {
      assert t[other] == table[other];
    }
  }

  /** Without the 24/7 flag in the payload, a status-only patch back to
      active can leave two active 24/7 caregivers for one pair. */
  lemma StatusOnlyPatchCanBreakSingle24x7()
    ensures var table := map[
        1 := CareRelationship(7, 20, 9, Aide, true, None, None, None, Active),
        2 := CareRelationship(7, 21, 9, Nurse, true, None, None, None, Inactive)];
      var p := CareRelationshipUpdate(None, None, None, None, None, Some(Active));
      && Single24x7(table)
      && UpdateCareRelationship(table, 2, p).Ok?
      && !Single24x7(UpdateCareRelationship(table, 2, p).value.table)
  {
    var table := map[
      1 := CareRelationship(7, 20, 9, Aide, true, None, None, None, Active),
      2 := CareRelationship(7, 21, 9, Nurse, true, None, None, None, Inactive)];
    var p := CareRelationshipUpdate(None, None, None, None, None, Some(Active));
    var t := UpdateCareRelationship(table, 2, p).value.table;
    assert Active24x7(t[1]) && Active24x7(t[2]);
  }
}

=== FILE: caregiver_list.dfy ===
/** The caregiver list page: its paging state, the Prev and Next buttons with
    their clamps and disabled flags, the Search button, and the query string
    each fetch sends. */
module CaregiverList {
  import opened Common
  import FormRules

  /** The page size every request asks for. */
  const PerPage := "20"

  /** The state the paging rules read: the current page, the page count the
      last response reported (`null` until one arrives or when the response
      has none), and the text in the search box. */
  datatype Pager = Pager(page: int, totalPages: Option<int>, search: string)

  /** The state when the page mounts. */
  const Initial := Pager(1, None, "")

  /** `totalPages ? … : …`: a count of 0 is falsy, like `null`. */
  predicate Truthy(tp: Option<int>) {
    tp.Some? && tp.value != 0
  }

  /** A query string as its list of (name, value) parameters. */
  type Query = seq<(string, string)>

  // ---------------------------------------------------------------------------
  // Decimal page numbers
  // ---------------------------------------------------------------------------

  function DigitChar(d: nat): (c: char)
    requires d < 10
    ensures FormRules.IsAsciiDigit(c) && c as int - '0' as int == d
  {
    "0123456789"[d]
  }

  /** `String(n)` for a non-negative integer below 10^21 (from there
      JavaScript prints exponent notation): its decimal digits, with no
      leading zero. The page moves one step at a time from 1, so it always
      stays below that bound. */
  function NatToString(n: nat): (s: string)
    ensures 1 <= |s|
    ensures forall i :: 0 <= i < |s| ==> FormRules.IsAsciiDigit(s[i])
    ensures 1 < |s| ==> s[0] != '0'
    decreases n
  {
    if n < 10 then [DigitChar(n)] else NatToString(n / 10) + [DigitChar(n % 10)]
  }

  /** `String(n)` for an integer of magnitude below 10^21. */
  function IntToString(n: int): (s: string)
    ensures 1 <= |s|
    ensures n < 0 <==> s[0] == '-'
  {
    if n < 0 then "-" + NatToString(-n) else NatToString(n)
  }

  predicate AllDigits(s: string) {
    forall i :: 0 <= i < |s| ==> FormRules.IsAsciiDigit(s[i])
  }

  /** The value of a string of decimal digits. */
  function DigitsValue(s: string): nat
    requires AllDigits(s)
  {
    if s == [] then 0 else DigitsValue(s[..|s| - 1]) * 10 + (s[|s| - 1] as int - '0' as int)
  }

  /** How a receiver reads an integer parameter: an optional minus sign
      followed by at least one decimal digit. */
  function ParseInt(s: string): Option<int> {
    if s != [] && s[0] == '-' && |s| > 1 && AllDigits(s[1..]) then Some(0 - DigitsValue(s[1..]) as int)
    else if s != [] && AllDigits(s) then Some(DigitsValue(s))
    else None
  }

  lemma {:induction false} NatToStringValue(n: nat)
    ensures DigitsValue(NatToString(n)) == n
    decreases n
  {
    var s := NatToString(n);
    if n >= 10 {
      NatToStringValue(n / 10);
      assert s[..|s| - 1] == NatToString(n / 10);
    }
  }

  /** Reading back a printed integer gives the integer. */
  lemma IntToStringRoundTrip(n: int)
    ensures ParseInt(IntToString(n)) == Some(n)
  {
    var s := IntToString(n);
    if n < 0 {
      var digits := NatToString(-n);
      NatToStringValue(-n);
      assert s[1..] == digits;
      assert AllDigits(s[1..]);
    } else {
      NatToStringValue(n);
      assert FormRules.IsAsciiDigit(s[0]);
      assert AllDigits(s);
    }
  }

  // ---------------------------------------------------------------------------
  // The query string
  // ---------------------------------------------------------------------------

  /** The value of the first parameter named `name`, as `searchParams.get`. */
  function Lookup(q: Query, name: string): (v: Option<string>)
    ensures v.Some? <==> exists i :: 0 <= i < |q| && q[i].0 == name
    ensures v.Some? ==> (name, v.value) in q
  {
    if q == [] then None
    else if q[0].0 == name then Some(q[0].1)
    else
      var v := Lookup(q[1..], name);
      assert forall i :: 1 <= i < |q| ==> q[i] == q[1..][i - 1];
      v
  }

  /** The parameters `fetchCaregivers` sets on the request URL: the page,
      the page size, and the trimmed search text when it is not blank. */
  function QueryOf(page: int, search: string): (q: Query)
    ensures |q| == 2 || |q| == 3
    ensures Lookup(q, "page") == Some(IntToString(page))
    ensures Lookup(q, "per_page") == Some(PerPage)
    ensures Lookup(q, "search").Some? <==> FormRules.Trim(search) != []
    ensures Lookup(q, "search").Some? ==> Lookup(q, "search").value == FormRules.Trim(search)
    ensures forall i :: 0 <= i < |q| ==> q[i].0 in {"page", "per_page", "search"}
  {
    var t := FormRules.Trim(search);
    var q := [("page", IntToString(page)), ("per_page", PerPage)] + (if t != [] then [("search", t)] else []);
    assert Lookup(q[2..], "search") == Lookup(q, "search");
    q
  }

  /** The receiver of a request reads back exactly the page it was built for. */
  lemma QueryCarriesPage(page: int, search: string)
    ensures ParseInt(Lookup(QueryOf(page, search), "page").value) == Some(page)
  {
    IntToStringRoundTrip(page);
  }

  // ---------------------------------------------------------------------------
  // Paging
  // ---------------------------------------------------------------------------

  /** The Prev handler: one page back, never below 1. */
  function PrevPage(p: int): (r: int)
    ensures 1 <= r
    ensures 1 < p ==> r == p - 1
    ensures p <= 1 ==> r == 1
  {
    if p - 1 < 1 then 1 else p - 1
  }

  /** The Next handler: one page on, clamped to the page count when that is
      truthy. */
  function NextPage(p: int, tp: Option<int>): (r: int)
    ensures Truthy(tp) ==> r <= tp.value && (p < tp.value ==> r == p + 1)
    ensures Truthy(tp) && tp.value <= p ==> r == tp.value
    ensures !Truthy(tp) ==> r == p + 1
  {
    if Truthy(tp) then (if tp.value < p + 1 then tp.value else p + 1) else p + 1
  }

  /** The pagination bar renders only for a known count above 1. */
  predicate ShowPagination(s: Pager) {
    s.totalPages.Some? && s.totalPages.value > 1
  }

  predicate PrevDisabled(s: Pager) {
    s.page <= 1
  }

  predicate NextDisabled(s: Pager) {
    s.totalPages.Some? && s.page >= s.totalPages.value
  }

  /** What the user or the network can do to the page. */
  datatype Event =
    | TypeSearch(text: string)
    | ClickSearch
    | ClickPrev
    | ClickNext
    | Loaded(pages: Option<int>)
    | LoadFailed

  /** The state after an event and the queries it sends, in order. */
  datatype Transition = Transition(state: Pager, requests: seq<Query>)

  /** A page change re-renders and the effect on `page` fetches the new page;
      setting the page it already has changes nothing. */
  function GoTo(s: Pager, p: int): (t: Transition)
    ensures t.state == s.(page := p)
    ensures p == s.page ==> t.requests == []
    ensures p != s.page ==> t.requests == [QueryOf(p, s.search)]
  {
    Transition(s.(page := p), if p != s.page then [QueryOf(p, s.search)] else [])
  }

  /** One event. A button that is not rendered or is disabled cannot be
      clicked. The Search button fetches at once with the page it still has,
      then sets page 1; when that is a change, the effect fetches again. A
      successful response sets the page count to the reported one, or `null`;
      a failed one leaves it. */
  function Step(s: Pager, e: Event): (t: Transition)
    ensures e.TypeSearch? ==> t == Transition(s.(search := e.text), [])
    ensures e.ClickSearch? ==> t.state == s.(page := 1)
    ensures e.ClickSearch? ==> 1 <= |t.requests| && t.requests[0] == QueryOf(s.page, s.search)
    ensures e.ClickSearch? ==> t.requests[|t.requests| - 1] == QueryOf(1, s.search)
    ensures (e.ClickPrev? || e.ClickNext?) ==> t.state.search == s.search && t.state.totalPages == s.totalPages
    ensures e.ClickPrev? && (!ShowPagination(s) || PrevDisabled(s)) ==> t == Transition(s, [])
    ensures e.ClickNext? && (!ShowPagination(s) || NextDisabled(s)) ==> t == Transition(s, [])
    ensures e.Loaded? ==> t == Transition(s.(totalPages := e.pages), [])
    ensures e.LoadFailed? ==> t == Transition(s, [])
  {
    match e
    case TypeSearch(text) => Transition(s.(search := text), [])
    case ClickSearch =>
      var now := QueryOf(s.page, s.search);
      var t := GoTo(s, 1);
      Transition(t.state, [now] + t.requests)
    case ClickPrev =>
      if !ShowPagination(s) || PrevDisabled(s) then Transition(s, []) else GoTo(s, PrevPage(s.page))
    case ClickNext =>
      if !ShowPagination(s) || NextDisabled(s) then Transition(s, []) else GoTo(s, NextPage(s.page, s.totalPages))
    case Loaded(pages) => Transition(s.(totalPages := pages), [])
    case LoadFailed => Transition(s, [])
  }

  /** The page is never below 1, and whenever it is within a known count it
      stays there: no click or keystroke moves it out. */
  predicate PageInRange(s: Pager) {
    1 <= s.page && (s.totalPages.Some? && 1 <= s.totalPages.value ==> s.page <= s.totalPages.value)
  }

  lemma ClicksKeepPageInRange(s: Pager, e: Event)
    requires PageInRange(s)
    requires !e.Loaded?
    ensures PageInRange(Step(s, e).state)
  {
  }

  /** The clamps never bind when a button can be clicked: an enabled Prev goes
      back exactly one page, an enabled Next on exactly one, and each fetches
      that page. */
  lemma EnabledButtonsMoveOnePage(s: Pager)
    requires ShowPagination(s)
    ensures !PrevDisabled(s) ==>
      Step(s, ClickPrev) == Transition(s.(page := s.page - 1), [QueryOf(s.page - 1, s.search)])
    ensures !NextDisabled(s) ==>
      Step(s, ClickNext) == Transition(s.(page := s.page + 1), [QueryOf(s.page + 1, s.search)])
  {
    if !PrevDisabled(s) {
      assert PrevPage(s.page) == s.page - 1;
    }
    if !NextDisabled(s) {
      assert NextPage(s.page, s.totalPages) == s.page + 1;
    }
  }

  /** The page starts in range; only a response can move the count below it. */
  lemma InitialPageInRange()
    ensures PageInRange(Initial)
    ensures !ShowPagination(Initial)
  {
  }

  /** A search from page 1 fetches once; from any other page it fetches the
      stale page first and page 1 after it. */
  lemma SearchFetches(s: Pager)
    ensures s.page == 1 ==> Step(s, ClickSearch).requests == [QueryOf(1, s.search)]
    ensures s.page != 1 ==> Step(s, ClickSearch).requests == [QueryOf(s.page, s.search), QueryOf(1, s.search)]
  {
  }
}

=== FILE: common.dfy ===
/** Vocabulary shared by every backend route: primary keys, nullable values,
    the HTTP errors a route raises, the request context and the shape of a
    committed write.

    A route handler is modelled as a pure function from the table it reads,
    the validated payload and the request context to either an error or the
    table after commit together with the row it wrote. An `Err` carries no
    table: the request session is closed without commit, so the caller's
    table is the one it passed in. */
module Common {

  /** A primary or foreign key (a UUID column in the database). */
  type Id = nat

  /** A nullable value (`Optional[...]` in the schemas, a nullable column in the tables). */
  datatype Option<+T> = None | Some(value: T)

  /** The `HTTPException`s the routes raise, and the 422 that request validation produces. */
  datatype HttpError =
    | BadRequest(detail: string)
    | NotFound(detail: string)
    | Conflict(detail: string)
    | Unprocessable(detail: string)
  {
    /** The HTTP status code sent to the client. */
    function Code(): int {
      match this
      case BadRequest(_) => 400
      case NotFound(_) => 404
      case Conflict(_) => 409
      case Unprocessable(_) => 422
    }
  }

  datatype Result<+T> = Ok(value: T) | Err(error: HttpError)

  /** The result of a check that either passes or raises. */
  datatype Outcome = Pass | Fail(error: HttpError)

  /** What a handler receives besides its payload: the current user and
      organization (from the identity dependencies), the clock, and the primary
      key the database will give a row inserted by this request. */
  datatype Ctx = Ctx(userId: Id, orgId: Id, now: int, newId: Id)

  /** A committed write: the whole table after commit, and the key and row written. */
  datatype Saved<R> = Saved(table: map<Id, R>, id: Id, row: R)

  /** The partial-update rule of every PATCH route: a payload field replaces the
      stored value only when it is not null. */
  function Patch<T>(current: T, field: Option<T>): T {
    match field
    case None => current
    case Some(v) => v
  }

  /** The postal address columns that visits and locations share. */
  datatype Address = Address(
    street: Option<string>,
    city: Option<string>,
    region: Option<string>,
    postalCode: Option<string>,
    country: Option<string>)

  /** An address patch: every column whose patch value is not null is overwritten. */
  function PatchAddress(a: Address, p: Address): (r: Address)
    ensures r.street == (if p.street.Some? then p.street else a.street)
    ensures r.city == (if p.city.Some? then p.city else a.city)
    ensures r.region == (if p.region.Some? then p.region else a.region)
    ensures r.postalCode == (if p.postalCode.Some? then p.postalCode else a.postalCode)
    ensures r.country == (if p.country.Some? then p.country else a.country)
    ensures p == NoAddress() ==> r == a
  {
    Address(
      Patch(a.street, OptionOf(p.street)),
      Patch(a.city, OptionOf(p.city)),
      Patch(a.region, OptionOf(p.region)),
      Patch(a.postalCode, OptionOf(p.postalCode)),
      Patch(a.country, OptionOf(p.country)))
  }

  /** The patch of a nullable column by a nullable payload field `x`: null
      keeps the stored value, anything else replaces it. */
  function OptionOf<T>(x: Option<T>): Option<Option<T>> {
    if x.Some? then Some(x) else None
  }

  /** The address with every column null. */
  function NoAddress(): Address {
    Address(None, None, None, None, None)
  }

  /** `db.get(Model, id)` followed by the routes' "not found" check. */
  function Fetch<R>(table: map<Id, R>, id: Id, what: string): (r: Result<R>)
    ensures r.Ok? <==> id in table
    ensures r.Ok? ==> r.value == table[id]
    ensures r.Err? ==> r.error == NotFound(what + " not found") && r.error.Code() == 404
  {
    if id in table then Ok(table[id]) else Err(NotFound(what + " not found"))
  }
}

=== FILE: dashboard_layout.dfy ===
/** The dashboard shell: the `cn` class-name joiner and the rule that decides
    which sidebar entry is highlighted for the current path. */
module DashboardLayout {

  /** An argument of `cn`: a class string, `false`, or `undefined`. */
  datatype ClassArg = Str(s: string) | False | Undefined

  /** `Boolean(arg)`: only a non-empty string is truthy. */
  predicate Truthy(a: ClassArg) {
    a.Str? && a.s != ""
  }

  /** `classes.filter(Boolean)`: the truthy arguments' strings, in order. */
  function Kept(args: seq<ClassArg>): (r: seq<string>)
    ensures |r| <= |args|
    ensures forall i :: 0 <= i < |r| ==> r[i] != ""
    ensures forall x :: x in r <==> Str(x) in args && x != ""
  {
    if args == [] then []
    else (if Truthy(args[0]) then [args[0].s] else []) + Kept(args[1..])
  }

  /** `parts.join(" ")`. */
  function Join(parts: seq<string>): string {
    if parts == [] then ""
    else if |parts| == 1 then parts[0]
    else parts[0] + " " + Join(parts[1..])
  }

  /** `cn(...classes)`. */
  function Cn(args: seq<ClassArg>): string {
    Join(Kept(args))
  }

  lemma {:induction false} KeptAppend(a: seq<ClassArg>, b: seq<ClassArg>)
    ensures Kept(a + b) == Kept(a) + Kept(b)
  {
    if a == [] {
      assert a + b == b;
    } else {
      assert (a + b)[1..] == a[1..] + b;
      KeptAppend(a[1..], b);
    }
  }

  lemma {:induction false} JoinAppend(a: seq<string>, b: seq<string>)
    ensures Join(a + b) ==
      if a == [] then Join(b) else if b == [] then Join(a) else Join(a) + " " + Join(b)
  {
    if a != [] && b != [] {
      if |a| == 1 {
        assert (a + b)[1..] == b;
      } else {
        assert (a + b)[1..] == a[1..] + b;
        JoinAppend(a[1..], b);
      }
    } else if a == [] {
      assert a + b == b;
    } else {
      assert a + b == a;
    }
  }

  lemma {:induction false} JoinEmpty(parts: seq<string>)
    requires forall i :: 0 <= i < |parts| ==> parts[i] != ""
    ensures Join(parts) == "" <==> parts == []
  {
    if |parts| > 1 {
      JoinEmpty(parts[1..]);
    }
  }

  /** `cn` of two argument lists is their two results joined by a space,
      with an empty side contributing nothing: falsy arguments never leave a
      doubled or dangling space. */
  lemma CnAppend(a: seq<ClassArg>, b: seq<ClassArg>)
    ensures Cn(a + b) == if Cn(a) == "" then Cn(b) else if Cn(b) == "" then Cn(a) else Cn(a) + " " + Cn(b)
  {
    KeptAppend(a, b);
    JoinAppend(Kept(a), Kept(b));
    JoinEmpty(Kept(a));
    JoinEmpty(Kept(b));
  }

  /** `cn` gives the empty string exactly when every argument is falsy. */
  lemma CnEmpty(args: seq<ClassArg>)
    ensures Cn(args) == "" <==> forall i :: 0 <= i < |args| ==> !Truthy(args[i])
  {
    JoinEmpty(Kept(args));
    if Kept(args) != [] {
      var x := Kept(args)[0];
      assert x in Kept(args);
      var i :| 0 <= i < |args| && args[i] == Str(x);
      assert Truthy(args[i]);
    }
  }

  /** `s.split(" ")`. */
  function Split(s: string): (r: seq<string>)
    ensures 1 <= |r|
    decreases |s|
  {
    if ' ' !in s then [s]
    else
      var i := FirstSpace(s);
      [s[..i]] + Split(s[i + 1..])
  }

  function FirstSpace(s: string): (i: nat)
    requires ' ' in s
    ensures i < |s| && s[i] == ' ' && ' ' !in s[..i]
  {
    if s[0] == ' ' then 0
    else
      var j := FirstSpace(s[1..]);
      assert s[..j + 1] == [s[0]] + s[1..][..j];
      j + 1
  }

  /** Splitting a joined list at its spaces gives the list back, as long as
      no part is empty or holds a space itself. */
  lemma {:induction false} SplitJoin(parts: seq<string>)
    requires parts != []
    requires forall i :: 0 <= i < |parts| ==> ' ' !in parts[i]
    ensures Split(Join(parts)) == parts
  {
    if |parts| > 1 {
      var p := parts[0];
      var rest := Join(parts[1..]);
      var s := p + " " + rest;
      assert s[|p|] == ' ';
      assert s[..|p|] == p;
      assert FirstSpace(s) == |p|;
      assert s[|p| + 1..] == rest;
      SplitJoin(parts[1..]);
    }
  }

  /** The class list `cn` produces splits back into the truthy arguments,
      in their order, when no argument holds a space. */
  lemma CnSplits(args: seq<ClassArg>)
    requires forall i :: 0 <= i < |args| ==> args[i].Str? ==> ' ' !in args[i].s
    requires exists i :: 0 <= i < |args| && Truthy(args[i])
    ensures Split(Cn(args)) == Kept(args)
  {
    var k := Kept(args);
    CnEmpty(args);
    KeptHasNoSpaces(args);
    SplitJoin(k);
  }

  lemma KeptHasNoSpaces(args: seq<ClassArg>)
    requires forall i :: 0 <= i < |args| ==> args[i].Str? ==> ' ' !in args[i].s
    ensures forall i :: 0 <= i < |Kept(args)| ==> ' ' !in Kept(args)[i]
  {
    var k := Kept(args);
    forall i | 0 <= i < |k| ensures ' ' !in k[i] {
      assert k[i] in k;
      var j :| 0 <= j < |args| && args[j] == Str(k[i]);
    }
  }

  /** A sidebar entry. */
  datatype NavItem = NavItem(caption: string, href: string)

  const NavItems: seq<NavItem> := [
    NavItem("Dashboard", "/"),
    NavItem("Patients", "/patients"),
    NavItem("Caregivers", "/caregivers"),
    NavItem("People", "/people"),
    NavItem("Schedule", "/schedule"),
    NavItem("Care Plan", "/careplan"),
    NavItem("Messages", "/messages")
  ]

  /** The highlight rule: the root entry matches only the root path, every
      other entry any path that starts with its href. */
  predicate IsActive(item: NavItem, pathname: string) {
    if item.href == "/" then pathname == "/" else item.href <= pathname
  }

  /** Two prefixes of one string are prefixes of each other. */
  lemma PrefixesComparable(a: string, b: string, s: string)
    requires a <= s && b <= s
    ensures a <= b || b <= a
  {
    if |a| <= |b| {
      assert a == s[..|a|] == b[..|a|];
    } else {
      assert b == s[..|b|] == a[..|b|];
    }
  }

  /** Apart from the root, no entry's href is a prefix of another's. */
  lemma HrefsIncomparable()
    ensures forall i, j :: (0 <= i < |NavItems| && 0 <= j < |NavItems| && i != j &&
      NavItems[i].href != "/" && NavItems[j].href != "/") ==> !(NavItems[i].href <= NavItems[j].href)
  {
    forall i, j | (0 <= i < |NavItems| && 0 <= j < |NavItems| && i != j &&
      NavItems[i].href != "/" && NavItems[j].href != "/")
      ensures !(NavItems[i].href <= NavItems[j].href)
    {
      var a, b := NavItems[i].href, NavItems[j].href;
      assert a[1] != b[1] || a[2] != b[2] || a[5] != b[5];
    }
  }

  /** Whatever the path, at most one sidebar entry is highlighted. */
  lemma AtMostOneActive(pathname: string)
    ensures forall i, j :: (0 <= i < |NavItems| && 0 <= j < |NavItems| &&
      IsActive(NavItems[i], pathname) && IsActive(NavItems[j], pathname)) ==> i == j
  {
    HrefsIncomparable();
    forall i, j | (0 <= i < |NavItems| && 0 <= j < |NavItems| &&
      IsActive(NavItems[i], pathname) && IsActive(NavItems[j], pathname))
      ensures i == j
    {
      var a, b := NavItems[i].href, NavItems[j].href;
      if a != "/" && b != "/" {
        PrefixesComparable(a, b, pathname);
      }
    }
  }

  /** The prefix rule ignores path segments: a path that merely begins with
      an entry's href, like `/peoplex`, highlights it. */
  lemma PrefixRuleIgnoresSegments()
    ensures IsActive(NavItems[3], "/peoplex")
    ensures IsActive(NavItems[2], "/caregivers/new")
    ensures forall i :: 0 <= i < |NavItems| ==> !IsActive(NavItems[i], "")
  {
  }
}

=== FILE: form_rules.dfy ===
/** The client-side rules the two registration forms share: JavaScript's
    `String.prototype.trim`, the phone and email patterns of `validate`, the
    ordered checks of `validate` itself, and the language-list toggle. */
module FormRules {
  import opened Common

  /** JavaScript's whitespace and line terminators: what `trim` removes and
      what the regular-expression class `\s` matches. */
  predicate IsJsWhitespace(c: char) {
    var n := c as int;
    n == 0x09 || n == 0x0A || n == 0x0B || n == 0x0C || n == 0x0D || n == 0x20 ||
    n == 0xA0 || n == 0x1680 || (0x2000 <= n <= 0x200A) || n == 0x2028 || n == 0x2029 ||
    n == 0x202F || n == 0x205F || n == 0x3000 || n == 0xFEFF
  }

  /** How many whitespace characters `s` starts with. */
  function LeadingSpace(s: string): (n: nat)
    ensures n <= |s|
    ensures forall i :: 0 <= i < n ==> IsJsWhitespace(s[i])
    ensures n < |s| ==> !IsJsWhitespace(s[n])
  {
    if s == [] || !IsJsWhitespace(s[0]) then 0 else 1 + LeadingSpace(s[1..])
  }

  /** How many whitespace characters `s` ends with. */
  function TrailingSpace(s: string): (n: nat)
    ensures n <= |s|
    ensures forall i :: |s| - n <= i < |s| ==> IsJsWhitespace(s[i])
    ensures n < |s| ==> !IsJsWhitespace(s[|s| - n - 1])
  {
    if s == [] || !IsJsWhitespace(s[|s| - 1]) then 0 else 1 + TrailingSpace(s[..|s| - 1])
  }

  /** `s.trim()`: `s` without its leading and trailing whitespace. */
  function Trim(s: string): (r: string)
    ensures |r| <= |s|
    ensures r == [] <==> forall i :: 0 <= i < |s| ==> IsJsWhitespace(s[i])
    ensures r != [] ==> !IsJsWhitespace(r[0]) && !IsJsWhitespace(r[|r| - 1])
    ensures LeadingSpace(s) + |r| <= |s| && r == s[LeadingSpace(s)..LeadingSpace(s) + |r|]
    ensures forall i :: LeadingSpace(s) + |r| <= i < |s| ==> IsJsWhitespace(s[i])
  {
    var a := LeadingSpace(s);
    if a == |s| then [] else s[a..|s| - TrailingSpace(s)]
  }

  /** A string that neither starts nor ends with whitespace is its own trim. */
  lemma TrimOfTrimmed(s: string)
    requires s == [] || (!IsJsWhitespace(s[0]) && !IsJsWhitespace(s[|s| - 1]))
    ensures Trim(s) == s
  {
    if s != [] {
      assert LeadingSpace(s) == 0;
      assert TrailingSpace(s) == 0;
    }
  }

  /** Trimming twice is trimming once. */
  lemma TrimIdempotent(s: string)
    ensures Trim(Trim(s)) == Trim(s)
  {
    TrimOfTrimmed(Trim(s));
  }

  predicate IsAsciiDigit(c: char) {
    '0' <= c <= '9'
  }

  /** `/^\d{7,15}$/.test(s)`: the whole string is 7 to 15 ASCII digits. */
  predicate PhoneValid(s: string) {
    7 <= |s| <= 15 && forall i :: 0 <= i < |s| ==> IsAsciiDigit(s[i])
  }

  /** `s[at..dot + 2]` is a match of `\S+@\S+\.\S+` whose `@` is at `at` and
      whose final `.` is at `dot`; shortest runs suffice because every run
      only has to be non-empty. */
  predicate EmailMatchAt(s: string, at: int, dot: int) {
    && 0 < at && at + 1 < dot && dot + 1 < |s|
    && s[at] == '@' && s[dot] == '.'
    && !IsJsWhitespace(s[at - 1]) && !IsJsWhitespace(s[dot + 1])
    && forall k :: at < k < dot ==> !IsJsWhitespace(s[k])
  }

  /** `/\S+@\S+\.\S+/.test(s)`: the pattern is unanchored, so it matches when
      any substring does. */
  ghost predicate EmailPatternMatches(s: string) {
    exists at, dot :: EmailMatchAt(s, at, dot)
  }

  /** A scanner deciding the email pattern: for each `@` preceded by a
      non-space, walk the following run of non-spaces looking for a `.` that
      has a non-space before and after it. */
  method MatchesEmailPattern(s: string) returns (b: bool)
    ensures b <==> EmailPatternMatches(s)
  {
    var at := 1;
    while at < |s|
      invariant 1 <= at
      invariant forall a, d :: 0 < a < at ==> !EmailMatchAt(s, a, d)
    {
      if s[at] == '@' && !IsJsWhitespace(s[at - 1]) {
        var dot := at + 1;
        while dot < |s| && !IsJsWhitespace(s[dot])
          invariant at + 1 <= dot
          invariant forall k :: at < k < dot && k < |s| ==> !IsJsWhitespace(s[k])
          invariant forall d :: d < dot ==> !EmailMatchAt(s, at, d)
        {
          if s[dot] == '.' && at + 1 < dot && dot + 1 < |s| && !IsJsWhitespace(s[dot + 1]) {
            assert EmailMatchAt(s, at, dot);
            return true;
          }
          dot := dot + 1;
        }
        forall d | d >= dot
          ensures !EmailMatchAt(s, at, d)
        {
          if dot < |s| && d > dot {
            assert IsJsWhitespace(s[dot]);
          }
        }
      }
      at := at + 1;
    }
    return false;
  }

  const FirstNameRequired := "First name required"
  const LastNameRequired := "Last name required"
  const InvalidEmail := "Invalid email"

  /** The values `validate` reads. */
  datatype Contact = Contact(firstName: string, lastName: string, phone: string, email: string)

  /** Every check of `validate` passes. */
  ghost predicate ContactValid(c: Contact) {
    Trim(c.firstName) != [] && Trim(c.lastName) != [] && PhoneValid(c.phone) &&
    (c.email == [] || EmailPatternMatches(c.email))
  }

  /** The message of the first check `c` fails, in the order first name,
      last name, phone, email; none when every check passes. */
  ghost function FirstError(c: Contact, phoneMessage: string): Option<string> {
    if Trim(c.firstName) == [] then Some(FirstNameRequired)
    else if Trim(c.lastName) == [] then Some(LastNameRequired)
    else if !PhoneValid(c.phone) then Some(phoneMessage)
    else if c.email != [] && !EmailPatternMatches(c.email) then Some(InvalidEmail)
    else None
  }

  /** `validate`: the message of the first failing check, in the order first
      name, last name, phone, email, or none. An empty email is not checked.
      The forms differ only in the phone message. */
  method Validate(c: Contact, phoneMessage: string) returns (err: Option<string>)
    ensures Trim(c.firstName) == [] ==> err == Some(FirstNameRequired)
    ensures Trim(c.firstName) != [] && Trim(c.lastName) == [] ==> err == Some(LastNameRequired)
    ensures Trim(c.firstName) != [] && Trim(c.lastName) != [] && !PhoneValid(c.phone) ==> err == Some(phoneMessage)
    ensures (Trim(c.firstName) != [] && Trim(c.lastName) != [] && PhoneValid(c.phone) &&
             c.email != [] && !EmailPatternMatches(c.email)) ==> err == Some(InvalidEmail)
    ensures err.None? <==> ContactValid(c)
    ensures err == FirstError(c, phoneMessage)
  {
    if Trim(c.firstName) == [] { return Some(FirstNameRequired); }
    if Trim(c.lastName) == [] { return Some(LastNameRequired); }
    if !PhoneValid(c.phone) { return Some(phoneMessage); }
    if c.email != [] {
      var ok := MatchesEmailPattern(c.email);
      if !ok { return Some(InvalidEmail); }
    }
    return None;
  }

  /** How a registration request ended: the server created the record, or
      the request failed with a message (the response text or a network
      error). */
  datatype Response = Created | Failed(message: string)

  /** `languages.filter((l) => l !== lang)`. */
  function RemoveAll(s: seq<string>, x: string): (r: seq<string>)
    ensures forall y :: y in r <==> y in s && y != x
    ensures |r| <= |s|
  {
    if s == [] then [] else (if s[0] == x then [] else [s[0]]) + RemoveAll(s[1..], x)
  }

  /** The language toggle of both forms: remove the language when present,
      append it when absent. */
  function ToggleLanguage(langs: seq<string>, lang: string): (r: seq<string>)
    ensures lang in r <==> lang !in langs
    ensures forall y :: y != lang ==> (y in r <==> y in langs)
  {
    if lang in langs then RemoveAll(langs, lang) else langs + [lang]
  }

  /** No language appears twice. */
  ghost predicate Distinct(s: seq<string>) {
    forall i, j :: 0 <= i < j < |s| ==> s[i] != s[j]
  }

  /** Removing a value absent from the list changes nothing. */
  lemma {:induction false} RemoveAbsent(s: seq<string>, x: string)
    requires x !in s
    ensures RemoveAll(s, x) == s
  {
    if s != [] {
      RemoveAbsent(s[1..], x);
    }
  }

  /** Removing keeps the list free of repeats. */
  lemma {:induction false} RemoveKeepsDistinct(s: seq<string>, x: string)
    requires Distinct(s)
    ensures Distinct(RemoveAll(s, x))
  {
    if s != [] {
      var tail := s[1..];
      assert Distinct(tail) by {
        forall i, j | 0 <= i < j < |tail| ensures tail[i] != tail[j] {
          assert tail[i] == s[i + 1] && tail[j] == s[j + 1];
        }
      }
      RemoveKeepsDistinct(tail, x);
      assert s[0] !in tail by {
        forall i | 0 <= i < |tail| ensures tail[i] != s[0] {
          assert tail[i] == s[i + 1];
        }
      }
      assert s[0] !in RemoveAll(tail, x);
    }
  }

  /** Toggling never creates a repeated language. */
  lemma ToggleKeepsDistinct(langs: seq<string>, lang: string)
    requires Distinct(langs)
    ensures Distinct(ToggleLanguage(langs, lang))
  {
    if lang in langs {
      RemoveKeepsDistinct(langs, lang);
    } else {
      var r := langs + [lang];
      forall i, j | 0 <= i < j < |r| ensures r[i] != r[j] {
        if j == |langs| {
          assert r[i] == langs[i];
        }
      }
    }
  }

  /** Toggling a language twice restores the list when it was absent. */
  lemma ToggleTwiceWhenAbsent(langs: seq<string>, lang: string)
    requires lang !in langs
    ensures ToggleLanguage(ToggleLanguage(langs, lang), lang) == langs
  {
    RemoveAppended(langs, lang);
  }

  lemma {:induction false} RemoveAppended(s: seq<string>, x: string)
    requires x !in s
    ensures RemoveAll(s + [x], x) == s
  {
    if s == [] {
      assert RemoveAll([x], x) == [] + RemoveAll([], x);
    } else {
      assert (s + [x])[1..] == s[1..] + [x];
      RemoveAppended(s[1..], x);
    }
  }

  /** Toggling a language twice always restores which languages are chosen. */
  lemma ToggleTwiceSameLanguages(langs: seq<string>, lang: string)
    ensures forall y :: y in ToggleLanguage(ToggleLanguage(langs, lang), lang) <==> y in langs
  {
  }

  /** A chosen language that is not last moves to the end when toggled off
      and on again, so the list itself is not restored. */
  lemma ToggleTwiceCanReorder()
    ensures ToggleLanguage(ToggleLanguage(["English", "Hindi"], "English"), "English") == ["Hindi", "English"]
  {
    assert RemoveAll(["English", "Hindi"], "English") == ["Hindi"] by {
      assert ["English", "Hindi"][1..] == ["Hindi"];
      assert ["Hindi"][1..] == [];
    }
  }
}

=== FILE: listing.dfy ===
/** The list endpoints' query shape: `db.query(Model).filter(...).order_by(...).all()`.
    A query result lists exactly the rows of a table that pass the filter, each
    once, in an order that respects the ORDER BY comparison. Rows that compare
    equal may come in any order, as in SQL. */
module Listing {
  import opened Common

  /** `le` is usable as an ORDER BY: any two rows compare, and comparisons chain. */
  ghost predicate TotalPreorder<R(!new)>(le: (R, R) -> bool) {
    && (forall a, b :: le(a, b) || le(b, a))
    && (forall a, b, c :: le(a, b) && le(b, c) ==> le(a, c))
  }

  /** Every row comes no later than the rows after it. */
  ghost predicate SortedBy<R>(rows: seq<(Id, R)>, le: (R, R) -> bool) {
    forall i, j :: 0 <= i < j < |rows| ==> le(rows[i].1, rows[j].1)
  }

  /** The primary keys a listing mentions. */
  function Ids<R>(rows: seq<(Id, R)>): set<Id> {
    set i | 0 <= i < |rows| :: rows[i].0
  }

  /** No row is listed twice. */
  ghost predicate DistinctIds<R>(rows: seq<(Id, R)>) {
    forall i, j :: 0 <= i < j < |rows| ==> rows[i].0 != rows[j].0
  }

  /** Every listed row is the table's row under its key and passes the filter. */
  ghost predicate RowsFrom<R>(table: map<Id, R>, keep: R -> bool, rows: seq<(Id, R)>) {
    forall i :: 0 <= i < |rows| ==> rows[i].0 in table && table[rows[i].0] == rows[i].1 && keep(rows[i].1)
  }

  /** `rows` is a correct answer to `SELECT * FROM table WHERE keep ORDER BY le`. */
  ghost predicate IsQueryResult<R>(table: map<Id, R>, keep: R -> bool, le: (R, R) -> bool, rows: seq<(Id, R)>) {
    && RowsFrom(table, keep, rows)
    && Ids(rows) == (set k | k in table && keep(table[k]))
    && DistinctIds(rows)
    && SortedBy(rows, le)
  }

  /** Where a new row goes in a sorted listing: before the first row it does
      not come after. */
  function InsertionPoint<R>(rows: seq<(Id, R)>, x: R, le: (R, R) -> bool): (p: nat)
    ensures p <= |rows|
    ensures forall i :: 0 <= i < p ==> !le(x, rows[i].1)
    ensures p < |rows| ==> le(x, rows[p].1)
  {
    if rows == [] then 0
    else if le(x, rows[0].1) then 0
    else 1 + InsertionPoint(rows[1..], x, le)
  }

  lemma InsertKeepsSorted<R(!new)>(rows: seq<(Id, R)>, e: (Id, R), le: (R, R) -> bool)
    requires TotalPreorder(le)
    requires SortedBy(rows, le)
    ensures SortedBy(Insert(rows, e, le), le)
  {
    var p := InsertionPoint(rows, e.1, le);
    var s := Insert(rows, e, le);
    assert |s| == |rows| + 1;
    forall i, j | 0 <= i < j < |s|
      ensures le(s[i].1, s[j].1)
    {
      if j < p {
        assert s[i] == rows[i] && s[j] == rows[j];
      } else if j == p {
        assert s[i] == rows[i] && s[j] == e;
        assert !le(e.1, rows[i].1);
      } else if i < p {
        assert s[i] == rows[i] && s[j] == rows[j - 1];
      } else if i == p {
        assert s[i] == e && s[j] == rows[j - 1];
        assert le(e.1, rows[p].1);
        if j - 1 > p {
          assert le(rows[p].1, rows[j - 1].1);
        }
      } else {
        assert s[i] == rows[i - 1] && s[j] == rows[j - 1];
      }
    }
  }

  /** The listing with `e` inserted at its place. */
  function Insert<R>(rows: seq<(Id, R)>, e: (Id, R), le: (R, R) -> bool): seq<(Id, R)> {
    var p := InsertionPoint(rows, e.1, le);
    rows[..p] + [e] + rows[p..]
  }

  lemma InsertContents<R>(rows: seq<(Id, R)>, e: (Id, R), le: (R, R) -> bool)
    ensures forall i :: 0 <= i < |Insert(rows, e, le)| ==>
      Insert(rows, e, le)[i] == e || Insert(rows, e, le)[i] in rows
    ensures e in Insert(rows, e, le)
    ensures forall x :: x in rows ==> x in Insert(rows, e, le)
    ensures Ids(Insert(rows, e, le)) == Ids(rows) + {e.0}
    ensures |Insert(rows, e, le)| == |rows| + 1
  {
    var p := InsertionPoint(rows, e.1, le);
    var s := Insert(rows, e, le);
    assert s == rows[..p] + [e] + rows[p..];
    forall i | 0 <= i < |s| ensures s[i] == e || s[i] in rows {
      if i < p { assert s[i] == rows[i]; }
      else if i > p { assert s[i] == rows[i - 1]; }
    }
    assert s[p] == e;
    forall x | x in rows ensures x in s {
      var i :| 0 <= i < |rows| && rows[i] == x;
      if i < p { assert s[i] == x; } else { assert s[i + 1] == x; }
    }
    forall k | k in Ids(s) ensures k in Ids(rows) + {e.0} {
      var i :| 0 <= i < |s| && s[i].0 == k;
      if s[i] != e {
        assert s[i] in rows;
        var j :| 0 <= j < |rows| && rows[j] == s[i];
        assert rows[j].0 == k;
      }
    }
    forall k | k in Ids(rows) + {e.0} ensures k in Ids(s) {
      if k == e.0 {
        assert s[p].0 == k;
      } else {
        var j :| 0 <= j < |rows| && rows[j].0 == k;
        assert rows[j] in s;
        var i :| 0 <= i < |s| && s[i] == rows[j];
      }
    }
  }

  /** Runs the query: visits the table's keys one by one and inserts each row
      that passes the filter at its place in the listing built so far. */
  method Query<R(!new)>(table: map<Id, R>, keep: R -> bool, le: (R, R) -> bool) returns (rows: seq<(Id, R)>)
    requires TotalPreorder(le)
    ensures IsQueryResult(table, keep, le, rows)
  {
    rows := [];
    var rest := table.Keys;
    while rest != {}
      invariant rest <= table.Keys
      invariant RowsFrom(table, keep, rows)
      invariant Ids(rows) == (set k | k in table && k !in rest && keep(table[k]))
      invariant DistinctIds(rows)
      invariant SortedBy(rows, le)
      decreases rest
    {
      var k :| k in rest;
      rest := rest - {k};
      if keep(table[k]) {
        var e := (k, table[k]);
        assert k !in Ids(rows);
        InsertKeepsSorted(rows, e, le);
        InsertContents(rows, e, le);
        var s := Insert(rows, e, le);
        forall i, j | 0 <= i < j < |s| ensures s[i].0 != s[j].0 {
          InsertDistinct(rows, e, le, i, j);
        }
        rows := s;
      }
    }
  }

  lemma InsertDistinct<R>(rows: seq<(Id, R)>, e: (Id, R), le: (R, R) -> bool, i: nat, j: nat)
    requires DistinctIds(rows)
    requires e.0 !in Ids(rows)
    requires i < j < |Insert(rows, e, le)|
    ensures Insert(rows, e, le)[i].0 != Insert(rows, e, le)[j].0
  {
    var p := InsertionPoint(rows, e.1, le);
    var s := Insert(rows, e, le);
    if i == p {
      assert s[j] == rows[j - 1];
      assert rows[j - 1].0 in Ids(rows);
    } else if j == p {
      assert s[i] == rows[i];
      assert rows[i].0 in Ids(rows);
    } else {
      var i' := if i < p then i else i - 1;
      var j' := if j < p then j else j - 1;
      assert s[i] == rows[i'] && s[j] == rows[j'];
      assert i' < j';
    }
  }

  /** A listing without repeated keys has one key per row. */
  lemma {:induction false} DistinctIdsCount<R>(rows: seq<(Id, R)>)
    requires DistinctIds(rows)
    ensures |Ids(rows)| == |rows|
  {
    if rows != [] {
      var tail := rows[1..];
      assert DistinctIds(tail) by {
        forall i, j | 0 <= i < j < |tail| ensures tail[i].0 != tail[j].0 {
          assert tail[i] == rows[i + 1] && tail[j] == rows[j + 1];
        }
      }
      DistinctIdsCount(tail);
      assert Ids(rows) == {rows[0].0} + Ids(tail) by {
        forall k | k in Ids(rows) ensures k in {rows[0].0} + Ids(tail) {
          var i :| 0 <= i < |rows| && rows[i].0 == k;
          if i > 0 { assert tail[i - 1] == rows[i]; }
        }
        forall k | k in Ids(tail) ensures k in Ids(rows) {
          var i :| 0 <= i < |tail| && tail[i].0 == k;
          assert rows[i + 1] == tail[i];
        }
      }
      assert rows[0].0 !in Ids(tail) by {
        forall i | 0 <= i < |tail| ensures tail[i].0 != rows[0].0 {
          assert tail[i] == rows[i + 1];
        }
      }
    }
  }

  /** A query without a filter lists every row of the table exactly once. */
  lemma UnfilteredQuerySize<R>(table: map<Id, R>, keep: R -> bool, le: (R, R) -> bool, rows: seq<(Id, R)>)
    requires forall r :: keep(r)
    requires IsQueryResult(table, keep, le, rows)
    ensures Ids(rows) == table.Keys
    ensures |rows| == |table|
  {
    DistinctIdsCount(rows);
    assert Ids(rows) == table.Keys;
  }
}

=== FILE: locations.dfy ===
/** The location routes. Locations are offices or branches of an
    organization, and every route is scoped to the current organization:
    another organization's locations can be neither read nor written. */
module Locations {
  import opened Common
  import Listing

  /** A row of the `location` table. */
  datatype Location = Location(
    organizationId: Id,
    name: string,
    address: Address,
    timezone: Option<string>,
    isDefault: bool,
    createdAt: int)

  /** A `LocationCreate` payload. Its organization is ignored by the route. */
  datatype LocationCreate = LocationCreate(
    organizationId: Id,
    name: string,
    address: Address,
    timezone: Option<string>,
    isDefault: bool)

  /** A `LocationUpdate` payload: every field may be null. */
  datatype LocationUpdate = LocationUpdate(
    name: Option<string>,
    address: Address,
    timezone: Option<string>,
    isDefault: Option<bool>)

  const NotFoundDetail := "Location not found"

  /** The lookup of `get_location` and `update_location`: the key must exist
      and belong to the current organization. */
  function FetchScoped(table: map<Id, Location>, id: Id, orgId: Id): (r: Result<Location>)
    ensures r.Ok? <==> id in table && table[id].organizationId == orgId
    ensures r.Ok? ==> r.value == table[id]
    ensures r.Err? ==> r.error == NotFound(NotFoundDetail)
  {
    if id in table && table[id].organizationId == orgId then Ok(table[id]) else Err(NotFound(NotFoundDetail))
  }

  /** `get_location`. */
  function GetLocation(table: map<Id, Location>, id: Id, ctx: Ctx): (r: Result<Location>)
    ensures r.Ok? <==> id in table && table[id].organizationId == ctx.orgId
    ensures r.Ok? ==> r.value == table[id]
    ensures r.Err? ==> r.error == NotFound(NotFoundDetail) && r.error.Code() == 404
  {
    FetchScoped(table, id, ctx.orgId)
  }

  /** `create_location`: stores the payload under the current organization. */
  function CreateLocation(table: map<Id, Location>, p: LocationCreate, ctx: Ctx): (s: Saved<Location>)
    requires ctx.newId !in table
    ensures s.id == ctx.newId && s.table == table[ctx.newId := s.row]
    ensures s.row == Location(ctx.orgId, p.name, p.address, p.timezone, p.isDefault, ctx.now)
  {
    var loc := Location(ctx.orgId, p.name, p.address, p.timezone, p.isDefault, ctx.now);
    Saved(table[ctx.newId := loc], ctx.newId, loc)
  }

  /** `update_location`: copies each non-null field onto the current
      organization's location; the organization never changes. */
  function UpdateLocation(table: map<Id, Location>, id: Id, p: LocationUpdate, ctx: Ctx): (r: Result<Saved<Location>>)
    ensures r.Ok? <==> id in table && table[id].organizationId == ctx.orgId
    ensures r.Err? ==> r.error == NotFound(NotFoundDetail)
    ensures r.Ok? ==> r.value.id == id && r.value.table == table[id := r.value.row]
    ensures r.Ok? ==>
      && r.value.row.organizationId == ctx.orgId
      && r.value.row.createdAt == table[id].createdAt
      && r.value.row.name == Patch(table[id].name, p.name)
      && r.value.row.address == PatchAddress(table[id].address, p.address)
      && r.value.row.timezone == (if p.timezone.Some? then p.timezone else table[id].timezone)
      && r.value.row.isDefault == Patch(table[id].isDefault, p.isDefault)
  {
    match FetchScoped(table, id, ctx.orgId)
    case Err(e) => Err(e)
    case Ok(loc) =>
      var row := loc.(
        name := Patch(loc.name, p.name),
        address := PatchAddress(loc.address, p.address),
        timezone := Patch(loc.timezone, OptionOf(p.timezone)),
        isDefault := Patch(loc.isDefault, p.isDefault));
      Ok(Saved(table[id := row], id, row))
  }

  /** The rows of one organization. */
  function RowsOf(table: map<Id, Location>, orgId: Id): (t: map<Id, Location>)
    ensures forall k :: k in t <==> k in table && table[k].organizationId == orgId
    ensures forall k :: k in t ==> t[k] == table[k]
  {
    map k | k in table && table[k].organizationId == orgId :: table[k]
  }

  /** Tenant isolation: neither write route adds, removes or changes a row of
      any organization other than the current one. */
  lemma WritesStayInOrganization(table: map<Id, Location>, id: Id, c: LocationCreate, u: LocationUpdate, ctx: Ctx, other: Id)
    requires ctx.newId !in table
    requires other != ctx.orgId
    ensures RowsOf(CreateLocation(table, c, ctx).table, other) == RowsOf(table, other)
    ensures UpdateLocation(table, id, u, ctx).Ok? ==>
      RowsOf(UpdateLocation(table, id, u, ctx).value.table, other) == RowsOf(table, other)
  {
    var t := CreateLocation(table, c, ctx).table;
    assert RowsOf(t, other).Keys == RowsOf(table, other).Keys;
    var r := UpdateLocation(table, id, u, ctx);
    if r.Ok? {
      assert RowsOf(r.value.table, other).Keys == RowsOf(table, other).Keys;
    }
  }

  /** The organization in a create payload makes no difference. */
  lemma CreateIgnoresPayloadOrganization(table: map<Id, Location>, c: LocationCreate, orgId: Id, ctx: Ctx)
    requires ctx.newId !in table
    ensures CreateLocation(table, c.(organizationId := orgId), ctx) == CreateLocation(table, c, ctx)
  {
  }

  /** `list_locations`: the current organization's locations, newest first. */
  method ListLocations(table: map<Id, Location>, ctx: Ctx) returns (rows: seq<(Id, Location)>)
    ensures forall i :: 0 <= i < |rows| ==>
      rows[i].0 in table && table[rows[i].0] == rows[i].1 && rows[i].1.organizationId == ctx.orgId
    ensures Listing.Ids(rows) == RowsOf(table, ctx.orgId).Keys
    ensures forall i, j :: 0 <= i < j < |rows| ==> rows[i].0 != rows[j].0
    ensures forall i, j :: 0 <= i < j < |rows| ==> rows[i].1.createdAt >= rows[j].1.createdAt
  {
    var newestFirst := (a: Location, b: Location) => a.createdAt >= b.createdAt;
    rows := Listing.Query(table, (l: Location) => l.organizationId == ctx.orgId, newestFirst);
  }
}

=== FILE: memberships.dfy ===
/** The membership routes: a membership links a user to an organization with
    a role, and each (user, organization) pair has at most one. */
module Memberships {
  import opened Common
  import Listing

  datatype MembershipRole = FamilyViewer | FamilyEditor | Caregiver | Supervisor | AgencyAdmin | SystemAdmin {
    function Value(): string {
      match this
      case FamilyViewer => "family_viewer"
      case FamilyEditor => "family_editor"
      case Caregiver => "caregiver"
      case Supervisor => "supervisor"
      case AgencyAdmin => "agency_admin"
      case SystemAdmin => "system_admin"
    }
  }

  datatype MembershipStatus = Active | Inactive | Invited {
    function Value(): string {
      match this
      case Active => "active"
      case Inactive => "inactive"
      case Invited => "invited"
    }
  }

  /** Enum coercion of a `role` string. */
  function ParseMembershipRole(s: string): (r: Option<MembershipRole>)
    ensures r.Some? <==> s in {"family_viewer", "family_editor", "caregiver", "supervisor", "agency_admin", "system_admin"}
    ensures r.Some? ==> r.value.Value() == s
    ensures forall x: MembershipRole :: x.Value() == s ==> r == Some(x)
  {
    if s == "family_viewer" then Some(FamilyViewer)
    else if s == "family_editor" then Some(FamilyEditor)
    else if s == "caregiver" then Some(Caregiver)
    else if s == "supervisor" then Some(Supervisor)
    else if s == "agency_admin" then Some(AgencyAdmin)
    else if s == "system_admin" then Some(SystemAdmin)
    else None
  }

  /** Enum coercion of a `status` string. */
  function ParseMembershipStatus(s: string): (r: Option<MembershipStatus>)
    ensures r.Some? <==> s in {"active", "inactive", "invited"}
    ensures r.Some? ==> r.value.Value() == s
    ensures forall x: MembershipStatus :: x.Value() == s ==> r == Some(x)
  {
    if s == "active" then Some(Active)
    else if s == "inactive" then Some(Inactive)
    else if s == "invited" then Some(Invited)
    else None
  }

  /** A row of the `membership` table. */
  datatype Membership = Membership(
    userId: Id,
    organizationId: Id,
    role: MembershipRole,
    title: Option<string>,
    locationId: Option<Id>,
    status: MembershipStatus,
    invitedById: Option<Id>,
    createdAt: int)

  /** A create body before enum coercion; `status` may be absent. */
  datatype CreateBody = CreateBody(
    userId: Id,
    organizationId: Id,
    role: string,
    title: Option<string>,
    locationId: Option<Id>,
    status: Option<string>)

  /** A validated `MembershipCreate` payload. */
  datatype MembershipCreate = MembershipCreate(
    userId: Id,
    organizationId: Id,
    role: MembershipRole,
    title: Option<string>,
    locationId: Option<Id>,
    status: MembershipStatus)

  /** A `MembershipUpdate` payload: every field may be null. */
  datatype MembershipUpdate = MembershipUpdate(
    role: Option<MembershipRole>,
    title: Option<string>,
    locationId: Option<Id>,
    status: Option<MembershipStatus>)

  /** The default of `MembershipCreate.status`. */
  const DefaultMembershipStatus := Invited
  const NotFoundDetail := "Membership not found"
  const DuplicateDetail := "Membership for this user and organization already exists."

  /** Validation of a create body: role coercion, and status coercion with
      invited as the default. */
  function ParseCreate(b: CreateBody): (r: Result<MembershipCreate>)
    ensures r.Ok? <==> ParseMembershipRole(b.role).Some? && (b.status.None? || ParseMembershipStatus(b.status.value).Some?)
    ensures r.Err? ==> r.error.Code() == 422
    ensures r.Ok? ==> r.value.role.Value() == b.role && r.value.userId == b.userId && r.value.organizationId == b.organizationId
    ensures r.Ok? && b.status.None? ==> r.value.status == Invited
    ensures r.Ok? && b.status.Some? ==> r.value.status.Value() == b.status.value
    ensures r.Ok? ==> r.value.title == b.title && r.value.locationId == b.locationId
  {
    match ParseMembershipRole(b.role)
    case None => Err(Unprocessable("role: not a valid enumeration member"))
    case Some(role) =>
      var status := if b.status.None? then Some(DefaultMembershipStatus) else ParseMembershipStatus(b.status.value);
      if status.None? then Err(Unprocessable("status: not a valid enumeration member"))
      else Ok(MembershipCreate(b.userId, b.organizationId, role, b.title, b.locationId, status.value))
  }

  /** The user already has a membership in the organization. */
  predicate PairTaken(table: map<Id, Membership>, userId: Id, orgId: Id) {
    exists k :: k in table && table[k].userId == userId && table[k].organizationId == orgId
  }

  /** The unique constraint `uq_membership_user_org`. */
  ghost predicate UniquePairs(table: map<Id, Membership>) {
    forall a, b ::
      (a in table && b in table && table[a].userId == table[b].userId &&
       table[a].organizationId == table[b].organizationId) ==> a == b
  }

  /** `create_membership`: the insert either violates the (user,
      organization) uniqueness, which is reported as 409 with nothing stored,
      or stores the payload with the current user as inviter. */
  function CreateMembership(table: map<Id, Membership>, p: MembershipCreate, ctx: Ctx): (r: Result<Saved<Membership>>)
    requires ctx.newId !in table
    ensures r.Err? <==> exists k :: k in table && table[k].userId == p.userId && table[k].organizationId == p.organizationId
    ensures r.Err? ==> r.error == Conflict(DuplicateDetail) && r.error.Code() == 409
    ensures r.Ok? ==> r.value.id == ctx.newId && r.value.table == table[ctx.newId := r.value.row]
    ensures r.Ok? ==> r.value.row == Membership(p.userId, p.organizationId, p.role, p.title, p.locationId, p.status, Some(ctx.userId), ctx.now)
  {
    if PairTaken(table, p.userId, p.organizationId) then Err(Conflict(DuplicateDetail))
    else
      var m := Membership(p.userId, p.organizationId, p.role, p.title, p.locationId, p.status, Some(ctx.userId), ctx.now);
      Ok(Saved(table[ctx.newId := m], ctx.newId, m))
  }

  /** `get_membership`. */
  function GetMembership(table: map<Id, Membership>, id: Id): (r: Result<Membership>)
    ensures r.Ok? <==> id in table
    ensures r.Ok? ==> r.value == table[id]
    ensures r.Err? ==> r.error == NotFound(NotFoundDetail)
  {
    Fetch(table, id, "Membership")
  }

  /** `update_membership`: copies each non-null field among role, title,
      location and status; user, organization and inviter never change. */
  function UpdateMembership(table: map<Id, Membership>, id: Id, p: MembershipUpdate): (r: Result<Saved<Membership>>)
    ensures r.Ok? <==> id in table
    ensures r.Err? ==> r.error == NotFound(NotFoundDetail)
    ensures r.Ok? ==> r.value.id == id && r.value.table == table[id := r.value.row]
    ensures r.Ok? ==>
      && r.value.row.userId == table[id].userId
      && r.value.row.organizationId == table[id].organizationId
      && r.value.row.invitedById == table[id].invitedById
      && r.value.row.createdAt == table[id].createdAt
      && r.value.row.role == Patch(table[id].role, p.role)
      && r.value.row.title == (if p.title.Some? then p.title else table[id].title)
      && r.value.row.locationId == (if p.locationId.Some? then p.locationId else table[id].locationId)
      && r.value.row.status == Patch(table[id].status, p.status)
  {
    match Fetch(table, id, "Membership")
    case Err(e) => Err(e)
    case Ok(m) =>
      var row := m.(
        role := Patch(m.role, p.role),
        title := Patch(m.title, OptionOf(p.title)),
        locationId := if p.locationId.Some? then p.locationId else m.locationId,
        status := Patch(m.status, p.status));
      Ok(Saved(table[id := row], id, row))
  }

  /** Creating a membership keeps (user, organization) pairs unique. */
  lemma CreateKeepsUniquePairs(table: map<Id, Membership>, p: MembershipCreate, ctx: Ctx)
    requires ctx.newId !in table
    requires UniquePairs(table)
    requires CreateMembership(table, p, ctx).Ok?
    ensures UniquePairs(CreateMembership(table, p, ctx).value.table)
  {
    var t := CreateMembership(table, p, ctx).value.table;
    forall a, b | a in t && b in t && t[a].userId == t[b].userId && t[a].organizationId == t[b].organizationId
      ensures a == b
    {
      if a != ctx.newId && b != ctx.newId {
        assert t[a] == table[a] && t[b] == table[b];
      } else if a != ctx.newId {
        assert t[a] == table[a];
      }
    }
  }

  /** Updating a membership keeps (user, organization) pairs unique. */
  lemma UpdateKeepsUniquePairs(table: map<Id, Membership>, id: Id, p: MembershipUpdate)
    requires UniquePairs(table)
    requires UpdateMembership(table, id, p).Ok?
    ensures UniquePairs(UpdateMembership(table, id, p).value.table)
  {
    var t := UpdateMembership(table, id, p).value.table;
    forall a, b | a in t && b in t && t[a].userId == t[b].userId && t[a].organizationId == t[b].organizationId
      ensures a == b
    {
      assert table[a].userId == t[a].userId && table[b].userId == t[b].userId;
      assert table[a].organizationId == t[a].organizationId && table[b].organizationId == t[b].organizationId;
    }
  }

  /** `list_memberships`: the current organization's memberships, newest first. */
  method ListMemberships(table: map<Id, Membership>, orgId: Id) returns (rows: seq<(Id, Membership)>)
    ensures forall i :: 0 <= i < |rows| ==>
      rows[i].0 in table && table[rows[i].0] == rows[i].1 && rows[i].1.organizationId == orgId
    ensures forall k :: k in table && table[k].organizationId == orgId ==> k in Listing.Ids(rows)
    ensures forall i, j :: 0 <= i < j < |rows| ==> rows[i].0 != rows[j].0
    ensures forall i, j :: 0 <= i < j < |rows| ==> rows[i].1.createdAt >= rows[j].1.createdAt
  {
    var newestFirst := (a: Membership, b: Membership) => a.createdAt >= b.createdAt;
    rows := Listing.Query(table, (m: Membership) => m.organizationId == orgId, newestFirst);
  }
}

=== FILE: new_caregiver.dfy ===
/** The caregiver registration form: its state, the change handler, the
    language buttons and the submit flow. */
module NewCaregiver {
  import opened Common
  import FormRules

  /** The text fields of `CaregiverForm`, by name. */
  const TextFields: set<string> := {
    "firstName", "middleName", "lastName", "phone", "email", "address", "dob", "gender",
    "height", "weight", "addressProof", "bankName", "accountNumber", "ifscCode",
    "priorExperience", "qualification", "qualificationProof"}

  const LanguageOptions: seq<string> := ["English", "Hindi", "Tamil", "Telugu", "Malayalam", "Kannada"]

  const PhoneMessage := "Phone should be 7–15 digits"
  const SuccessMessage := "Caregiver registered successfully"

  /** The form state: every text field by name, and the chosen languages. */
  datatype Form = Form(fields: map<string, string>, languages: seq<string>)

  /** Every text field is present. */
  ghost predicate WellFormed(f: Form) {
    TextFields <= f.fields.Keys
  }

  /** `initialFormState`: every text field empty and no language chosen. */
  function InitialForm(): (f: Form)
    ensures WellFormed(f)
    ensures forall k :: k in f.fields <==> k in TextFields
    ensures forall k :: k in f.fields ==> f.fields[k] == ""
    ensures f.languages == []
  {
    Form(map k | k in TextFields :: "", [])
  }

  /** `handleChange`: the `languages` select replaces the language list with
      its selected options; any other input sets the field it names. */
  function HandleChange(f: Form, name: string, value: string, selected: seq<string>): (r: Form)
    ensures name == "languages" ==> r == f.(languages := selected)
    ensures name != "languages" ==> r.languages == f.languages && r.fields.Keys == f.fields.Keys + {name}
    ensures name != "languages" ==> r.fields[name] == value
    ensures forall k :: k in f.fields && k != name ==> k in r.fields && r.fields[k] == f.fields[k]
    ensures WellFormed(f) ==> WellFormed(r)
  {
    if name == "languages" then f.(languages := selected)
    else f.(fields := f.fields[name := value])
  }

  /** A language button. */
  function ClickLanguage(f: Form, lang: string): (r: Form)
    ensures r.fields == f.fields
    ensures lang in r.languages <==> lang !in f.languages
    ensures forall y :: y != lang ==> (y in r.languages <==> y in f.languages)
  {
    f.(languages := FormRules.ToggleLanguage(f.languages, lang))
  }

  /** The fields `validate` reads. */
  function ContactOf(f: Form): FormRules.Contact
    requires WellFormed(f)
  {
    FormRules.Contact(f.fields["firstName"], f.fields["lastName"], f.fields["phone"], f.fields["email"])
  }

  /** `handleSubmit`: a validation message aborts before any request; a
      created response resets the form; a failure keeps it. `response` is what
      the server would answer, and is ignored when no request is sent. */
  method Submit(f: Form, response: FormRules.Response) returns (next: Form, sent: bool, alertText: string)
    requires WellFormed(f)
    ensures sent <==> FormRules.ContactValid(ContactOf(f))
    ensures !sent ==> next == f && FormRules.FirstError(ContactOf(f), PhoneMessage) == Some(alertText)
    ensures sent && response.Created? ==> next == InitialForm() && alertText == SuccessMessage
    ensures sent && response.Failed? ==> next == f && alertText == "Error: " + response.message
  {
    var err := FormRules.Validate(ContactOf(f), PhoneMessage);
    if err.Some? {
      return f, false, err.value;
    }
    if response.Created? {
      next, sent, alertText := InitialForm(), true, SuccessMessage;
    } else {
      next, sent, alertText := f, true, "Error: " + response.message;
    }
  }

  /** Every language button keeps the language list free of repeats. */
  lemma ClickLanguageKeepsDistinct(f: Form, lang: string)
    requires FormRules.Distinct(f.languages)
    ensures FormRules.Distinct(ClickLanguage(f, lang).languages)
  {
    FormRules.ToggleKeepsDistinct(f.languages, lang);
  }
}

=== FILE: new_patient.dfy ===
/** The patient registration form: its state, the change handler with its
    yes/no care requirements, the language toggle and the submit flow. */
module NewPatient {
  import opened Common
  import FormRules

  /** The text fields of `PatientForm`, by name. */
  const TextFields: set<string> := {
    "firstName", "middleName", "lastName", "phone", "email", "address", "dob", "gender",
    "height", "weight", "supportRequested", "workType"}

  /** The yes/no care requirements. */
  const RequirementKeys: set<string> := {"bedRidden", "canWalk", "wheelchair", "canUseLavatory", "canEat"}

  const LanguageOptions: seq<string> := ["English", "Hindi", "Tamil", "Telugu"]

  /** The phone message exactly as the component's source text spells it:
      the en dash of "7–15" saved in one encoding and read back in another. */
  const PhoneMessage := "Phone must be 7\U{00E2}\U{20AC}\U{201C}15 digits"
  const SuccessMessage := "Patient registered successfully"
  const RequirementPrefix := "requirements."

  /** The form state: every text field by name, the chosen languages, and each
      requirement answer, null while unanswered. */
  datatype Form = Form(fields: map<string, string>, languages: seq<string>, requirements: map<string, Option<bool>>)

  /** Every text field and every requirement is present. */
  ghost predicate WellFormed(f: Form) {
    TextFields <= f.fields.Keys && RequirementKeys <= f.requirements.Keys
  }

  /** `initialFormState`: text fields empty, no language, every requirement unanswered. */
  function InitialForm(): (f: Form)
    ensures WellFormed(f)
    ensures forall k :: k in f.fields <==> k in TextFields
    ensures forall k :: k in f.fields ==> f.fields[k] == ""
    ensures forall k :: k in f.requirements <==> k in RequirementKeys
    ensures forall k :: k in f.requirements ==> f.requirements[k].None?
    ensures f.languages == []
  {
    Form(map k | k in TextFields :: "", [], map k | k in RequirementKeys :: None)
  }

  /** Where the segment of `s` that starts at `i` ends: the next `.` or the end. */
  function SegmentEnd(s: string, i: nat): (j: nat)
    requires i <= |s|
    ensures i <= j <= |s|
    ensures forall k :: i <= k < j ==> s[k] != '.'
    ensures j < |s| ==> s[j] == '.'
    decreases |s| - i
  {
    if i == |s| || s[i] == '.' then i else SegmentEnd(s, i + 1)
  }

  /** `name.split('.')[1]` for a name that starts with `requirements.`: the
      text after that prefix, up to the next dot. */
  function RequirementKey(name: string): (key: string)
    requires |RequirementPrefix| <= |name| && name[..|RequirementPrefix|] == RequirementPrefix
    ensures '.' !in key
    ensures RequirementPrefix + key <= name
    ensures |RequirementPrefix| + |key| < |name| ==> name[|RequirementPrefix| + |key|] == '.'
  {
    var start := |RequirementPrefix|;
    var key := name[start..SegmentEnd(name, start)];
    assert name[..start + |key|] == RequirementPrefix + key;
    key
  }

  /** `handleChange`: a `requirements.<key>` input records whether the answer
      is "yes"; any other input sets the field it names. The form has no input
      named after its list or requirements properties. */
  function HandleChange(f: Form, name: string, value: string): (r: Form)
    requires name != "languages" && name != "requirements"
    ensures r.languages == f.languages
    ensures RequirementPrefix <= name ==>
      && r.fields == f.fields
      && r.requirements == f.requirements[RequirementKey(name) := Some(value == "yes")]
    ensures !(RequirementPrefix <= name) ==>
      && r.requirements == f.requirements
      && r.fields == f.fields[name := value]
    ensures WellFormed(f) ==> WellFormed(r)
  {
    if |RequirementPrefix| <= |name| && name[..|RequirementPrefix|] == RequirementPrefix then
      f.(requirements := f.requirements[RequirementKey(name) := Some(value == "yes")])
    else
      f.(fields := f.fields[name := value])
  }

  /** A requirement answer changes only the requirement it names. */
  lemma RequirementAnswerIsLocal(f: Form, key: string, value: string)
    requires '.' !in key
    requires WellFormed(f)
    ensures var r := HandleChange(f, RequirementPrefix + key, value);
      && key in r.requirements && r.requirements[key] == Some(value == "yes")
      && (forall k :: k in f.requirements && k != key ==> r.requirements[k] == f.requirements[k])
      && r.fields == f.fields && r.languages == f.languages
  {
    var name := RequirementPrefix + key;
    assert name[..|RequirementPrefix|] == RequirementPrefix;
    var k := RequirementKey(name);
    assert name[..|RequirementPrefix| + |k|] == RequirementPrefix + k;
    assert k == key;
  }

  /** `toggleLanguage`. */
  function ToggleLanguage(f: Form, lang: string): (r: Form)
    ensures r.fields == f.fields && r.requirements == f.requirements
    ensures lang in r.languages <==> lang !in f.languages
    ensures forall y :: y != lang ==> (y in r.languages <==> y in f.languages)
  {
    f.(languages := FormRules.ToggleLanguage(f.languages, lang))
  }

  /** Toggling a language that is not chosen on and off again restores the form. */
  lemma ToggleLanguageTwice(f: Form, lang: string)
    requires lang !in f.languages
    ensures ToggleLanguage(ToggleLanguage(f, lang), lang) == f
  {
    FormRules.ToggleTwiceWhenAbsent(f.languages, lang);
  }

  /** The fields `validate` reads. */
  function ContactOf(f: Form): FormRules.Contact
    requires WellFormed(f)
  {
    FormRules.Contact(f.fields["firstName"], f.fields["lastName"], f.fields["phone"], f.fields["email"])
  }

  /** `handleSubmit`: a validation message aborts before any request; a
      created response resets the form; a failure keeps it. */
  method Submit(f: Form, response: FormRules.Response) returns (next: Form, sent: bool, alertText: string)
    requires WellFormed(f)
    ensures sent <==> FormRules.ContactValid(ContactOf(f))
    ensures !sent ==> next == f && FormRules.FirstError(ContactOf(f), PhoneMessage) == Some(alertText)
    ensures sent && response.Created? ==> next == InitialForm() && alertText == SuccessMessage
    ensures sent && response.Failed? ==> next == f && alertText == "Error: " + response.message
  {
    var err := FormRules.Validate(ContactOf(f), PhoneMessage);
    if err.Some? {
      return f, false, err.value;
    }
    if response.Created? {
      next, sent, alertText := InitialForm(), true, SuccessMessage;
    } else {
      next, sent, alertText := f, true, "Error: " + response.message;
    }
  }
}

=== FILE: people_list.dfy ===
/** The people page: its role filter over the people list and the empty-list
    message. */
module PeopleList {

  datatype Person = Person(id: int, name: string, role: string)

  /** The people the page lists. */
  const PeopleData: seq<Person> := [
    Person(1, "Mary Smith", "Care Recipient"),
    Person(2, "John Smith", "Family"),
    Person(3, "Jane Doe", "Caregiver")
  ]

  /** The options of the filter select. */
  const FilterOptions: seq<string> := ["All", "Care Recipient", "Family", "Caregiver"]

  const AllRoles := "All"

  /** `peopleData.filter((p) => p.role === filter)`. */
  function WithRole(people: seq<Person>, role: string): (r: seq<Person>)
    ensures |r| <= |people|
    ensures forall i :: 0 <= i < |r| ==> r[i].role == role
  {
    if people == [] then []
    else (if people[0].role == role then [people[0]] else []) + WithRole(people[1..], role)
  }

  /** The filter drops no one with the role: each such person is kept as often
      as the list holds them, and everyone else is dropped. */
  lemma {:induction false} WithRoleCount(people: seq<Person>, role: string)
    ensures forall x :: multiset(WithRole(people, role))[x] == if x.role == role then multiset(people)[x] else 0
  {
    if people != [] {
      assert people == [people[0]] + people[1..];
      WithRoleCount(people[1..], role);
    }
  }

  /** The filter keeps the order of the list: filtering a concatenation is
      concatenating the filtered parts. */
  lemma {:induction false} WithRoleAppend(a: seq<Person>, b: seq<Person>, role: string)
    ensures WithRole(a + b, role) == WithRole(a, role) + WithRole(b, role)
  {
    if a == [] {
      assert a + b == b;
    } else {
      assert (a + b)[1..] == a[1..] + b;
      WithRoleAppend(a[1..], b, role);
    }
  }

  /** `filtered`: "All" shows everyone, any other choice the people with
      exactly that role. */
  function Filtered(people: seq<Person>, filter: string): (r: seq<Person>)
    ensures filter == AllRoles ==> r == people
    ensures filter != AllRoles ==> forall i :: 0 <= i < |r| ==> r[i].role == filter
    ensures filter != AllRoles ==> forall x :: x in people && x.role == filter ==> x in r
    ensures forall x :: x in r ==> x in people
  {
    if filter == AllRoles then people
    else
      WithRoleCount(people, filter);
      WithRole(people, filter)
  }

  /** The "No people found" message shows when nothing passes the filter. */
  predicate ShowsEmptyMessage(people: seq<Person>, filter: string) {
    |Filtered(people, filter)| == 0
  }

  /** A role filter leaves the list empty exactly when nobody has that role. */
  lemma EmptyIffNoMatch(people: seq<Person>, filter: string)
    requires filter != AllRoles
    ensures ShowsEmptyMessage(people, filter) <==> forall i :: 0 <= i < |people| ==> people[i].role != filter
  {
    if !ShowsEmptyMessage(people, filter) {
      var x := Filtered(people, filter)[0];
      assert x in Filtered(people, filter);
    } else {
      WithRoleCount(people, filter);
      forall i | 0 <= i < |people| ensures people[i].role != filter {
        assert multiset(WithRole(people, filter))[people[i]] == 0;
      }
    }
  }

  /** Each option of the select shows at least one of the listed people; only
      a role nobody has, which the select does not offer, shows the message. */
  lemma EveryOptionShowsSomeone()
    ensures forall f :: f in FilterOptions ==> !ShowsEmptyMessage(PeopleData, f)
    ensures ShowsEmptyMessage(PeopleData, "Nurse")
  {
    forall f | f in FilterOptions ensures !ShowsEmptyMessage(PeopleData, f) {
      if f != AllRoles {
        var i :| 1 <= i < |FilterOptions| && FilterOptions[i] == f;
        assert PeopleData[i - 1].role == f;
        assert PeopleData[i - 1] in Filtered(PeopleData, f);
      }
    }
    EmptyIffNoMatch(PeopleData, "Nurse");
  }
}

=== FILE: persons.dfy ===
/** The person routes over the global `user` table: paged listing, creation
    of invited users with unique emails, lookup and name updates. */
module Persons {
  import opened Common
  import Listing

  datatype UserStatus = Active | Suspended | Invited | Archived {
    function Value(): string {
      match this
      case Active => "active"
      case Suspended => "suspended"
      case Invited => "invited"
      case Archived => "archived"
    }
  }

  /** A row of the `user` table, reduced to the fields these routes touch.
      The email is the validated address, as an opaque string. */
  datatype User = User(
    email: string,
    firstName: string,
    lastName: string,
    displayName: Option<string>,
    status: UserStatus,
    createdAt: int)

  /** A `PersonCreate` payload. */
  datatype PersonCreate = PersonCreate(email: string, firstName: string, lastName: string, displayName: Option<string>)

  /** A `PersonUpdate` payload: the three name fields, each nullable. */
  datatype PersonUpdate = PersonUpdate(firstName: Option<string>, lastName: Option<string>, displayName: Option<string>)

  const MaxPageSize := 100
  const DefaultLimit := 50
  const DefaultOffset := 0
  const NotFoundDetail := "Person not found"
  const DuplicateEmailDetail := "A user with this email already exists."

  /** The query-parameter bounds of `list_persons`. */
  predicate PageParamsValid(limit: int, offset: int) {
    1 <= limit <= MaxPageSize && 0 <= offset
  }

  /** Newest first. */
  predicate NewestFirst(a: User, b: User) {
    a.createdAt >= b.createdAt
  }

  /** Every user; `list_persons` has no filter. */
  predicate AnyUser(u: User) {
    true
  }

  /** `list_persons`: the users newest first, skipping `offset` of them and
      returning at most `limit`. A missing parameter takes its default (50
      and 0); a parameter out of bounds is rejected with 422. `ordered` is
      the whole ordered listing the page is cut from. */
  method ListPersons(table: map<Id, User>, limit: Option<int>, offset: Option<int>)
    returns (r: Result<seq<(Id, User)>>, ghost ordered: seq<(Id, User)>)
    ensures r.Ok? <==> PageParamsValid(Patch(DefaultLimit, limit), Patch(DefaultOffset, offset))
    ensures r.Err? ==> r.error.Code() == 422
    ensures r.Ok? ==>
      var lim := Patch(DefaultLimit, limit);
      var off := Patch(DefaultOffset, offset);
      && Listing.IsQueryResult(table, AnyUser, NewestFirst, ordered)
      && |r.value| == (if off >= |table| then 0 else if off + lim <= |table| then lim else |table| - off)
      && r.value == ordered[(if off >= |ordered| then |ordered| else off)..(if off + lim >= |ordered| then |ordered| else off + lim)]
  {
    var lim := Patch(DefaultLimit, limit);
    var off := Patch(DefaultOffset, offset);
    ordered := [];
    if !PageParamsValid(lim, off) {
      return Err(Unprocessable("limit/offset out of range")), ordered;
    }
    var all := Listing.Query(table, AnyUser, NewestFirst);
    ordered := all;
    Listing.UnfilteredQuerySize(table, AnyUser, NewestFirst, all);
    var lo := if off >= |all| then |all| else off;
    var hi := if off + lim >= |all| then |all| else off + lim;
    r := Ok(all[lo..hi]);
  }

  /** Some user already has the email. */
  predicate EmailTaken(table: map<Id, User>, email: string) {
    exists k :: k in table && table[k].email == email
  }

  /** No two users share an email (the unique index on `user.email`). */
  ghost predicate UniqueEmails(table: map<Id, User>) {
    forall a, b :: a in table && b in table && table[a].email == table[b].email ==> a == b
  }

  /** `create_person`: 409 when the email is taken; otherwise a new user with
      status invited. */
  function CreatePerson(table: map<Id, User>, p: PersonCreate, ctx: Ctx): (r: Result<Saved<User>>)
    requires ctx.newId !in table
    ensures r.Err? <==> exists k :: k in table && table[k].email == p.email
    ensures r.Err? ==> r.error == Conflict(DuplicateEmailDetail)
    ensures r.Ok? ==> r.value.id == ctx.newId && r.value.table == table[ctx.newId := r.value.row]
    ensures r.Ok? ==> r.value.row == User(p.email, p.firstName, p.lastName, p.displayName, Invited, ctx.now)
  {
    if EmailTaken(table, p.email) then Err(Conflict(DuplicateEmailDetail))
    else
      var user := User(p.email, p.firstName, p.lastName, p.displayName, Invited, ctx.now);
      Ok(Saved(table[ctx.newId := user], ctx.newId, user))
  }

  /** `get_person`. */
  function GetPerson(table: map<Id, User>, id: Id): (r: Result<User>)
    ensures r.Ok? <==> id in table
    ensures r.Ok? ==> r.value == table[id]
    ensures r.Err? ==> r.error == NotFound(NotFoundDetail)
  {
    Fetch(table, id, "Person")
  }

  /** `update_person`: copies each non-null name field; email, status and
      creation time never change. */
  function UpdatePerson(table: map<Id, User>, id: Id, p: PersonUpdate): (r: Result<Saved<User>>)
    ensures r.Ok? <==> id in table
    ensures r.Err? ==> r.error == NotFound(NotFoundDetail)
    ensures r.Ok? ==> r.value.id == id && r.value.table == table[id := r.value.row]
    ensures r.Ok? ==>
      && r.value.row.email == table[id].email
      && r.value.row.status == table[id].status
      && r.value.row.createdAt == table[id].createdAt
      && r.value.row.firstName == Patch(table[id].firstName, p.firstName)
      && r.value.row.lastName == Patch(table[id].lastName, p.lastName)
      && r.value.row.displayName == (if p.displayName.Some? then p.displayName else table[id].displayName)
  {
    match Fetch(table, id, "Person")
    case Err(e) => Err(e)
    case Ok(u) =>
      var row := u.(
        firstName := Patch(u.firstName, p.firstName),
        lastName := Patch(u.lastName, p.lastName),
        displayName := Patch(u.displayName, OptionOf(p.displayName)));
      Ok(Saved(table[id := row], id, row))
  }

  /** Creating a person keeps emails unique. */
  lemma CreateKeepsUniqueEmails(table: map<Id, User>, p: PersonCreate, ctx: Ctx)
    requires ctx.newId !in table
    requires UniqueEmails(table)
    requires CreatePerson(table, p, ctx).Ok?
    ensures UniqueEmails(CreatePerson(table, p, ctx).value.table)
  {
    var t := CreatePerson(table, p, ctx).value.table;
    forall a, b | a in t && b in t && t[a].email == t[b].email
      ensures a == b
    {
      if a != ctx.newId && b != ctx.newId {
        assert t[a] == table[a] && t[b] == table[b];
      } else if a != ctx.newId {
        assert t[a] == table[a];
      }
    }
  }

  /** Updating a person keeps emails unique. */
  lemma UpdateKeepsUniqueEmails(table: map<Id, User>, id: Id, p: PersonUpdate)
    requires UniqueEmails(table)
    requires UpdatePerson(table, id, p).Ok?
    ensures UniqueEmails(UpdatePerson(table, id, p).value.table)
  {
    var t := UpdatePerson(table, id, p).value.table;
    forall a, b | a in t && b in t && t[a].email == t[b].email
      ensures a == b
    {
      assert table[a].email == t[a].email && table[b].email == t[b].email;
    }
  }
}

=== FILE: task_schema.dfy ===
/** Task request schemas and the `task` table row. A task is scoped either to
    a visit or to a 24/7 assignment (the routes enforce which). */
module TaskSchema {
  import opened Common

  datatype TaskCategory = Adl | Medication | Exercise | Household | Other {
    function Value(): string {
      match this
      case Adl => "adl"
      case Medication => "medication"
      case Exercise => "exercise"
      case Household => "household"
      case Other => "other"
    }
  }

  datatype TaskStatus = Pending | Completed | Skipped | Declined {
    function Value(): string {
      match this
      case Pending => "pending"
      case Completed => "completed"
      case Skipped => "skipped"
      case Declined => "declined"
    }
  }

  /** Enum coercion of a `category` string. */
  function ParseTaskCategory(s: string): (r: Option<TaskCategory>)
    ensures r.Some? <==> s in {"adl", "medication", "exercise", "household", "other"}
    ensures r.Some? ==> r.value.Value() == s
    ensures forall c: TaskCategory :: c.Value() == s ==> r == Some(c)
  {
    if s == "adl" then Some(Adl)
    else if s == "medication" then Some(Medication)
    else if s == "exercise" then Some(Exercise)
    else if s == "household" then Some(Household)
    else if s == "other" then Some(Other)
    else None
  }

  /** Enum coercion of a `status` string. */
  function ParseTaskStatus(s: string): (r: Option<TaskStatus>)
    ensures r.Some? <==> s in {"pending", "completed", "skipped", "declined"}
    ensures r.Some? ==> r.value.Value() == s
    ensures forall t: TaskStatus :: t.Value() == s ==> r == Some(t)
  {
    if s == "pending" then Some(Pending)
    else if s == "completed" then Some(Completed)
    else if s == "skipped" then Some(Skipped)
    else if s == "declined" then Some(Declined)
    else None
  }

  /** A row of the `task` table. Dates and times are integers. */
  datatype Task = Task(
    organizationId: Id,
    careRecipientId: Id,
    carePlanId: Option<Id>,
    visitId: Option<Id>,
    assignmentId: Option<Id>,
    taskDate: int,
    title: string,
    description: Option<string>,
    category: Option<TaskCategory>,
    frequency: Option<string>,
    status: TaskStatus,
    completedAt: Option<int>,
    completedById: Option<Id>,
    notes: Option<string>,
    sortOrder: Option<int>)

  /** A create body before validation: enums are raw strings, `status` may be absent. */
  datatype TaskCreateBody = TaskCreateBody(
    organizationId: Id,
    careRecipientId: Id,
    carePlanId: Option<Id>,
    visitId: Option<Id>,
    assignmentId: Option<Id>,
    taskDate: int,
    title: string,
    description: Option<string>,
    category: Option<string>,
    frequency: Option<string>,
    notes: Option<string>,
    sortOrder: Option<int>,
    status: Option<string>)

  /** A validated `TaskCreate` payload. */
  datatype TaskCreate = TaskCreate(
    organizationId: Id,
    careRecipientId: Id,
    carePlanId: Option<Id>,
    visitId: Option<Id>,
    assignmentId: Option<Id>,
    taskDate: int,
    title: string,
    description: Option<string>,
    category: Option<TaskCategory>,
    frequency: Option<string>,
    notes: Option<string>,
    sortOrder: Option<int>,
    status: TaskStatus)

  /** A `TaskUpdate` payload: every field may be null, meaning "leave as is". */
  datatype TaskUpdate = TaskUpdate(
    carePlanId: Option<Id>,
    visitId: Option<Id>,
    assignmentId: Option<Id>,
    taskDate: Option<int>,
    title: Option<string>,
    description: Option<string>,
    category: Option<TaskCategory>,
    frequency: Option<string>,
    status: Option<TaskStatus>,
    notes: Option<string>,
    sortOrder: Option<int>)

  /** An update body before enum coercion. */
  datatype TaskUpdateBody = TaskUpdateBody(
    carePlanId: Option<Id>,
    visitId: Option<Id>,
    assignmentId: Option<Id>,
    taskDate: Option<int>,
    title: Option<string>,
    description: Option<string>,
    category: Option<string>,
    frequency: Option<string>,
    status: Option<string>,
    notes: Option<string>,
    sortOrder: Option<int>)

  const MaxTitleLength := 200
  const MaxDescriptionLength := 1000
  const MaxNotesLength := 500

  /** The default of `TaskCreate.status`. */
  const DefaultTaskStatus := Pending

  /** A nullable string within a `max_length` bound (null always passes). */
  predicate WithinLength(s: Option<string>, max: nat) {
    s.None? || |s.value| <= max
  }

  /** `t` is what Pydantic builds from `b`: every plain field as given, a
      present category the member whose value is the body's string, and the
      default status when the body has none. */
  ghost predicate CarriesCreateBody(b: TaskCreateBody, t: TaskCreate) {
    && t.organizationId == b.organizationId
    && t.careRecipientId == b.careRecipientId
    && t.carePlanId == b.carePlanId
    && t.visitId == b.visitId
    && t.assignmentId == b.assignmentId
    && t.taskDate == b.taskDate
    && t.title == b.title
    && t.description == b.description
    && (t.category.None? <==> b.category.None?)
    && (t.category.Some? ==> t.category.value.Value() == b.category.value)
    && t.frequency == b.frequency
    && t.notes == b.notes
    && t.sortOrder == b.sortOrder
    && (if b.status.None? then t.status == DefaultTaskStatus else t.status.Value() == b.status.value)
  }

  /** Validation of a create body: length bounds on title, description and
      notes, enum coercion, and the status default. */
  function ParseTaskCreate(b: TaskCreateBody): (r: Result<TaskCreate>)
    ensures r.Ok? <==>
      && |b.title| <= 200
      && (b.description.None? || |b.description.value| <= 1000)
      && (b.notes.None? || |b.notes.value| <= 500)
      && (b.category.None? || ParseTaskCategory(b.category.value).Some?)
      && (b.status.None? || ParseTaskStatus(b.status.value).Some?)
    ensures r.Err? ==> r.error.Code() == 422
    ensures r.Ok? && b.status.None? ==> r.value.status == Pending
    ensures r.Ok? && b.status.Some? ==> r.value.status.Value() == b.status.value
    ensures r.Ok? ==> (r.value.category.None? <==> b.category.None?)
    ensures r.Ok? ==> r.value.title == b.title && r.value.visitId == b.visitId && r.value.assignmentId == b.assignmentId
    ensures r.Ok? ==> CarriesCreateBody(b, r.value)
  {
    if |b.title| > MaxTitleLength then Err(Unprocessable("title: string too long"))
    else if !WithinLength(b.description, MaxDescriptionLength) then Err(Unprocessable("description: string too long"))
    else if !WithinLength(b.notes, MaxNotesLength) then Err(Unprocessable("notes: string too long"))
    else
      var category := if b.category.None? then Some(None)
        else if ParseTaskCategory(b.category.value).Some? then Some(ParseTaskCategory(b.category.value))
        else None;
      var status := if b.status.None? then Some(DefaultTaskStatus) else ParseTaskStatus(b.status.value);
      if category.None? then Err(Unprocessable("category: not a valid enumeration member"))
      else if status.None? then Err(Unprocessable("status: not a valid enumeration member"))
      else
        Ok(TaskCreate(
          b.organizationId, b.careRecipientId, b.carePlanId, b.visitId, b.assignmentId,
          b.taskDate, b.title, b.description, category.value, b.frequency, b.notes,
          b.sortOrder, status.value))
  }

  /** `u` is what Pydantic builds from `b`: every field as given, null where
      the body has null, and each present enum the member whose value is the
      body's string. */
  ghost predicate CarriesUpdateBody(b: TaskUpdateBody, u: TaskUpdate) {
    && u.carePlanId == b.carePlanId
    && u.visitId == b.visitId
    && u.assignmentId == b.assignmentId
    && u.taskDate == b.taskDate
    && u.title == b.title
    && u.description == b.description
    && (u.category.None? <==> b.category.None?)
    && (u.category.Some? ==> u.category.value.Value() == b.category.value)
    && u.frequency == b.frequency
    && (u.status.None? <==> b.status.None?)
    && (u.status.Some? ==> u.status.value.Value() == b.status.value)
    && u.notes == b.notes
    && u.sortOrder == b.sortOrder
  }

  /** Validation of an update body: enum coercion only. `TaskUpdate` declares
      no length bounds, so strings of any length pass. */
  function ParseTaskUpdate(b: TaskUpdateBody): (r: Result<TaskUpdate>)
    ensures r.Ok? <==>
      && (b.category.None? || ParseTaskCategory(b.category.value).Some?)
      && (b.status.None? || ParseTaskStatus(b.status.value).Some?)
    ensures r.Err? ==> r.error.Code() == 422
    ensures r.Ok? ==> r.value.title == b.title && r.value.description == b.description && r.value.notes == b.notes
    ensures r.Ok? ==> (r.value.status.None? <==> b.status.None?)
    ensures r.Ok? && b.status.Some? ==> r.value.status.value.Value() == b.status.value
    ensures r.Ok? ==> CarriesUpdateBody(b, r.value)
  {
    var category := if b.category.None? then Some(None)
      else if ParseTaskCategory(b.category.value).Some? then Some(ParseTaskCategory(b.category.value))
      else None;
    var status := if b.status.None? then Some(None)
      else if ParseTaskStatus(b.status.value).Some? then Some(ParseTaskStatus(b.status.value))
      else None;
    if category.None? then Err(Unprocessable("category: not a valid enumeration member"))
    else if status.None? then Err(Unprocessable("status: not a valid enumeration member"))
    else
      Ok(TaskUpdate(
        b.carePlanId, b.visitId, b.assignmentId, b.taskDate, b.title, b.description,
        category.value, b.frequency, status.value, b.notes, b.sortOrder))
  }
}

=== FILE: tasks.dfy ===
/** The task routes: scope checking (a visit or a 24/7 assignment, exactly
    one), creation, partial update with completion stamping, and listing. */
module Tasks {
  import opened Common
  import opened TaskSchema
  import Listing

  const BothScopesDetail := "Task must be either visit-scoped or 24x7-scoped, not both."
  const NoScopeDetail := "Task must be associated with a visit or a 24x7 assignment."
  const UnstampedDetail := "Completed tasks must have completed_at and completed_by_id set."

  /** `_validate_scope`: exactly one of the two scope keys must be set. */
  function ValidateScope(visitId: Option<Id>, assignmentId: Option<Id>): (r: Outcome)
    ensures r.Pass? <==> (visitId.Some? <==> assignmentId.None?)
    ensures visitId.Some? && assignmentId.Some? ==> r == Fail(BadRequest(BothScopesDetail))
    ensures visitId.None? && assignmentId.None? ==> r == Fail(BadRequest(NoScopeDetail))
  {
    if visitId.Some? && assignmentId.Some? then Fail(BadRequest(BothScopesDetail))
    else if visitId.None? && assignmentId.None? then Fail(BadRequest(NoScopeDetail))
    else Pass
  }

  /** A task with status completed carries both completion fields. */
  predicate Stamped(t: Task) {
    t.status == Completed ==> t.completedAt.Some? && t.completedById.Some?
  }

  /** `t` carries every column of the create payload `p`. */
  ghost predicate CarriesTaskPayload(t: Task, p: TaskCreate) {
    && t.organizationId == p.organizationId && t.careRecipientId == p.careRecipientId
    && t.carePlanId == p.carePlanId && t.visitId == p.visitId && t.assignmentId == p.assignmentId
    && t.taskDate == p.taskDate && t.title == p.title && t.description == p.description
    && t.category == p.category && t.frequency == p.frequency && t.status == p.status
    && t.notes == p.notes && t.sortOrder == p.sortOrder
  }

  /** `create_task`: checks the scope, then stores the payload with both
      completion fields null, whatever the payload's status. */
  function CreateTask(table: map<Id, Task>, p: TaskCreate, ctx: Ctx): (r: Result<Saved<Task>>)
    requires ctx.newId !in table
    ensures r.Ok? <==> (p.visitId.Some? <==> p.assignmentId.None?)
    ensures r.Err? ==> r.error.Code() == 400
    ensures r.Ok? ==> r.value.row.completedAt.None? && r.value.row.completedById.None?
    ensures r.Ok? ==> CarriesTaskPayload(r.value.row, p)
    ensures r.Ok? ==> r.value.id == ctx.newId && r.value.table == table[ctx.newId := r.value.row]
  {
    match ValidateScope(p.visitId, p.assignmentId)
    case Fail(e) => Err(e)
    case Pass =>
      var t := Task(
        p.organizationId, p.careRecipientId, p.carePlanId, p.visitId, p.assignmentId,
        p.taskDate, p.title, p.description, p.category, p.frequency, p.status,
        None, None, p.notes, p.sortOrder);
      Ok(Saved(table[ctx.newId := t], ctx.newId, t))
  }

  /** `t'` carries exactly the non-null non-status fields of `p` over `t`;
      owner and recipient are not patchable. */
  ghost predicate IsTaskPatch(t: Task, p: TaskUpdate, t': Task) {
    && t'.carePlanId == (if p.carePlanId.Some? then p.carePlanId else t.carePlanId)
    && t'.visitId == (if p.visitId.Some? then p.visitId else t.visitId)
    && t'.assignmentId == (if p.assignmentId.Some? then p.assignmentId else t.assignmentId)
    && t'.taskDate == (if p.taskDate.Some? then p.taskDate.value else t.taskDate)
    && t'.title == (if p.title.Some? then p.title.value else t.title)
    && t'.description == (if p.description.Some? then p.description else t.description)
    && t'.category == (if p.category.Some? then p.category else t.category)
    && t'.frequency == (if p.frequency.Some? then p.frequency else t.frequency)
    && t'.notes == (if p.notes.Some? then p.notes else t.notes)
    && t'.sortOrder == (if p.sortOrder.Some? then p.sortOrder else t.sortOrder)
    && t'.organizationId == t.organizationId
    && t'.careRecipientId == t.careRecipientId
  }

  /** The plain field assignments of `update_task`, applied as two halves
      (the scope and schedule columns, then the descriptive ones). */
  function ApplyTaskFields(t: Task, p: TaskUpdate): (r: Task)
    ensures IsTaskPatch(t, p, r)
    ensures r.status == t.status && r.completedAt == t.completedAt && r.completedById == t.completedById
  {
    ApplyTaskText(ApplyTaskSchedule(t, p), p)
  }

  function ApplyTaskSchedule(t: Task, p: TaskUpdate): (r: Task)
    ensures r == t.(carePlanId := r.carePlanId, visitId := r.visitId, assignmentId := r.assignmentId,
                    taskDate := r.taskDate, sortOrder := r.sortOrder)
    ensures r.carePlanId == (if p.carePlanId.Some? then p.carePlanId else t.carePlanId)
    ensures r.visitId == (if p.visitId.Some? then p.visitId else t.visitId)
    ensures r.assignmentId == (if p.assignmentId.Some? then p.assignmentId else t.assignmentId)
    ensures r.taskDate == (if p.taskDate.Some? then p.taskDate.value else t.taskDate)
    ensures r.sortOrder == (if p.sortOrder.Some? then p.sortOrder else t.sortOrder)
  {
    t.(carePlanId := if p.carePlanId.Some? then p.carePlanId else t.carePlanId,
       visitId := if p.visitId.Some? then p.visitId else t.visitId,
       assignmentId := if p.assignmentId.Some? then p.assignmentId else t.assignmentId,
       taskDate := Patch(t.taskDate, p.taskDate),
       sortOrder := if p.sortOrder.Some? then p.sortOrder else t.sortOrder)
  }

  function ApplyTaskText(t: Task, p: TaskUpdate): (r: Task)
    ensures r == t.(title := r.title, description := r.description, category := r.category,
                    frequency := r.frequency, notes := r.notes)
    ensures r.title == (if p.title.Some? then p.title.value else t.title)
    ensures r.description == (if p.description.Some? then p.description else t.description)
    ensures r.category == (if p.category.Some? then p.category else t.category)
    ensures r.frequency == (if p.frequency.Some? then p.frequency else t.frequency)
    ensures r.notes == (if p.notes.Some? then p.notes else t.notes)
  {
    t.(title := Patch(t.title, p.title),
       description := Patch(t.description, OptionOf(p.description)),
       category := if p.category.Some? then p.category else t.category,
       frequency := Patch(t.frequency, OptionOf(p.frequency)),
       notes := Patch(t.notes, OptionOf(p.notes)))
  }

  /** Every column other than the status and the two completion columns agrees. */
  ghost predicate SameDetails(a: Task, b: Task) {
    && a.organizationId == b.organizationId && a.careRecipientId == b.careRecipientId
    && a.carePlanId == b.carePlanId && a.visitId == b.visitId && a.assignmentId == b.assignmentId
    && a.taskDate == b.taskDate && a.title == b.title && a.description == b.description
    && a.category == b.category && a.frequency == b.frequency && a.notes == b.notes
    && a.sortOrder == b.sortOrder
  }

  /** The status handling of `update_task`: a patch to completed fills each
      completion field that is still null (time from the clock, author from
      the current user); any other status leaves them as they are. */
  function ApplyTaskStatus(t: Task, status: Option<TaskStatus>, ctx: Ctx): (r: Task)
    ensures SameDetails(t, r)
    ensures r.status == Patch(t.status, status)
    ensures status != Some(Completed) ==> r.completedAt == t.completedAt && r.completedById == t.completedById
    ensures status == Some(Completed) ==>
      && r.completedAt == (if t.completedAt.Some? then t.completedAt else Some(ctx.now))
      && r.completedById == (if t.completedById.Some? then t.completedById else Some(ctx.userId))
    ensures status == Some(Completed) ==> r.completedAt.Some? && r.completedById.Some?
  {
    match status
    case None => t
    case Some(Completed) =>
      t.(status := Completed,
         completedAt := if t.completedAt.None? then Some(ctx.now) else t.completedAt,
         completedById := if t.completedById.None? then Some(ctx.userId) else t.completedById)
    case Some(s) => t.(status := s)
  }

  /** A row that differs from a patched row only in its status columns is
      still that patch. */
  lemma PatchKeepsDetails(t: Task, p: TaskUpdate, f: Task, t': Task)
    requires IsTaskPatch(t, p, f) && SameDetails(f, t')
    ensures IsTaskPatch(t, p, t')
  {
  }

  /** `update_task`: applies the patch, then re-checks the scope and the
      completion stamp on the patched row; 400 if either fails. */
  function UpdateTask(table: map<Id, Task>, id: Id, p: TaskUpdate, ctx: Ctx): (r: Result<Saved<Task>>)
    ensures id !in table ==> r == Err(NotFound("Task not found"))
    ensures id in table ==> (r.Ok? <==>
      && ((p.visitId.Some? || table[id].visitId.Some?) <==> (p.assignmentId.None? && table[id].assignmentId.None?))
      && (p.status.None? ==> Stamped(table[id])))
    ensures id in table && r.Err? ==> r.error.Code() == 400
    ensures r.Ok? ==> IsTaskPatch(table[id], p, r.value.row)
    ensures r.Ok? ==> r.value.row.status == Patch(table[id].status, p.status)
    ensures r.Ok? ==> Stamped(r.value.row)
    ensures r.Ok? && p.status == Some(Completed) ==>
      && r.value.row.completedAt == (if table[id].completedAt.Some? then table[id].completedAt else Some(ctx.now))
      && r.value.row.completedById == (if table[id].completedById.Some? then table[id].completedById else Some(ctx.userId))
    ensures r.Ok? && p.status != Some(Completed) ==>
      r.value.row.completedAt == table[id].completedAt && r.value.row.completedById == table[id].completedById
    ensures r.Ok? ==> r.value.id == id && r.value.table == table[id := r.value.row]
  {
    if id !in table then Err(NotFound("Task not found"))
    else
      var f := ApplyTaskFields(table[id], p);
      var t := ApplyTaskStatus(f, p.status, ctx);
      PatchKeepsDetails(table[id], p, f, t);
      match ValidateScope(t.visitId, t.assignmentId)
      case Fail(e) => Err(e)
      case Pass =>
        if t.status == Completed && (t.completedAt.None? || t.completedById.None?) then
          Err(BadRequest(UnstampedDetail))
        else Ok(Saved(table[id := t], id, t))
  }

  /** A patch can set a scope key but not clear it, so giving an already
      scoped task the other scope key is rejected with 400 and nothing changes. */
  lemma SecondScopeRejected(table: map<Id, Task>, id: Id, p: TaskUpdate, ctx: Ctx)
    requires id in table
    requires (table[id].visitId.Some? && p.assignmentId.Some?) || (table[id].assignmentId.Some? && p.visitId.Some?)
    ensures UpdateTask(table, id, p, ctx) == Err(BadRequest(BothScopesDetail))
  {
  }

  /** A task created with status completed has no completion stamp, and every
      later patch that leaves the status alone is rejected until one sets it. */
  lemma CreatedCompletedTaskBlocksPatches(table: map<Id, Task>, c: TaskCreate, ctx: Ctx, p: TaskUpdate, ctx2: Ctx)
    requires ctx.newId !in table
    requires c.status == Completed
    requires CreateTask(table, c, ctx).Ok?
    requires p.status.None? && p.visitId.None? && p.assignmentId.None?
    ensures !Stamped(CreateTask(table, c, ctx).value.row)
    ensures UpdateTask(CreateTask(table, c, ctx).value.table, ctx.newId, p, ctx2) == Err(BadRequest(UnstampedDetail))
  {
    var s := CreateTask(table, c, ctx).value;
    assert s.table[ctx.newId] == s.row;
  }

  ghost predicate AllStamped(table: map<Id, Task>) {
    forall k :: k in table ==> Stamped(table[k])
  }

  /** The update route keeps every completed task stamped; the create route
      does not (see `CreatedCompletedTaskBlocksPatches`). */
  lemma UpdateTaskKeepsStamps(table: map<Id, Task>, id: Id, p: TaskUpdate, ctx: Ctx)
    requires AllStamped(table)
    requires UpdateTask(table, id, p, ctx).Ok?
    ensures AllStamped(UpdateTask(table, id, p, ctx).value.table)
  {
  }

  /** `sort_order` ascending with nulls last. */
  predicate SortOrderLe(a: Option<int>, b: Option<int>) {
    match (a, b)
    case (Some(x), Some(y)) => x <= y
    case (Some(_), None) => true
    case (None, None) => true
    case (None, Some(_)) => false
  }

  /** The ORDER BY of `list_tasks`: task date, then sort order with nulls last. */
  predicate TaskOrder(a: Task, b: Task) {
    a.taskDate < b.taskDate || (a.taskDate == b.taskDate && SortOrderLe(a.sortOrder, b.sortOrder))
  }

  lemma TaskOrderIsTotalPreorder()
    ensures Listing.TotalPreorder(TaskOrder)
  {
    forall a: Task, b: Task, c: Task | TaskOrder(a, b) && TaskOrder(b, c)
      ensures TaskOrder(a, c)
    {
    }
  }

  /** The filters of `list_tasks`: the current organization and each
      filter that is given. */
  predicate ListedTask(t: Task, orgId: Id, careRecipientId: Option<Id>, visitId: Option<Id>, assignmentId: Option<Id>) {
    && t.organizationId == orgId
    && (careRecipientId.None? || t.careRecipientId == careRecipientId.value)
    && (visitId.None? || t.visitId == visitId)
    && (assignmentId.None? || t.assignmentId == assignmentId)
  }

  /** `list_tasks`: the organization's tasks matching every given filter,
      ordered by date, then by sort order with unordered tasks last. */
  method ListTasks(table: map<Id, Task>, orgId: Id, careRecipientId: Option<Id>, visitId: Option<Id>, assignmentId: Option<Id>)
    returns (rows: seq<(Id, Task)>)
    ensures forall i :: 0 <= i < |rows| ==>
      rows[i].0 in table && table[rows[i].0] == rows[i].1 && ListedTask(rows[i].1, orgId, careRecipientId, visitId, assignmentId)
    ensures forall k :: k in table && ListedTask(table[k], orgId, careRecipientId, visitId, assignmentId) ==> k in Listing.Ids(rows)
    ensures forall i, j :: 0 <= i < j < |rows| ==> rows[i].0 != rows[j].0
    ensures forall i, j :: 0 <= i < j < |rows| ==> rows[i].1.taskDate <= rows[j].1.taskDate
    ensures forall i, j :: 0 <= i < j < |rows| && rows[i].1.taskDate == rows[j].1.taskDate ==>
      SortOrderLe(rows[i].1.sortOrder, rows[j].1.sortOrder)
  {
    TaskOrderIsTotalPreorder();
    rows := Listing.Query(table, (t: Task) => ListedTask(t, orgId, careRecipientId, visitId, assignmentId), TaskOrder);
  }
}

=== FILE: visit_in_progress.dfy ===
/** The visit-in-progress page: the checklist of tasks and its toggle. */
module VisitInProgress {

  datatype TaskItem = TaskItem(id: int, name: string, done: bool)

  /** The checklist the page starts with. */
  const InitialTasks: seq<TaskItem> := [
    TaskItem(1, "Morning hygiene", false),
    TaskItem(2, "Medication - 9AM", false)
  ]

  /** `toggleTask(id)`: every task with that id flips its done flag; every
      other task, and the order, stay as they were. */
  function ToggleTask(tasks: seq<TaskItem>, id: int): (r: seq<TaskItem>)
    ensures |r| == |tasks|
    ensures forall i :: 0 <= i < |r| ==> r[i].id == tasks[i].id && r[i].name == tasks[i].name
    ensures forall i :: 0 <= i < |r| ==> r[i].done == (if tasks[i].id == id then !tasks[i].done else tasks[i].done)
  {
    if tasks == [] then []
    else
      var t := tasks[0];
      var rest := ToggleTask(tasks[1..], id);
      var r := [if t.id == id then t.(done := !t.done) else t] + rest;
      assert forall i :: 1 <= i < |r| ==> r[i] == rest[i - 1] && tasks[i] == tasks[1..][i - 1];
      r
  }

  /** Toggling the same id twice restores the checklist. */
  lemma {:induction false} ToggleTwice(tasks: seq<TaskItem>, id: int)
    ensures ToggleTask(ToggleTask(tasks, id), id) == tasks
  {
    var r := ToggleTask(ToggleTask(tasks, id), id);
    assert forall i :: 0 <= i < |tasks| ==> r[i] == tasks[i];
  }

  /** Toggling an id no task has changes nothing. */
  lemma {:induction false} ToggleAbsent(tasks: seq<TaskItem>, id: int)
    requires forall i :: 0 <= i < |tasks| ==> tasks[i].id != id
    ensures ToggleTask(tasks, id) == tasks
  {
    var r := ToggleTask(tasks, id);
    assert forall i :: 0 <= i < |tasks| ==> r[i] == tasks[i];
  }

  /** When ids are distinct, a toggle flips exactly one task: the one it
      names. */
  lemma ToggleChangesOneTask(tasks: seq<TaskItem>, k: nat)
    requires k < |tasks|
    requires forall i, j :: 0 <= i < j < |tasks| ==> tasks[i].id != tasks[j].id
    ensures var r := ToggleTask(tasks, tasks[k].id);
      && r[k].done == !tasks[k].done
      && forall i :: 0 <= i < |tasks| && i != k ==> r[i] == tasks[i]
  {
    var r := ToggleTask(tasks, tasks[k].id);
    forall i | 0 <= i < |tasks| && i != k ensures r[i] == tasks[i] {
      assert tasks[i].id != tasks[k].id;
    }
  }
}

=== FILE: visit_notes.dfy ===
/** The visit note routes: one note per visit, written by a caregiver. */
module VisitNotes {
  import opened Common
  import Listing

  /** A row of the `visit_note` table. */
  datatype VisitNote = VisitNote(
    visitId: Id,
    authorId: Id,
    summary: Option<string>,
    mood: Option<string>,
    incidents: Option<string>,
    nextSteps: Option<string>,
    createdAt: int)

  /** A `VisitNoteCreate` payload; the author is a required field. */
  datatype VisitNoteCreate = VisitNoteCreate(
    visitId: Id,
    authorId: Id,
    summary: Option<string>,
    mood: Option<string>,
    incidents: Option<string>,
    nextSteps: Option<string>)

  /** A `VisitNoteUpdate` payload: the four text fields, each nullable. */
  datatype VisitNoteUpdate = VisitNoteUpdate(
    summary: Option<string>,
    mood: Option<string>,
    incidents: Option<string>,
    nextSteps: Option<string>)

  const NotFoundDetail := "Visit note not found"
  const DuplicateDetail := "A visit note already exists for this visit."

  /** Some note is already attached to the visit. */
  predicate HasNoteFor(table: map<Id, VisitNote>, visitId: Id) {
    exists k :: k in table && table[k].visitId == visitId
  }

  /** No two notes share a visit. */
  ghost predicate OneNotePerVisit(table: map<Id, VisitNote>) {
    forall a, b :: a in table && b in table && table[a].visitId == table[b].visitId ==> a == b
  }

  /** `get_visit_note`. */
  function GetVisitNote(table: map<Id, VisitNote>, id: Id): (r: Result<VisitNote>)
    ensures r.Ok? <==> id in table
    ensures r.Ok? ==> r.value == table[id]
    ensures r.Err? ==> r.error == NotFound(NotFoundDetail)
  {
    Fetch(table, id, "Visit note")
  }

  /** `create_visit_note`: 409 when the visit already has a note; otherwise
      stores the payload. The author is always the payload's, since the
      schema makes it required and a UUID is never falsy. */
  function CreateVisitNote(table: map<Id, VisitNote>, p: VisitNoteCreate, ctx: Ctx): (r: Result<Saved<VisitNote>>)
    requires ctx.newId !in table
    ensures r.Err? <==> exists k :: k in table && table[k].visitId == p.visitId
    ensures r.Err? ==> r.error == Conflict(DuplicateDetail) && r.error.Code() == 409
    ensures r.Ok? ==> r.value.id == ctx.newId && r.value.table == table[ctx.newId := r.value.row]
    ensures r.Ok? ==> r.value.row == VisitNote(p.visitId, p.authorId, p.summary, p.mood, p.incidents, p.nextSteps, ctx.now)
  {
    if HasNoteFor(table, p.visitId) then Err(Conflict(DuplicateDetail))
    else
      var note := VisitNote(p.visitId, p.authorId, p.summary, p.mood, p.incidents, p.nextSteps, ctx.now);
      Ok(Saved(table[ctx.newId := note], ctx.newId, note))
  }

  /** `update_visit_note`: copies each non-null text field; the visit and the
      author never change. */
  function UpdateVisitNote(table: map<Id, VisitNote>, id: Id, p: VisitNoteUpdate): (r: Result<Saved<VisitNote>>)
    ensures r.Ok? <==> id in table
    ensures r.Err? ==> r.error == NotFound(NotFoundDetail)
    ensures r.Ok? ==> r.value.id == id && r.value.table == table[id := r.value.row]
    ensures r.Ok? ==>
      && r.value.row.visitId == table[id].visitId
      && r.value.row.authorId == table[id].authorId
      && r.value.row.createdAt == table[id].createdAt
      && r.value.row.summary == (if p.summary.Some? then p.summary else table[id].summary)
      && r.value.row.mood == (if p.mood.Some? then p.mood else table[id].mood)
      && r.value.row.incidents == (if p.incidents.Some? then p.incidents else table[id].incidents)
      && r.value.row.nextSteps == (if p.nextSteps.Some? then p.nextSteps else table[id].nextSteps)
  {
    match Fetch(table, id, "Visit note")
    case Err(e) => Err(e)
    case Ok(note) =>
      var row := note.(
        summary := Patch(note.summary, OptionOf(p.summary)),
        mood := Patch(note.mood, OptionOf(p.mood)),
        incidents := Patch(note.incidents, OptionOf(p.incidents)),
        nextSteps := Patch(note.nextSteps, OptionOf(p.nextSteps)));
      Ok(Saved(table[id := row], id, row))
  }

  /** Creating a note keeps one note per visit. */
  lemma CreateKeepsOneNotePerVisit(table: map<Id, VisitNote>, p: VisitNoteCreate, ctx: Ctx)
    requires ctx.newId !in table
    requires OneNotePerVisit(table)
    requires CreateVisitNote(table, p, ctx).Ok?
    ensures OneNotePerVisit(CreateVisitNote(table, p, ctx).value.table)
  {
    var t := CreateVisitNote(table, p, ctx).value.table;
    forall a, b | a in t && b in t && t[a].visitId == t[b].visitId
      ensures a == b
    {
      if a != ctx.newId && b != ctx.newId {
        assert t[a] == table[a] && t[b] == table[b];
      } else if a != ctx.newId {
        assert t[a] == table[a];
      }
    }
  }

  /** Updating a note keeps one note per visit. */
  lemma UpdateKeepsOneNotePerVisit(table: map<Id, VisitNote>, id: Id, p: VisitNoteUpdate)
    requires OneNotePerVisit(table)
    requires UpdateVisitNote(table, id, p).Ok?
    ensures OneNotePerVisit(UpdateVisitNote(table, id, p).value.table)
  {
    var t := UpdateVisitNote(table, id, p).value.table;
    forall a, b | a in t && b in t && t[a].visitId == t[b].visitId
      ensures a == b
    {
      assert table[a].visitId == t[a].visitId && table[b].visitId == t[b].visitId;
    }
  }

  /** A second note for a visit is refused, whoever writes it. */
  lemma SecondNoteRefused(table: map<Id, VisitNote>, p: VisitNoteCreate, q: VisitNoteCreate, ctx: Ctx, ctx2: Ctx)
    requires ctx.newId !in table
    requires CreateVisitNote(table, p, ctx).Ok?
    requires ctx2.newId !in CreateVisitNote(table, p, ctx).value.table
    requires q.visitId == p.visitId
    ensures CreateVisitNote(CreateVisitNote(table, p, ctx).value.table, q, ctx2) == Err(Conflict(DuplicateDetail))
  {
    var t := CreateVisitNote(table, p, ctx).value.table;
    assert t[ctx.newId].visitId == q.visitId;
  }

  /** `list_visit_notes`: every note, newest first. */
  method ListVisitNotes(table: map<Id, VisitNote>) returns (rows: seq<(Id, VisitNote)>)
    ensures forall i :: 0 <= i < |rows| ==> rows[i].0 in table && table[rows[i].0] == rows[i].1
    ensures Listing.Ids(rows) == table.Keys
    ensures forall i, j :: 0 <= i < j < |rows| ==> rows[i].0 != rows[j].0
    ensures forall i, j :: 0 <= i < j < |rows| ==> rows[i].1.createdAt >= rows[j].1.createdAt
  {
    var newestFirst := (a: VisitNote, b: VisitNote) => a.createdAt >= b.createdAt;
    rows := Listing.Query(table, (n: VisitNote) => true, newestFirst);
  }
}

=== FILE: visit_schema.dfy ===
/** Visit request schemas and the `visit` table row.

    Pydantic turns a request body into a `VisitCreate` or `VisitUpdate`: enum
    fields must name one of the enum's values, `status` falls back to its
    default, and on create the time-window validator runs. A body that fails
    any of these is answered with 422 before the route runs. */
module VisitSchema {
  import opened Common

  datatype VisitType = PersonalCare | Nursing | Companionship | Respite | Other {
    /** The string stored in the `visit_type` column. */
    function Value(): string {
      match this
      case PersonalCare => "personal_care"
      case Nursing => "nursing"
      case Companionship => "companionship"
      case Respite => "respite"
      case Other => "other"
    }
  }

  datatype VisitStatus = Scheduled | InProgress | Completed | Cancelled | NoShow {
    /** The string stored in the `status` column. */
    function Value(): string {
      match this
      case Scheduled => "scheduled"
      case InProgress => "in_progress"
      case Completed => "completed"
      case Cancelled => "cancelled"
      case NoShow => "no_show"
    }
  }

  /** Enum coercion of a `visit_type` string. */
  function ParseVisitType(s: string): (r: Option<VisitType>)
    ensures r.Some? <==> s in {"personal_care", "nursing", "companionship", "respite", "other"}
    ensures r.Some? ==> r.value.Value() == s
    ensures forall t: VisitType :: t.Value() == s ==> r == Some(t)
  {
    if s == "personal_care" then Some(PersonalCare)
    else if s == "nursing" then Some(Nursing)
    else if s == "companionship" then Some(Companionship)
    else if s == "respite" then Some(Respite)
    else if s == "other" then Some(Other)
    else None
  }

  /** Enum coercion of a `status` string. */
  function ParseVisitStatus(s: string): (r: Option<VisitStatus>)
    ensures r.Some? <==> s in {"scheduled", "in_progress", "completed", "cancelled", "no_show"}
    ensures r.Some? ==> r.value.Value() == s
    ensures forall t: VisitStatus :: t.Value() == s ==> r == Some(t)
  {
    if s == "scheduled" then Some(Scheduled)
    else if s == "in_progress" then Some(InProgress)
    else if s == "completed" then Some(Completed)
    else if s == "cancelled" then Some(Cancelled)
    else if s == "no_show" then Some(NoShow)
    else None
  }

  /** A row of the `visit` table. Times are integer instants. */
  datatype Visit = Visit(
    organizationId: Id,
    careRecipientId: Id,
    assignedCaregiverId: Option<Id>,
    visitType: VisitType,
    scheduledStart: int,
    scheduledEnd: int,
    timezone: Option<string>,
    address: Address,
    recurrenceRule: Option<string>,
    parentVisitId: Option<Id>,
    status: VisitStatus,
    checkedInAt: Option<int>,
    checkedOutAt: Option<int>,
    notes: Option<string>,
    createdById: Option<Id>)

  /** A request body for creating a visit, before validation: enums are raw
      strings and `status` may be absent. */
  datatype VisitCreateBody = VisitCreateBody(
    organizationId: Id,
    careRecipientId: Id,
    assignedCaregiverId: Option<Id>,
    visitType: string,
    scheduledStart: int,
    scheduledEnd: int,
    timezone: Option<string>,
    address: Address,
    recurrenceRule: Option<string>,
    parentVisitId: Option<Id>,
    status: Option<string>,
    notes: Option<string>)

  /** A validated `VisitCreate` payload. */
  datatype VisitCreate = VisitCreate(
    organizationId: Id,
    careRecipientId: Id,
    assignedCaregiverId: Option<Id>,
    visitType: VisitType,
    scheduledStart: int,
    scheduledEnd: int,
    timezone: Option<string>,
    address: Address,
    recurrenceRule: Option<string>,
    parentVisitId: Option<Id>,
    status: VisitStatus,
    notes: Option<string>)

  /** A `VisitUpdate` payload: every field may be null, meaning "leave as is". */
  datatype VisitUpdate = VisitUpdate(
    assignedCaregiverId: Option<Id>,
    visitType: Option<VisitType>,
    scheduledStart: Option<int>,
    scheduledEnd: Option<int>,
    timezone: Option<string>,
    address: Address,
    recurrenceRule: Option<string>,
    parentVisitId: Option<Id>,
    status: Option<VisitStatus>,
    notes: Option<string>)

  /** A request body for a visit update, before enum coercion. */
  datatype VisitUpdateBody = VisitUpdateBody(
    assignedCaregiverId: Option<Id>,
    visitType: Option<string>,
    scheduledStart: Option<int>,
    scheduledEnd: Option<int>,
    timezone: Option<string>,
    address: Address,
    recurrenceRule: Option<string>,
    parentVisitId: Option<Id>,
    status: Option<string>,
    notes: Option<string>)

  const WindowDetail := "scheduled_end must be after scheduled_start"

  /** `VisitBase.validate_time_window`: the end must come strictly after the start. */
  function ValidateTimeWindow(start: int, end: int): (r: Outcome)
    ensures r.Pass? <==> start < end
    ensures r.Fail? ==> r.error.Code() == 422
  {
    if end <= start then Fail(Unprocessable(WindowDetail)) else Pass
  }

  /** The default of `VisitCreate.status`. */
  const DefaultVisitStatus := Scheduled

  /** `v` is what Pydantic builds from `b`: every plain field as given, each
      enum the member whose value is the body's string, and the default
      status when the body has none. */
  ghost predicate CarriesCreateBody(b: VisitCreateBody, v: VisitCreate) {
    && v.organizationId == b.organizationId
    && v.careRecipientId == b.careRecipientId
    && v.assignedCaregiverId == b.assignedCaregiverId
    && v.visitType.Value() == b.visitType
    && v.scheduledStart == b.scheduledStart
    && v.scheduledEnd == b.scheduledEnd
    && v.timezone == b.timezone
    && v.address == b.address
    && v.recurrenceRule == b.recurrenceRule
    && v.parentVisitId == b.parentVisitId
    && (if b.status.None? then v.status == DefaultVisitStatus else v.status.Value() == b.status.value)
    && v.notes == b.notes
  }

  /** Validation of a create body into a `VisitCreate`. */
  function ParseVisitCreate(b: VisitCreateBody): (r: Result<VisitCreate>)
    ensures r.Ok? <==>
      && ParseVisitType(b.visitType).Some?
      && (b.status.None? || ParseVisitStatus(b.status.value).Some?)
      && b.scheduledStart < b.scheduledEnd
    ensures r.Err? ==> r.error.Code() == 422
    ensures r.Ok? ==> r.value.visitType.Value() == b.visitType
    ensures r.Ok? && b.status.None? ==> r.value.status == Scheduled
    ensures r.Ok? && b.status.Some? ==> r.value.status.Value() == b.status.value
    ensures r.Ok? ==> r.value.scheduledStart == b.scheduledStart && r.value.scheduledEnd == b.scheduledEnd
    ensures r.Ok? ==> CarriesCreateBody(b, r.value)
  {
    match ParseVisitType(b.visitType)
    case None => Err(Unprocessable("visit_type: not a valid enumeration member"))
    case Some(vt) =>
      var st := if b.status.None? then Some(DefaultVisitStatus) else ParseVisitStatus(b.status.value);
      match st
      case None => Err(Unprocessable("status: not a valid enumeration member"))
      case Some(s) =>
        match ValidateTimeWindow(b.scheduledStart, b.scheduledEnd)
        case Fail(e) => Err(e)
        case Pass =>
          Ok(VisitCreate(
            b.organizationId, b.careRecipientId, b.assignedCaregiverId, vt,
            b.scheduledStart, b.scheduledEnd, b.timezone, b.address,
            b.recurrenceRule, b.parentVisitId, s, b.notes))
  }

  /** Enum coercion of an optional enum field: null stays null. */
  function ParseOptional<T>(s: Option<string>, parse: string -> Option<T>): Option<Option<T>> {
    match s
    case None => Some(None)
    case Some(x) => if parse(x).Some? then Some(Some(parse(x).value)) else None
  }

  /** `u` is what Pydantic builds from `b`: every field as given, null where
      the body has null, and each present enum the member whose value is the
      body's string. */
  ghost predicate CarriesUpdateBody(b: VisitUpdateBody, u: VisitUpdate) {
    && u.assignedCaregiverId == b.assignedCaregiverId
    && (u.visitType.None? <==> b.visitType.None?)
    && (u.visitType.Some? ==> u.visitType.value.Value() == b.visitType.value)
    && u.scheduledStart == b.scheduledStart
    && u.scheduledEnd == b.scheduledEnd
    && u.timezone == b.timezone
    && u.address == b.address
    && u.recurrenceRule == b.recurrenceRule
    && u.parentVisitId == b.parentVisitId
    && (u.status.None? <==> b.status.None?)
    && (u.status.Some? ==> u.status.value.Value() == b.status.value)
    && u.notes == b.notes
  }

  /** Validation of an update body. `VisitUpdate` declares no window
      validator, so a body whose own start and end are inverted passes. */
  function ParseVisitUpdate(b: VisitUpdateBody): (r: Result<VisitUpdate>)
    ensures r.Ok? <==>
      && (b.visitType.None? || ParseVisitType(b.visitType.value).Some?)
      && (b.status.None? || ParseVisitStatus(b.status.value).Some?)
    ensures r.Err? ==> r.error.Code() == 422
    ensures r.Ok? ==> r.value.scheduledStart == b.scheduledStart && r.value.scheduledEnd == b.scheduledEnd
    ensures r.Ok? ==> (r.value.status.None? <==> b.status.None?)
    ensures r.Ok? && b.status.Some? ==> r.value.status.value.Value() == b.status.value
    ensures r.Ok? ==> CarriesUpdateBody(b, r.value)
  {
    match ParseOptional(b.visitType, ParseVisitType)
    case None => Err(Unprocessable("visit_type: not a valid enumeration member"))
    case Some(vt) =>
      match ParseOptional(b.status, ParseVisitStatus)
      case None => Err(Unprocessable("status: not a valid enumeration member"))
      case Some(st) =>
        Ok(VisitUpdate(
          b.assignedCaregiverId, vt, b.scheduledStart, b.scheduledEnd, b.timezone,
          b.address, b.recurrenceRule, b.parentVisitId, st, b.notes))
  }
}

=== FILE: visits.dfy ===
/** The visit routes: scheduling, partial update, and the explicit start and
    end actions that drive a visit's status and check-in/check-out times. */
module Visits {
  import opened Common
  import opened VisitSchema
  import Listing

  /** The scheduled window is non-empty: the end is strictly after the start. */
  predicate ValidWindow(v: Visit) {
    v.scheduledStart < v.scheduledEnd
  }

  /** The statuses from which the start and end actions are allowed. */
  predicate Open(s: VisitStatus) {
    s == Scheduled || s == InProgress
  }

  /** `v` carries every column of the create payload `p`. */
  ghost predicate CarriesVisitPayload(v: Visit, p: VisitCreate) {
    && v.organizationId == p.organizationId && v.careRecipientId == p.careRecipientId
    && v.assignedCaregiverId == p.assignedCaregiverId && v.visitType == p.visitType
    && v.scheduledStart == p.scheduledStart && v.scheduledEnd == p.scheduledEnd
    && v.timezone == p.timezone && v.address == p.address
    && v.recurrenceRule == p.recurrenceRule && v.parentVisitId == p.parentVisitId
    && v.status == p.status && v.notes == p.notes
  }

  /** `create_visit`: builds the row from the payload, stamps the creator,
      and rejects an empty or inverted window with 400. */
  function CreateVisit(table: map<Id, Visit>, p: VisitCreate, ctx: Ctx): (r: Result<Saved<Visit>>)
    requires ctx.newId !in table
    ensures r.Err? <==> p.scheduledEnd <= p.scheduledStart
    ensures r.Err? ==> r.error == BadRequest(WindowDetail)
    ensures r.Ok? ==> r.value.id == ctx.newId && r.value.table == table[ctx.newId := r.value.row]
    ensures r.Ok? ==> r.value.row.createdById == Some(ctx.userId)
    ensures r.Ok? ==> ValidWindow(r.value.row)
    ensures r.Ok? ==> r.value.row.checkedInAt.None? && r.value.row.checkedOutAt.None?
    ensures r.Ok? ==> CarriesVisitPayload(r.value.row, p)
  {
    var v := Visit(
      p.organizationId, p.careRecipientId, p.assignedCaregiverId, p.visitType,
      p.scheduledStart, p.scheduledEnd, p.timezone, p.address, p.recurrenceRule,
      p.parentVisitId, p.status, None, None, p.notes, Some(ctx.userId));
    if v.scheduledEnd <= v.scheduledStart then Err(BadRequest(WindowDetail))
    else Ok(Saved(table[ctx.newId := v], ctx.newId, v))
  }

  /** `v'` is `v` with exactly the non-null fields of `p` written over it. The
      owner, recipient, creator and check times are not patchable. */
  ghost predicate IsVisitPatch(v: Visit, p: VisitUpdate, v': Visit) {
    && v'.assignedCaregiverId == (if p.assignedCaregiverId.Some? then p.assignedCaregiverId else v.assignedCaregiverId)
    && v'.visitType == (if p.visitType.Some? then p.visitType.value else v.visitType)
    && v'.scheduledStart == (if p.scheduledStart.Some? then p.scheduledStart.value else v.scheduledStart)
    && v'.scheduledEnd == (if p.scheduledEnd.Some? then p.scheduledEnd.value else v.scheduledEnd)
    && v'.timezone == (if p.timezone.Some? then p.timezone else v.timezone)
    && v'.address == PatchAddress(v.address, p.address)
    && v'.recurrenceRule == (if p.recurrenceRule.Some? then p.recurrenceRule else v.recurrenceRule)
    && v'.parentVisitId == (if p.parentVisitId.Some? then p.parentVisitId else v.parentVisitId)
    && v'.status == (if p.status.Some? then p.status.value else v.status)
    && v'.notes == (if p.notes.Some? then p.notes else v.notes)
    && v'.organizationId == v.organizationId
    && v'.careRecipientId == v.careRecipientId
    && v'.createdById == v.createdById
    && v'.checkedInAt == v.checkedInAt
    && v'.checkedOutAt == v.checkedOutAt
  }

  /** The field assignments of `update_visit`, in the route's order. */
  function ApplyVisitUpdate(v: Visit, p: VisitUpdate): Visit {
    v.(
      assignedCaregiverId := Patch(v.assignedCaregiverId, if p.assignedCaregiverId.Some? then Some(p.assignedCaregiverId) else None),
      visitType := Patch(v.visitType, p.visitType),
      scheduledStart := Patch(v.scheduledStart, p.scheduledStart),
      scheduledEnd := Patch(v.scheduledEnd, p.scheduledEnd),
      timezone := Patch(v.timezone, OptionOf(p.timezone)),
      address := PatchAddress(v.address, p.address),
      recurrenceRule := Patch(v.recurrenceRule, OptionOf(p.recurrenceRule)),
      parentVisitId := Patch(v.parentVisitId, if p.parentVisitId.Some? then Some(p.parentVisitId) else None),
      status := Patch(v.status, p.status),
      notes := Patch(v.notes, OptionOf(p.notes)))
  }

  /** `update_visit`: patches the non-null fields. Two checks run while the
      end is patched (against the payload's start if given, else the stored
      start), and a final check runs on the patched row; any failure is a 400
      and nothing is committed. Status may be set to any value. */
  function UpdateVisit(table: map<Id, Visit>, id: Id, p: VisitUpdate): (r: Result<Saved<Visit>>)
    ensures id !in table ==> r == Err(NotFound("Visit not found"))
    ensures id in table ==>
      (r.Ok? <==> Patch(table[id].scheduledStart, p.scheduledStart) < Patch(table[id].scheduledEnd, p.scheduledEnd))
    ensures id in table && r.Err? ==> r.error == BadRequest(WindowDetail)
    ensures r.Ok? ==> IsVisitPatch(table[id], p, r.value.row)
    ensures r.Ok? ==> ValidWindow(r.value.row)
    ensures r.Ok? ==> r.value.id == id && r.value.table == table[id := r.value.row]
  {
    if id !in table then Err(NotFound("Visit not found"))
    else
      var v := table[id];
      if p.scheduledEnd.Some? && p.scheduledStart.Some? && p.scheduledEnd.value <= p.scheduledStart.value then
        Err(BadRequest(WindowDetail))
      else if p.scheduledEnd.Some? && p.scheduledStart.None? && p.scheduledEnd.value <= v.scheduledStart then
        Err(BadRequest(WindowDetail))
      else
        var v' := ApplyVisitUpdate(v, p);
        if v'.scheduledEnd <= v'.scheduledStart then Err(BadRequest(WindowDetail))
        else Ok(Saved(table[id := v'], id, v'))
  }

  const StartDetail := "Visit can only be started from scheduled or in_progress status."
  const EndDetail := "Visit can only be ended from scheduled or in_progress status."

  /** `start_visit`: allowed from scheduled or in_progress; sets the status to
      in_progress and records the check-in time unless one is recorded. */
  function StartVisit(table: map<Id, Visit>, id: Id, now: int): (r: Result<Saved<Visit>>)
    ensures id !in table ==> r == Err(NotFound("Visit not found"))
    ensures id in table && !Open(table[id].status) ==> r == Err(BadRequest(StartDetail))
    ensures r.Ok? <==> id in table && Open(table[id].status)
    ensures r.Ok? ==> r.value.row.status == InProgress
    ensures r.Ok? ==> r.value.row.checkedInAt == (if table[id].checkedInAt.Some? then table[id].checkedInAt else Some(now))
    ensures r.Ok? ==> r.value.row.(status := table[id].status, checkedInAt := table[id].checkedInAt) == table[id]
    ensures r.Ok? ==> r.value.id == id && r.value.table == table[id := r.value.row]
  {
    if id !in table then Err(NotFound("Visit not found"))
    else
      var v := table[id];
      if !(v.status == Scheduled || v.status == InProgress) then Err(BadRequest(StartDetail))
      else
        var v' := v.(checkedInAt := if v.checkedInAt.None? then Some(now) else v.checkedInAt, status := InProgress);
        Ok(Saved(table[id := v'], id, v'))
  }

  /** `end_visit`: allowed from scheduled or in_progress; sets the status to
      completed, records the check-out time, and records a check-in time if
      none was recorded. The route reads the clock once for each; the model
      takes the single reading `now` for both. */
  function EndVisit(table: map<Id, Visit>, id: Id, now: int): (r: Result<Saved<Visit>>)
    ensures id !in table ==> r == Err(NotFound("Visit not found"))
    ensures id in table && !Open(table[id].status) ==> r == Err(BadRequest(EndDetail))
    ensures r.Ok? <==> id in table && Open(table[id].status)
    ensures r.Ok? ==> r.value.row.status == Completed && r.value.row.checkedOutAt == Some(now)
    ensures r.Ok? ==> r.value.row.checkedInAt == (if table[id].checkedInAt.Some? then table[id].checkedInAt else Some(now))
    ensures r.Ok? ==>
      r.value.row.(status := table[id].status, checkedInAt := table[id].checkedInAt, checkedOutAt := table[id].checkedOutAt) == table[id]
    ensures r.Ok? ==> r.value.id == id && r.value.table == table[id := r.value.row]
  {
    if id !in table then Err(NotFound("Visit not found"))
    else
      var v := table[id];
      if !(v.status == InProgress || v.status == Scheduled) then Err(BadRequest(EndDetail))
      else
        var v1 := v.(checkedInAt := if v.checkedInAt.None? then Some(now) else v.checkedInAt);
        var v' := v1.(checkedOutAt := Some(now), status := Completed);
        Ok(Saved(table[id := v'], id, v'))
  }

  /** Starting an already started visit changes nothing: the first check-in
      time is kept, whatever the clock says now. */
  lemma StartVisitIdempotent(table: map<Id, Visit>, id: Id, now1: int, now2: int)
    requires StartVisit(table, id, now1).Ok?
    ensures StartVisit(StartVisit(table, id, now1).value.table, id, now2) == StartVisit(table, id, now1)
  {
    var s := StartVisit(table, id, now1).value;
    assert s.table[id] == s.row;
    assert s.table[id := s.row] == s.table;
  }

  /** A visit can be ended only once: the second end is a 400. */
  lemma EndVisitTwiceFails(table: map<Id, Visit>, id: Id, now1: int, now2: int)
    requires EndVisit(table, id, now1).Ok?
    ensures EndVisit(EndVisit(table, id, now1).value.table, id, now2) == Err(BadRequest(EndDetail))
  {
    var s := EndVisit(table, id, now1).value;
    assert s.table[id] == s.row;
  }

  /** Start then end: the visit is completed and keeps the check-in time of the start. */
  lemma StartThenEndKeepsCheckIn(table: map<Id, Visit>, id: Id, t1: int, t2: int)
    requires StartVisit(table, id, t1).Ok?
    ensures EndVisit(StartVisit(table, id, t1).value.table, id, t2).Ok?
    ensures var e := EndVisit(StartVisit(table, id, t1).value.table, id, t2).value.row;
      && e.status == Completed
      && e.checkedInAt == StartVisit(table, id, t1).value.row.checkedInAt
      && e.checkedOutAt == Some(t2)
  {
    var s := StartVisit(table, id, t1).value;
    assert s.table[id] == s.row;
  }

  /** The clock has not run backwards: every recorded check time is at or before `now`. */
  ghost predicate ClockNotBehind(table: map<Id, Visit>, now: int) {
    forall k :: k in table ==>
      (table[k].checkedInAt.Some? ==> table[k].checkedInAt.value <= now) &&
      (table[k].checkedOutAt.Some? ==> table[k].checkedOutAt.value <= now)
  }

  /** A visit that has been checked out was checked in, no later. */
  ghost predicate CheckTimesOrdered(v: Visit) {
    v.checkedOutAt.Some? ==> v.checkedInAt.Some? && v.checkedInAt.value <= v.checkedOutAt.value
  }

  ghost predicate AllCheckTimesOrdered(table: map<Id, Visit>) {
    forall k :: k in table ==> CheckTimesOrdered(table[k])
  }

  /** Under a clock that does not run backwards, ending a visit checks it out
      no earlier than it was checked in. */
  lemma EndVisitOrdersCheckTimes(table: map<Id, Visit>, id: Id, now: int)
    requires ClockNotBehind(table, now)
    requires EndVisit(table, id, now).Ok?
    ensures CheckTimesOrdered(EndVisit(table, id, now).value.row)
  {
    assert id in table;
  }

  /** Every visit route keeps check-out after check-in for all rows, provided
      the clock has not run backwards. */
  lemma VisitRoutesKeepCheckTimesOrdered(table: map<Id, Visit>, id: Id, now: int, p: VisitUpdate, c: VisitCreate, ctx: Ctx)
    requires AllCheckTimesOrdered(table)
    requires ClockNotBehind(table, now)
    requires ctx.newId !in table
    ensures StartVisit(table, id, now).Ok? ==> AllCheckTimesOrdered(StartVisit(table, id, now).value.table)
    ensures EndVisit(table, id, now).Ok? ==> AllCheckTimesOrdered(EndVisit(table, id, now).value.table)
    ensures UpdateVisit(table, id, p).Ok? ==> AllCheckTimesOrdered(UpdateVisit(table, id, p).value.table)
    ensures CreateVisit(table, c, ctx).Ok? ==> AllCheckTimesOrdered(CreateVisit(table, c, ctx).value.table)
  {
    if StartVisit(table, id, now).Ok? {
      assert CheckTimesOrdered(table[id]);
      assert CheckTimesOrdered(StartVisit(table, id, now).value.row);
    }
    if EndVisit(table, id, now).Ok? {
      EndVisitOrdersCheckTimes(table, id, now);
    }
    if UpdateVisit(table, id, p).Ok? {
      assert CheckTimesOrdered(table[id]);
    }
  }

  ghost predicate AllWindowsValid(table: map<Id, Visit>) {
    forall k :: k in table ==> ValidWindow(table[k])
  }

  /** Every visit route keeps every scheduled window non-empty. */
  lemma VisitRoutesKeepWindowsValid(table: map<Id, Visit>, id: Id, now: int, p: VisitUpdate, c: VisitCreate, ctx: Ctx)
    requires AllWindowsValid(table)
    requires ctx.newId !in table
    ensures StartVisit(table, id, now).Ok? ==> AllWindowsValid(StartVisit(table, id, now).value.table)
    ensures EndVisit(table, id, now).Ok? ==> AllWindowsValid(EndVisit(table, id, now).value.table)
    ensures UpdateVisit(table, id, p).Ok? ==> AllWindowsValid(UpdateVisit(table, id, p).value.table)
    ensures CreateVisit(table, c, ctx).Ok? ==> AllWindowsValid(CreateVisit(table, c, ctx).value.table)
  {
    if StartVisit(table, id, now).Ok? {
      assert ValidWindow(table[id]);
    }
    if EndVisit(table, id, now).Ok? {
      assert ValidWindow(table[id]);
    }
  }

  /** The update route has no transition rule: a status-only patch sets any
      status on any visit whose window is valid, even a completed one back
      to scheduled. */
  lemma UpdateVisitSetsAnyStatus(table: map<Id, Visit>, id: Id, s: VisitStatus)
    requires id in table && ValidWindow(table[id])
    ensures var p := VisitUpdate(None, None, None, None, None, NoAddress(), None, None, Some(s), None);
      UpdateVisit(table, id, p).Ok? && UpdateVisit(table, id, p).value.row.status == s
  {
  }

  /** A body that passed validation is never rejected by the route's own
      window check, which is therefore a second line of defence. */
  lemma ValidatedCreateSucceeds(table: map<Id, Visit>, b: VisitCreateBody, ctx: Ctx)
    requires ctx.newId !in table
    requires ParseVisitCreate(b).Ok?
    ensures CreateVisit(table, ParseVisitCreate(b).value, ctx).Ok?
  {
  }

  /** The filter of `list_visits`: the current organization, and the recipient if one is given. */
  predicate ListedVisit(v: Visit, orgId: Id, careRecipientId: Option<Id>) {
    v.organizationId == orgId && (careRecipientId.None? || v.careRecipientId == careRecipientId.value)
  }

  /** `list_visits`: the organization's visits (of one recipient if given),
      earliest scheduled start first. */
  method ListVisits(table: map<Id, Visit>, orgId: Id, careRecipientId: Option<Id>) returns (rows: seq<(Id, Visit)>)
    ensures forall i :: 0 <= i < |rows| ==>
      rows[i].0 in table && table[rows[i].0] == rows[i].1 && ListedVisit(rows[i].1, orgId, careRecipientId)
    ensures forall k :: k in table && ListedVisit(table[k], orgId, careRecipientId) ==> k in Listing.Ids(rows)
    ensures forall i, j :: 0 <= i < j < |rows| ==> rows[i].0 != rows[j].0
    ensures forall i, j :: 0 <= i < j < |rows| ==> rows[i].1.scheduledStart <= rows[j].1.scheduledStart
  {
    var keep := (v: Visit) => ListedVisit(v, orgId, careRecipientId);
    var le := (a: Visit, b: Visit) => a.scheduledStart <= b.scheduledStart;
    rows := Listing.Query(table, keep, le);
  }
}
